=== FILE: README.md ===
# Calculators, a read-only record store and a voting registry, in Dafny

This project models four small Java programs and proves properties of the models.

- **The extended calculator (`PZ2.java`, `CalculatorModel`).** It takes out whitespace and rejects unbalanced parentheses. It rejects more than fifteen operators, counting `**` as one. It rewrites `**` to `^`, `exp(` to `e^(` and `log(` to `log2(`. Then it converts the infix text to postfix with a shunting-yard loop and evaluates the postfix words on a value stack. The operators are `+ - * / ^ !`; a lone `e` reads as Euler's constant.
- **The basic calculator (`KontrolRabota.java`, `CalculatorModel`).** It takes out whitespace and then applies the pattern `^-?\d+.*\d+$`. It converts with the same pop-while-greater-or-equal rule, over `+ - * / ^` only. It evaluates with the same binary-operator loop.
- **The record store (`PZ4.java`).** `DataRecord`, `DataCache` and `DataAPI` form a database of records keyed by id. A size-bounded cache holds only read-only records. Uploads, reads through the cache, updates of mutable records, reports over lists of ids and presence checks change or read that state.
- **The account registry (`PZ3.java`, `VotingSystem`).** It keeps three login-to-account maps: voters, election commissions (CEC) and candidates. It models:
  - registration of voters, with the identifier they are given;
  - creation of commissions and addition of candidates;
  - the three deletions;
  - the order in which `login` tries the built-in administrator and the three maps.

Modules:

| file | module | role |
|---|---|---|
| wrappers.dfy | `Wrappers` | `Option` and `Result` |
| lexing.dfy | `Lexing` | character classes, Java `\s` stripping, number runs, decimal literals, splitting at spaces |
| rpn.dfy | `Rpn` | postfix tokens, the operator stack, and popping while a condition holds |
| arithmetic.dfy | `Arithmetic` | the error kinds, `applyOperation`, `factorial` |
| extended_calculator.dfy | `ExtendedCalculator` | PZ2.java |
| extended_precedence.dfy | `ExtendedPrecedence` | PZ2.java on three operands: precedence and associativity end to end |
| extended_parentheses.dfy | `ExtendedParentheses` | PZ2.java on three operands with one parenthesised pair, end to end |
| extended_factorial.dfy | `ExtendedFactorial` | PZ2.java: the postfix `!`, end to end |
| basic_calculator.dfy | `BasicCalculator` | KontrolRabota.java |
| basic_sign.dfy | `BasicSign` | KontrolRabota.java: what a leading `-` does |
| engine_agreement.dfy | `EngineAgreement` | the two calculators agree where their inputs overlap |
| data_store.dfy | `DataStore` | PZ4.java |
| voting_system.dfy | `VotingSystem` | PZ3.java |

Each Java method that may throw becomes a function returning `Result`, with one `Error` per message it throws. Mutable objects become immutable values: maps, sequences and records, with transition functions between states. The state that a Java object shares between two places becomes two copies, and an invariant proves the copies stay equal.

Behaviours of the code worth noting:

- In the extended calculator, `(-1)!` fails with an empty stack, not with the negative-factorial error. The minus is binary, so the postfix text is `1 - !`. A negative operand must be computed, as in `(0-1)!`, which fails with the negative-factorial error.
- Both evaluators return the top of the value stack. They do not check that exactly one value is left, so `1 2 ` evaluates to 2.
- The converters drop characters they do not know, without an error.
- Every `e` becomes Euler's constant, because the letter branch comes before the function branch. So `e^(` is never pushed as a function.
- A literal that starts with a point, such as `.5`, is one number run to the converter. The evaluator reads every word that does not start with a digit as an operator. So such a word fails: with an empty stack when fewer than two values are on it (`1+.5` gives `1 .5 +`), otherwise as the unknown operation `.`.
- The basic calculator's pattern allows a leading `-`, but the converter treats it as one more binary operator. The evaluator then has no left operand for it, so `-2+3` fails with an empty stack (its postfix text is `2 - 3 +`).
- In `factorial`, `(int) n` saturates at 2^31-1, and `i++` wraps past it. For an operand of at least 2^31-1 the guard `i <= num` therefore never fails and the loop does not end (see Findings).

## Model

| member | source | states |
|---|---|---|
| Lexing.StripWhitespace | PZ2.java:17 | removing Java `\s` leaves no whitespace, keeps the count of every other character, and changes nothing in text without whitespace |
| Lexing.LexSegmentsMaximally | PZ2.java:94-100 | the number runs and single characters the conversion loop reads concatenate back to the input, and each run of digits and points is maximal |
| Lexing.ParseDecimal | PZ2.java:159 | a word parses exactly when it is digits with at most one point and at least one digit; the value is non-negative |
| Lexing.ParseNatToString | PZ2.java:159 | a natural number written in decimal parses back to itself |
| Lexing.StripConcat | PZ2.java:17 | stripping whitespace works piece by piece, so the characters kept stay in their order |
| Lexing.StripCons | PZ2.java:17 | a leading character is dropped exactly when it is whitespace |
| Lexing.ParseDigits | PZ2.java:159 | a word of digits parses to the number the digits denote |
| Lexing.ParsePointed | PZ2.java:159 | a word with one point parses to all its digits read as one number, scaled down by ten per digit after the point, so `1.25` is 125/100 |
| Lexing.PointSplit | PZ2.java:159 | a pointed value is its whole part plus its fraction digits over ten to their count |
| Lexing.PointScale | PZ2.java:159 | scaling a pointed value by ten per fraction digit gives the digits without the point |
| Lexing.WordsJoinWords | PZ2.java:153 | splitting at spaces the text the converter writes (each token followed by one space) gives back the tokens |
| Lexing.DigitWords | KontrolRabota.java:62 | two digit runs, each followed by a space, split into exactly those two words |
| ExtendedCalculator.CheckParentheses | PZ2.java:39-50 | true exactly when no prefix closes more parentheses than it opens and all opened ones are closed |
| ExtendedCalculator.ScanParentheses | PZ2.java:41-49 | from any index, the loop succeeds exactly when no later prefix goes below depth zero and the final depth is zero |
| ExtendedCalculator.CountOperators | PZ2.java:52-62 | the count equals the number of operator characters once `**` pairs are rewritten to `^`, so a `**` pair counts once |
| ExtendedCalculator.CountOperatorsFromAfterReplace | PZ2.java:54-60 | the counting loop from any index agrees with the rewrite of the remaining text |
| ExtendedCalculator.ReplaceDoubleStar | PZ2.java:66 | the result contains no `**`, and a leading `*` in it comes from a lone `*` |
| ExtendedCalculator.DoubleStarRoundTrip | PZ2.java:66 | on text without `^`, turning every `^` of the rewrite back into `**` gives the input |
| ExtendedCalculator.RewriteFunctionsRoundTrip | PZ2.java:69-84 | on text without `e^(` and `log2(`, undoing the `exp(` and `log(` rewrites gives the input, so every other character is copied in order |
| ExtendedCalculator.Preprocess | PZ2.java:64-85 | the preprocessed text contains no `**` |
| ExtendedCalculator.RewriteKeepsNoDoubleStar | PZ2.java:69-82 | the function rewrite inserts no `*`, so it creates no `**` pair |
| ExtendedCalculator.PreprocessRoundTrip | PZ2.java:64-85 | on text without `^`, and without `e^(` or `log2(` after the `**` rewrite, undoing both rewrites gives the input back |
| ExtendedCalculator.FunctionBranchUnreachable | PZ2.java:102-111 | every position where `isFunction` holds holds a letter, which the letter branch takes first |
| ExtendedCalculator.ConvertKeepsNumbers | PZ2.java:94-106 | the number tokens of the postfix output are, in input order, each maximal run of digits and points and Euler's constant for each `e` |
| ExtendedCalculator.ConvertKeepsOperators | PZ2.java:112-136 | each operator is emitted exactly as often as it occurs in the input; no other symbol is emitted, and no `(` for balanced input |
| ExtendedCalculator.ConvertOpenCount | PZ2.java:118-127 | the `(` emitted are exactly those left unclosed, so none for balanced input |
| ExtendedCalculator.EvalFromConcat | PZ2.java:155-185 | evaluating two word sequences one after the other equals evaluating their concatenation, failures included |
| ExtendedCalculator.EvaluateKeepsTop | PZ2.java:151-188 | two numbers and no operation evaluate to the second: the result is the top of the stack and a leftover value is not an error |
| ExtendedCalculator.Calculate | PZ2.java:16-37 | unbalanced parentheses fail as such; balanced text with more than fifteen operators fails as too many operations |
| ExtendedPrecedence.ConvertThreeOperands | PZ2.java:112-117 | `a o1 b o2 c` converts to `a b o1 c o2` when `o1` has greater or equal priority, and to `a b c o2 o1` otherwise; equal priorities group to the left |
| ExtendedPrecedence.InfixPassesChecks | PZ2.java:16-30 | three numerals with two binary operators pass the parenthesis and operator-count checks unchanged by preprocessing |
| ExtendedPrecedence.EvaluateGrouped | PZ2.java:151-188 | the grouped postfix form evaluates `o1` first exactly when it has greater or equal priority, with `b` popped before `a` |
| ExtendedPrecedence.CalculateThreeOperands | PZ2.java:16-37 | for natural numbers `x o1 y o2 z`, the calculator applies `o1` first exactly when its priority is greater or equal, so `2^3^2` is `(2^3)^2` |
| ExtendedPrecedence.DifferenceChainExample | PZ2.java:218-229 | `8-2-1` is `(8-2)-1 = 5`: `-` takes the right operand from the left, and equal priorities group to the left |
| ExtendedPrecedence.QuotientChainExample | PZ2.java:218-229 | `8/4/2` is `(8/4)/2 = 1`: `/` divides the left operand by the right, and equal priorities group to the left |
| ExtendedParentheses.ConvertLeftParenthesised | PZ2.java:112-136 | `(a o1 b) o2 c` converts to `a b o1 c o2` whatever the priorities of `o1` and `o2` |
| ExtendedParentheses.ConvertRightParenthesised | PZ2.java:112-136 | `a o1 (b o2 c)` converts to `a b c o2 o1` whatever the priorities |
| ExtendedParentheses.LeftPassesChecks | PZ2.java:16-30 | `(a o1 b) o2 c` passes the parenthesis and operator-count checks and is unchanged by stripping and preprocessing |
| ExtendedParentheses.RightPassesChecks | PZ2.java:16-30 | the same for `a o1 (b o2 c)` |
| ExtendedParentheses.EvaluateLeftPostfix | PZ2.java:151-188 | `a b o1 c o2` evaluates to `(x o1 y) o2 z`, or to the first error |
| ExtendedParentheses.EvaluateRightPostfix | PZ2.java:151-188 | `a b c o2 o1` evaluates to `x o1 (y o2 z)`, or to the first error |
| ExtendedParentheses.CalculateLeftParenthesised | PZ2.java:16-37 | the calculator gives `(x o1 y) o2 z` for `(a o1 b) o2 c`: the bracketed operation comes first even when `o2` binds tighter |
| ExtendedParentheses.CalculateRightParenthesised | PZ2.java:16-37 | the calculator gives `x o1 (y o2 z)` for `a o1 (b o2 c)`: the bracketed operation comes first even when `o1` binds as tightly |
| ExtendedParentheses.CalculateParenthesisedOperands | PZ2.java:16-37 | both statements for natural numbers written in decimal |
| ExtendedParentheses.GroupedSumExample | PZ2.java:16-37 | `(3+4)*2` is 14 |
| ExtendedParentheses.GroupedDivisorExample | PZ2.java:218-229 | `8/(4-4)` fails with division by zero |
| ExtendedFactorial.EvalFactorialThen | PZ2.java:167-169 | the `!` word pops one value and pushes its factorial, or ends evaluation with the factorial's error; the values below it stay |
| ExtendedFactorial.EvalFactorialEmpty | PZ2.java:167-169 | `!` on an empty stack fails with the empty-stack error |
| ExtendedFactorial.EvalBinaryOnOne | PZ2.java:178-182 | a binary operator with one value on the stack fails with the empty-stack error |
| ExtendedFactorial.ConvertFinalBang | PZ2.java:112-117 | a last `!` met with an empty operator stack is pushed and then popped to the end of the output |
| ExtendedFactorial.ConvertNumeralFactorial | PZ2.java:87-139 | `a!` converts to the postfix tokens `a !` |
| ExtendedFactorial.ConvertGroupFactorial | PZ2.java:87-139 | `(a o b)!` converts to `a b o !`: the bracket closes before `!` is pushed |
| ExtendedFactorial.ConvertSignedFactorial | PZ2.java:87-139 | `(-a)!` converts to `a - !`: a minus after `(` is an ordinary binary operator |
| ExtendedFactorial.BangPassesChecks | PZ2.java:16-29 | appending `!` to balanced text without whitespace, `**` or function letters passes every check and adds one operator |
| ExtendedFactorial.NumeralFactorialPassesChecks | PZ2.java:16-29 | `a!` passes every check unchanged, with one operator |
| ExtendedFactorial.GroupFactorialPassesChecks | PZ2.java:16-29 | `(a o b)!` passes every check unchanged, with two operators |
| ExtendedFactorial.SignedFactorialPassesChecks | PZ2.java:16-29 | `(-a)!` passes every check unchanged, with two operators |
| ExtendedFactorial.EvaluateNumeralFactorial | PZ2.java:151-188 | the words `a !` evaluate to the factorial of the value `a` reads as, or to its error |
| ExtendedFactorial.EvaluateGroupFactorial | PZ2.java:151-188 | the words `a b o !` apply `o` to the two values and then the factorial, or give the first error |
| ExtendedFactorial.EvaluateSignedFactorial | PZ2.java:151-188 | the words `a o !` fail with an empty stack: the binary operator finds one value |
| ExtendedFactorial.CalculateNumeralFactorial | PZ2.java:16-37 | the calculator gives the factorial of `a`'s value for `a!`, with the factorial's errors |
| ExtendedFactorial.CalculateFactorial | PZ2.java:16-37 | for every natural number n written in decimal, `n!` is n! |
| ExtendedFactorial.CalculateGroupFactorial | PZ2.java:16-37 | the calculator gives `(x o y)!` for `(a o b)!`: the factorial of the bracketed result, or the first error |
| ExtendedFactorial.CalculateSignedFactorial | PZ2.java:16-37 | `(o a)!` fails with an empty stack for every binary `o`, the minus included |
| ExtendedFactorial.ThreeFactorialExample | PZ2.java:206-216 | `3!` is 6 |
| ExtendedFactorial.NegatedOneExample | PZ2.java:167-182 | `(-1)!` fails with an empty stack, not with the negative-factorial error |
| ExtendedFactorial.NegativeDifferenceExample | PZ2.java:206-207 | `(0-1)!` fails with the negative-factorial error |
| Arithmetic.ApplyOperation | PZ2.java:218-229 | fails exactly for an unknown operator or a division by exactly zero, with the matching error |
| Arithmetic.SubtractUndoesAdd | PZ2.java:220-221 | `(a + b) - b` is `a`: `-` takes the right operand from the left |
| Arithmetic.DivideUndoesMultiply | PZ2.java:222-225 | `(a * b) / b` is `a` for a non-zero `b`: `/` divides the left operand by the right |
| Arithmetic.FactorialLoopComputesFact | PZ2.java:211-214 | the loop multiplying 2..n computes n! |
| Arithmetic.Factorial | PZ2.java:206-216 | a negative operand fails, a non-integer operand fails, and otherwise the result is n!, so 0! = 1! = 1 |
| Arithmetic.Int32Cast | PZ2.java:210 | `(int)` on a non-negative whole number keeps it exactly when it is at most 2^31-1, and saturates there otherwise |
| Arithmetic.Int32Increment | PZ2.java:212 | `i++` adds one below 2^31-1 and wraps to -2^31 from it |
| Arithmetic.Int32FactorialLoopNeverExits | PZ2.java:212-214 | with `num` at 2^31-1 the 32-bit loop never exits, however many iterations it is given |
| Arithmetic.FactorialAsWrittenHangs | PZ2.java:206-216 | for an operand of at least 2^31-1 the loop as written never ends |
| Arithmetic.Int32FactorialLoopAgrees | PZ2.java:210-214 | below 2^31-1 the 32-bit loop exits after `num - 1` iterations with the exact loop's result |
| BasicCalculator.OperatorsAreOperations | KontrolRabota.java:79-90 | a character is an operator exactly when its priority is positive, and exactly when `applyOperation` knows it |
| BasicCalculator.PassesGate | KontrolRabota.java:19-21 | the check from the ends (an optional `-`, then two or more characters with a digit first and last, no line terminator) holds exactly when the pattern matches |
| BasicCalculator.GateComplete | KontrolRabota.java:19 | every way of matching the pattern passes the check |
| BasicCalculator.SingleDigitRejected | KontrolRabota.java:19-21 | the input `5` is rejected as malformed |
| BasicCalculator.ConvertKeepsNumbers | KontrolRabota.java:37-44 | the number tokens of the output are the maximal runs of digits and points, in input order |
| BasicCalculator.ConvertKeepsOperators | KontrolRabota.java:45-55 | each of `+ - * / ^` is emitted exactly as often as it occurs; every other character, parentheses included, is dropped |
| BasicCalculator.EvalFrom | KontrolRabota.java:64-74 | the loop fails only with a number-format, empty-stack, division-by-zero or unknown-operation error |
| BasicCalculator.EvalFromBalance | KontrolRabota.java:64-74 | a successful run leaves as many values as the stack had, plus the numbers read, minus the operators applied |
| BasicCalculator.EvaluateNeedsOperands | KontrolRabota.java:60-77 | a successful evaluation reads more numbers than operators |
| BasicCalculator.EvaluateKeepsTop | KontrolRabota.java:60-77 | two numbers and no operation evaluate to the second: the result is the top of the stack and a leftover value is not an error |
| BasicCalculator.LeftoverExample | KontrolRabota.java:60-77 | `1 2 ` evaluates to 2 |
| BasicCalculator.PointLedWordIsOperation | KontrolRabota.java:67-72 | a word starting with `.` is read as an operator: it fails with an empty stack when fewer than two values are on it, otherwise as an unknown operation |
| BasicCalculator.Calculate | KontrolRabota.java:16-28 | the result is the malformed-expression error exactly when the stripped input fails the pattern; any other failure is an evaluation error |
| BasicSign.RunsAfterOperator | KontrolRabota.java:37-55 | from an operator or the end, the converter meets no more number runs than operators |
| BasicSign.OperationsOutnumber | KontrolRabota.java:30-58 | converted text that starts with an operator has no more number words than operation words |
| BasicSign.LeadingOperatorFails | KontrolRabota.java:16-28 | on text of number characters and the five operators, a leading operator, the `-` the pattern allows included, makes the calculation fail |
| BasicSign.SignedSumConverts | KontrolRabota.java:30-58 | text shaped like `-2+3` converts to `2 - 3 +`: the sign is pushed as an operator and popped by the `+` of equal priority |
| BasicSign.SignedSumEvaluates | KontrolRabota.java:60-77 | the postfix words `2 - 3 +` fail with an empty stack: the `-` finds one value |
| BasicSign.SignedSumCalculates | KontrolRabota.java:16-28 | text shaped like `-2+3` matches the pattern and its calculation fails with an empty stack |
| BasicSign.NegativeLeadFails | KontrolRabota.java:19-27 | `-2+3` matches the pattern and its calculation fails with an empty stack, not with a malformed-expression error |
| EngineAgreement.PrioritiesShifted | KontrolRabota.java:83-90 | on `+ - * / ^` the extended priorities are the basic ones plus one |
| EngineAgreement.ConvertAgrees | KontrolRabota.java:30-58 | on text of digits, points and `+ - * / ^`, both converters produce the same postfix tokens |
| EngineAgreement.EvaluateAgrees | KontrolRabota.java:60-77 | on postfix words none of which starts with `!`, `l` or `e`, both evaluators give the same result |
| EngineAgreement.EnginesAgree | KontrolRabota.java:16-28 | on text of digits, points and `+ - * / ^` without `**`, with at most fifteen operators and passing the pattern, both calculators give the same result |
| EngineAgreement.CalculateThreeOperands | KontrolRabota.java:45-55 | for natural numbers `x o1 y o2 z`, the basic calculator applies `o1` first exactly when its priority is greater or equal |
| EngineAgreement.DifferenceChainExample | KontrolRabota.java:92-104 | the basic calculator computes `8-2-1` as `(8-2)-1 = 5` |
| EngineAgreement.QuotientChainExample | KontrolRabota.java:92-104 | the basic calculator computes `8/4/2` as `(8/4)/2 = 1` |
| DataStore.CacheGet | PZ4.java:50-52 | present exactly for a cached id, with the cached record |
| DataStore.CachePut | PZ4.java:54-64 | a mutable record leaves the cache as it was; a read-only one is cached under its id; only entries that were oldest can go, and at most one of them |
| DataStore.PutKeepsBound | PZ4.java:56-62 | for a positive size, the cache never grows past it |
| DataStore.PutOfCachedIdShrinks | PZ4.java:56-62 | re-caching a cached id in a full cache that holds an older entry evicts that entry first, so the cache shrinks by one |
| DataStore.CacheClear | PZ4.java:66-68 | the cache is emptied and keeps its size |
| DataStore.InitialValid | PZ4.java:76-79 | the new store satisfies the invariant: every record is keyed by its id, and every cached record is the read-only record the database holds |
| DataStore.PutStoredKeepsValid | PZ4.java:107 | caching a record from the database keeps the invariant and the size bound |
| DataStore.Upload | PZ4.java:81-93 | the record is stored under the fresh id with the data and status asked for; other records stay; a read-only record is also cached |
| DataStore.UploadKeepsValid | PZ4.java:81-93 | upload under an unused id keeps the invariant and the size bound |
| DataStore.GetData | PZ4.java:95-113 | data comes back exactly when the id is cached or stored, the database is untouched, and a cache hit changes nothing; on a miss a read-only record is put into the cache (read-through), while a mutable record or an unknown id leaves the state unchanged |
| DataStore.GetDataReadsDatabase | PZ4.java:95-113 | under the invariant the data is the database's data for a stored id and absent otherwise |
| DataStore.UpdateData | PZ4.java:115-128 | refused, with nothing changed, exactly for an absent id or a read-only record; otherwise only that record's data and update time change |
| DataStore.UpdateKeepsValid | PZ4.java:115-128 | updating keeps the invariant and the size bound |
| DataStore.GenerateReportContents | PZ4.java:130-139 | the report holds exactly the listed ids the database stores, each with its database data, and leaves the database and the invariant intact |
| DataStore.RefreshMeansStored | PZ4.java:146-154 | under the invariant, `refreshData` is true exactly for a stored id |
| DataStore.ClearKeepsValid | PZ4.java:66-68 | clearing empties only the cache and keeps the invariant |
| VotingSystem.HashCodeFormula | PZ3.java:153 | `String.hashCode`, a loop in wrapping `int` arithmetic, equals the polynomial `s[0]*31^(n-1) + ... + s[n-1]` taken modulo 2^32 as a signed value |
| VotingSystem.IntToStringInjective | PZ3.java:153 | different integers are written differently |
| VotingSystem.GenerateUniqueId | PZ3.java:149-154 | `SNILS_` and the number when one is given, otherwise `NAME_` and the two hash codes |
| VotingSystem.NameIdsEqual | PZ3.java:153 | two name-based identifiers are equal exactly when both pairs of hash codes are |
| VotingSystem.SnilsIdsDistinct | PZ3.java:150-152 | an identifier from a SNILS number equals another exactly when both come from the same number; it never equals a name-based one |
| VotingSystem.NameIdsCollide | PZ3.java:153 | the names `Aa` and `BB` with the same birth date get the same identifier |
| VotingSystem.RegisterUser | PZ3.java:125-147 | a voter is added exactly when no map holds the login, with the given details and the generated identifier; otherwise nothing changes |
| VotingSystem.CreateCec | PZ3.java:332-345 | refused exactly when a commission holds the login; otherwise only the commissions gain it |
| VotingSystem.AddCandidate | PZ3.java:381-396 | refused exactly when a candidate holds the login; otherwise only the candidates gain it, with party and biography unset |
| VotingSystem.DeleteUser | PZ3.java:305-314 | succeeds exactly when a voter holds the login; only that voter is removed |
| VotingSystem.DeleteCec | PZ3.java:321-330 | succeeds exactly when a commission holds the login; only that commission is removed |
| VotingSystem.DeleteCandidate | PZ3.java:353-362 | succeeds exactly when a candidate holds the login; only that candidate is removed |
| VotingSystem.DeleteUndoesRegister | PZ3.java:143-145 | deleting the voter just registered restores the registry |
| VotingSystem.DeleteUndoesCreateCec | PZ3.java:343 | deleting the commission just created restores the registry |
| VotingSystem.DeleteUndoesAddCandidate | PZ3.java:394 | deleting the candidate just added restores the registry |
| VotingSystem.DeleteTwice | PZ3.java:305-314 | a second delete of the same login is refused and changes nothing |
| VotingSystem.AddsKeepKeyed | PZ3.java:143-145 | registering, creating and adding keep every account stored under its own login |
| VotingSystem.DeletesKeepKeyed | PZ3.java:305-362 | the deletions keep every account stored under its own login |
| VotingSystem.CrossMapDuplicates | PZ3.java:338-343 | a newly registered voter's login can then be a commission's and a candidate's as well |
| VotingSystem.RegisterAfterOthersRefused | PZ3.java:138-141 | a login a commission or candidate holds cannot be registered as a voter |
| VotingSystem.Login | PZ3.java:98-123 | the administrator's fixed pair wins first; otherwise the first of voters, commissions and candidates whose entry has the password wins; otherwise the login is refused |
| VotingSystem.LoginChecksPassword | PZ3.java:104-119 | only the fixed pair opens the administrator menu; any other session opens the entry stored under the login, whose password is the one typed |
| VotingSystem.CecShadowsCandidate | PZ3.java:111-119 | a commission with the login and password wins over a candidate with the same pair |
| VotingSystem.LoginOpensOwnAccount | PZ3.java:111-119 | in a well-keyed registry the account opened carries the login typed |
| VotingSystem.VoterShadowsOthers | PZ3.java:111-119 | when a voter has the login and password, no commission or candidate menu can open for them |
| VotingSystem.ShadowedCommissionReachable | PZ3.java:111-114 | registering a voter, then creating a commission with the same login and password, leaves a commission that can never log in |

## Left out

- IEEE-754 arithmetic. Numbers are exact reals. `Math.pow`, `Math.exp` and `Math.log(a)/Math.log(2)` are the fields of a `Floating` parameter, so nothing is assumed about them. Rounding, `-0.0`, NaN and infinities are not modelled. Division by exactly zero is the only arithmetic failure.
- `Double.parseDouble` is modelled on the words the converters can produce: digits with at most one point. Exponents, signs, hexadecimal and the `d`/`f` suffixes are not modelled. A run with two points fails as a number-format error.
- `Math.E` is the decimal text `2.718281828459045` in the converter and the same value in the evaluator. No property depends on its digits.
- `Character.isDigit`, `Character.isLetter` and `\d` are restricted to ASCII, because Unicode classes are not modelled.
- Arithmetic.Factorial loops up to the exact integer, the loop's evident intent (see Findings); the 32-bit loop as written is modelled separately. Where the exact loop is long, Java's result would already be infinite.
- The function branch of the extended converter (PZ2.java:108-111) is not written into the converter. `ExtendedCalculator.FunctionBranchUnreachable` shows the letter branch always takes it first.
- `ExtendedCalculator.Calculate` states only the two checks it makes before converting. What the conversion and evaluation give is stated by the precedence lemmas, for three operands.
- `EngineAgreement.EnginesAgree` covers inputs both calculators understand. On parentheses, `!`, letters and `**` the two programs differ by design.
- Whole-expression evaluation is proved for three operands, without parentheses and with one parenthesised pair on either side, not for expressions of any length or nesting. Conservation of operators and numbers is proved for any length.
- The consoles, menus and `main` methods of the four programs are input and output loops only.
- `exportResults` (PZ4.java:141-144) only formats the report with `toString`.
- `ConcurrentHashMap` thread safety is not modelled: the store is a sequential map.
- `System.currentTimeMillis` is a parameter `now`. `UUID.randomUUID` is a parameter `freshId`, which `DataStore.UploadKeepsValid` requires to be unused.
- DataStore.CachePut: when several cached entries are equally old, the one evicted depends on hash-map iteration order. The model picks one of them without saying which.
- Object sharing is not modelled: the database and the cache of PZ4.java hold the same record object. The model keeps two copies and proves them equal.
- Java serialization in `loadData` and `saveData`, `createVoting` (date parsing, `UUID`, `Date`), the `Voting` list and the empty stub methods of PZ3.java are left out. They are library calls or have no behaviour.
- VotingSystem.HashCode: Java hashes UTF-16 code units. The model hashes characters, so a character outside the Basic Multilingual Plane counts once where Java would hash two surrogates.
- VotingSystem.GenerateUniqueId: `snils` is never null in the program, because `Scanner.nextLine` never returns null, so only the empty check is modelled.
- `fillCandidateData` (setting party and biography) is a menu action outside the registry's decision logic.

## Findings

| source | as written | input that shows it | evidently intended | confidence | as-written member | corrected member |
|---|---|---|---|---|---|---|
| PZ2.java:210-214 | `int num = (int) n` saturates at 2^31-1, and the loop `for (int i = 2; i <= num; i++)` wraps `i` to -2^31 after 2^31-1, so `i <= num` always holds | the expression `2147483647!` | the loop ends after `num - 1` iterations and gives n!, which for such n is already infinite in double arithmetic | not executed | Arithmetic.FactorialAsWrittenHangs | Arithmetic.Factorial |

=== FILE: arithmetic.dfy ===
/**
 The arithmetic the two evaluators share: the error kinds, the binary
 operations of `applyOperation`, and the factorial of the extended engine.
 Values are exact reals; the floating-point library functions are left
 uninterpreted by passing them in as a `Floating` record.
 */
module Arithmetic {
  import opened Wrappers

  /**
   Every way one evaluation can end in an exception: the messages the code
   throws itself, `EmptyStackException` from `Stack.pop` on an empty stack, and
   `NumberFormatException` from `Double.parseDouble`.
   */
  datatype Error =
    | MalformedExpression
    | UnbalancedParentheses
    | TooManyOperations
    | DivisionByZero
    | NegativeFactorial
    | NonIntegerFactorial
    | UnknownOperation
    | EmptyStack
    | NumberFormat

  /** `Math.pow`, `Math.exp` and `Math.log(a) / Math.log(2)`, whose values the model does not fix. */
  datatype Floating = Floating(pow: (real, real) -> real, exp: real -> real, log2: real -> real)

  /** The binary operators `applyOperation` knows. */
  predicate IsBinaryOperation(op: char) {
    op == '+' || op == '-' || op == '*' || op == '/' || op == '^'
  }

  /**
   `applyOperation(op, a, b)`: `a op b`, where `a` is the LEFT operand. It fails
   exactly for an unknown operator and for a division by exactly zero.
   */
  function ApplyOperation(lib: Floating, op: char, a: real, b: real): (r: Result<real, Error>)
    ensures r.Failure? <==> !IsBinaryOperation(op) || (op == '/' && b == 0.0)
    ensures r == Failure(DivisionByZero) <==> op == '/' && b == 0.0
    ensures r == Failure(UnknownOperation) <==> !IsBinaryOperation(op)
  {
    match op
    case '+' => Success(a + b)
    case '-' => Success(a - b)
    case '*' => Success(a * b)
    case '/' => if b == 0.0 then Failure(DivisionByZero) else Success(a / b)
    case '^' => Success(lib.pow(a, b))
    case _ => Failure(UnknownOperation)
  }

  /** `-` takes the right operand from the left: it undoes `+` of the same right operand. */
  lemma SubtractUndoesAdd(lib: Floating, a: real, b: real)
    ensures ApplyOperation(lib, '+', a, b).Success?
    ensures ApplyOperation(lib, '-', ApplyOperation(lib, '+', a, b).value, b) == Success(a)
  {
  }

  /** `/` divides the left operand by the right: it undoes `*` by the same non-zero right operand. */
  lemma DivideUndoesMultiply(lib: Floating, a: real, b: real)
    requires b != 0.0
    ensures ApplyOperation(lib, '*', a, b).Success?
    ensures ApplyOperation(lib, '/', ApplyOperation(lib, '*', a, b).value, b) == Success(a)
  {
    assert ApplyOperation(lib, '*', a, b) == Success(a * b);
    calc {
      (a * b) / b;
      a * (b / b);
      a * 1.0;
    }
    assert ApplyOperation(lib, '/', a * b, b) == Success(a);
  }

  /** The factorial as a mathematical definition. */
  function Fact(n: nat): nat {
    if n == 0 then 1 else n * Fact(n - 1)
  }

  /** The loop `for (int i = 2; i <= num; i++) result *= i;`, from counter `i` and accumulator `acc`. */
  function FactorialLoop(i: nat, num: nat, acc: real): real
    decreases num + 1 - i
  {
    if i > num then acc else FactorialLoop(i + 1, num, acc * i as real)
  }

  /** Entered with `(i-1)!` in the accumulator, the loop ends with `num!`. */
  lemma {:induction false} FactorialLoopComputesFact(i: nat, num: nat)
    requires 1 <= i <= num + 1
    ensures FactorialLoop(i, num, Fact(i - 1) as real) == Fact(num) as real
    decreases num + 1 - i
  {
    if i <= num {
      var f := Fact(i - 1);
      var acc := f as real * i as real;
      assert FactorialLoop(i, num, f as real) == FactorialLoop(i + 1, num, acc);
      assert acc == Fact(i) as real by {
        MulAsReal(f, i);
        assert Fact(i) == i * f;
      }
      FactorialLoopComputesFact(i + 1, num);
    }
  }

  lemma MulAsReal(x: nat, y: nat)
    ensures x as real * y as real == (y * x) as real
  {
  }

  /**
   `factorial(n)`: a negative operand and a non-integer operand are errors,
   checked in that order; otherwise the product `2 * 3 * ... * n`, which is
   `n!` (and 1 for 0 and 1).
   */
  function Factorial(n: real): (r: Result<real, Error>)
    ensures n < 0.0 ==> r == Failure(NegativeFactorial)
    ensures n >= 0.0 && n.Floor as real != n ==> r == Failure(NonIntegerFactorial)
    ensures n >= 0.0 && n.Floor as real == n ==> r == Success(Fact(n.Floor) as real)
  {
    if n < 0.0 then Failure(NegativeFactorial)
    else if n.Floor as real != n then Failure(NonIntegerFactorial)
    else
      var num: nat := n.Floor;
      if num == 0 then
        Success(FactorialLoop(2, num, 1.0))
      else
        FactorialLoopComputesFact(2, num);
        Success(FactorialLoop(2, num, 1.0))
  }

  // ---------------------------------------------------------------------------
  // The loop as written, on 32-bit `int`

  const Int32Max: int := 0x7fff_ffff
  const Int32Min: int := -0x8000_0000

  /** Java's `(int)` on a non-negative integral double: values past the range saturate at `Integer.MAX_VALUE`. */
  function Int32Cast(n: nat): (num: int)
    ensures 0 <= num <= Int32Max
    ensures num == n <==> n <= Int32Max
  {
    if n > Int32Max then Int32Max else n
  }

  /** `i++` on a 32-bit `int`: `Integer.MAX_VALUE + 1` wraps to `Integer.MIN_VALUE`. */
  function Int32Increment(i: int): (j: int)
    requires Int32Min <= i <= Int32Max
    ensures Int32Min <= j <= Int32Max
    ensures i < Int32Max ==> j == i + 1
    ensures i == Int32Max ==> j == Int32Min
  {
    if i == Int32Max then Int32Min else i + 1
  }

  /**
   The loop `for (int i = 2; i <= num; i++) result *= i;` with a 32-bit counter,
   run for at most `fuel` iterations: `Some(result)` when it exits in time,
   `None` when it is still running.
   */
  function Int32FactorialLoop(i: int, num: int, acc: real, fuel: nat): Option<real>
    requires Int32Min <= i <= Int32Max
    decreases fuel
  {
    if i > num then Some(acc)
    else if fuel == 0 then None
    else Int32FactorialLoop(Int32Increment(i), num, acc * i as real, fuel - 1)
  }

  /** With `num` at `Integer.MAX_VALUE` the guard `i <= num` never fails, so no number of iterations ends the loop. */
  lemma {:induction false} Int32FactorialLoopNeverExits(i: int, acc: real, fuel: nat)
    requires Int32Min <= i <= Int32Max
    ensures Int32FactorialLoop(i, Int32Max, acc, fuel) == None
    decreases fuel
  {
    if fuel > 0 {
      Int32FactorialLoopNeverExits(Int32Increment(i), acc * i as real, fuel - 1);
    }
  }

  /** `factorial(n)` for an integral `n` of at least 2^31 - 1: the cast saturates and the loop never exits. */
  lemma FactorialAsWrittenHangs(n: nat, fuel: nat)
    requires n >= Int32Max
    ensures Int32FactorialLoop(2, Int32Cast(n), 1.0, fuel) == None
  {
    Int32FactorialLoopNeverExits(2, 1.0, fuel);
  }

  /** Below 2^31 - 1 the 32-bit loop never wraps, exits after `num - 1` iterations, and agrees with the exact loop. */
  lemma {:induction false} Int32FactorialLoopAgrees(i: int, num: int, acc: real)
    requires 2 <= i <= num + 1 && num < Int32Max
    ensures Int32FactorialLoop(i, num, acc, num + 1 - i) == Some(FactorialLoop(i, num, acc))
    decreases num + 1 - i
  {
    if i <= num {
      Int32FactorialLoopAgrees(i + 1, num, acc * i as real);
    }
  }
}

=== FILE: basic_calculator.dfy ===
/**
 The basic calculator engine (`CalculatorModel` of KontrolRabota.java): strip
 whitespace, test the whole text against `^-?\d+.*\d+$`, convert to postfix
 with an operator stack, and evaluate the postfix text with a value stack.

 The converter knows no parentheses and no functions: every character that is
 neither a digit, a point nor one of `+ - * / ^` is dropped. The evaluator
 reads every word that does not start with a digit as a binary operator, so a
 leading `-` accepted by the pattern has no left operand, and a literal such
 as `.5` is read as the unknown operator `.`.
 */
module BasicCalculator {
  import opened Wrappers
  import opened Lexing
  import opened Rpn
  import opened Arithmetic

  /** `isOperator`: the five binary operators. */
  predicate IsOperator(c: char) {
    c == '+' || c == '-' || c == '*' || c == '/' || c == '^'
  }

  /** `getPriority`. */
  function Priority(c: char): int {
    match c
    case '^' => 3
    case '*' => 2
    case '/' => 2
    case '+' => 1
    case '-' => 1
    case _ => 0
  }

  /**
   The operators are exactly the characters of positive priority, and exactly
   the operations `applyOperation` knows, so no operator the converter emits
   is unknown to the evaluator.
   */
  lemma OperatorsAreOperations(c: char)
    ensures IsOperator(c) <==> Priority(c) > 0
    ensures IsOperator(c) <==> IsBinaryOperation(c)
  {
  }

  // ---------------------------------------------------------------------------
  // The pattern test

  /** The characters `.` in a Java regular expression does not match. */
  predicate IsLineTerminator(c: char) {
    c == '\n' || c == '\r' || c == '\U{0085}' || c == '\U{2028}' || c == '\U{2029}'
  }

  /** `s` is `sign lead middle tail`, one way for the groups of `^-?\d+.*\d+$` to cover it. */
  ghost predicate PatternParts(s: string, sign: string, lead: string, middle: string, tail: string) {
    && s == sign + lead + middle + tail
    && (sign == "" || sign == "-")
    && |lead| > 0 && AllDigits(lead)
    && (forall k :: 0 <= k < |middle| ==> !IsLineTerminator(middle[k]))
    && |tail| > 0 && AllDigits(tail)
  }

  /** `s.matches("^-?\\d+.*\\d+$")`: the pattern covers the whole string. */
  ghost predicate MatchesPattern(s: string) {
    exists sign: string, lead: string, middle: string, tail: string :: PatternParts(s, sign, lead, middle, tail)
  }

  /** The text after one optional leading `-`. */
  function Unsigned(s: string): string {
    if |s| > 0 && s[0] == '-' then s[1..] else s
  }

  /** The pattern decided from the ends: after an optional `-`, two or more characters, a digit first and last, no line terminator. */
  predicate GateHolds(s: string) {
    var t := Unsigned(s);
    |t| >= 2 && IsDigit(t[0]) && IsDigit(t[|t| - 1]) && forall k :: 0 <= k < |t| ==> !IsLineTerminator(t[k])
  }

  lemma GateSound(s: string)
    requires GateHolds(s)
    ensures MatchesPattern(s)
  {
    var t := Unsigned(s);
    var sign := if |s| > 0 && s[0] == '-' then "-" else "";
    var lead, middle, tail := [t[0]], t[1..|t| - 1], [t[|t| - 1]];
    SplitEnds(sign, t);
    assert AllDigits(lead) && AllDigits(tail);
    forall k | 0 <= k < |middle| ensures !IsLineTerminator(middle[k]) {
      assert middle[k] == t[k + 1];
    }
    PartsMatch(s, sign, lead, middle, tail);
  }

  lemma SplitEnds(sign: string, t: string)
    requires |t| >= 2
    ensures sign + t == sign + [t[0]] + t[1..|t| - 1] + [t[|t| - 1]]
  {
    assert t == [t[0]] + t[1..|t| - 1] + [t[|t| - 1]];
  }

  lemma PartsMatch(s: string, sign: string, lead: string, middle: string, tail: string)
    requires PatternParts(s, sign, lead, middle, tail)
    ensures MatchesPattern(s)
  {
  }

  lemma GateComplete(s: string, sign: string, lead: string, middle: string, tail: string)
    requires PatternParts(s, sign, lead, middle, tail)
    ensures GateHolds(s)
  {
    var t := lead + middle + tail;
    if sign == "-" {
      assert s == "-" + t;
      assert Unsigned(s) == t;
    } else {
      assert s == t;
      assert t[0] == lead[0];
    }
    forall k | 0 <= k < |t| ensures !IsLineTerminator(t[k]) {
      if k < |lead| {
        assert t[k] == lead[k];
      } else if k < |lead| + |middle| {
        assert t[k] == middle[k - |lead|];
      } else {
        assert t[k] == tail[k - |lead| - |middle|];
      }
    }
    assert t[|t| - 1] == tail[|tail| - 1];
  }

  /** The test of `calculate`: true exactly when the pattern covers the whole string. */
  function PassesGate(s: string): (ok: bool)
    ensures ok <==> MatchesPattern(s)
  {
    if GateHolds(s) then
      GateSound(s);
      true
    else
      assert !MatchesPattern(s) by {
        if MatchesPattern(s) {
          var sign: string, lead: string, middle: string, tail: string :| PatternParts(s, sign, lead, middle, tail);
          GateComplete(s, sign, lead, middle, tail);
        }
      }
      false
  }

  // ---------------------------------------------------------------------------
  // Conversion to postfix

  /** The pop rule for an incoming operator `c`: stack tops of greater or equal priority. */
  function PopsFor(c: char): char -> bool {
    t => Priority(t) >= Priority(c)
  }

  /** An operator arrives: pop every top of greater or equal priority, then push it. */
  function PushOperator(c: char, stack: seq<char>, out: seq<Token>): Shunt {
    var r := PopWhile(stack, out, PopsFor(c));
    Shunt(r.stack + [c], r.out)
  }

  /** One iteration of the loop of `convertToRPN`: a whole number run, an operator, or a dropped character. */
  function Step(s: string, i: nat, stack: seq<char>, out: seq<Token>): (m: Move)
    requires i < |s|
    ensures i < m.next <= |s|
  {
    if IsNumberChar(s[i]) then
      var j := SpanEnd(s, i, IsNumberChar);
      Move(j, Shunt(stack, out + [Number(s[i..j])]))
    else if IsOperator(s[i]) then Move(i + 1, PushOperator(s[i], stack, out))
    else Move(i + 1, Shunt(stack, out))
  }

  /** The loop of `convertToRPN` from index `i`, then the final emptying of the stack. */
  function ConvertFrom(s: string, i: nat, stack: seq<char>, out: seq<Token>): seq<Token>
    requires i <= |s|
    decreases |s| - i
  {
    if i == |s| then out + PopAll(stack)
    else
      var m := Step(s, i, stack, out);
      ConvertFrom(s, m.next, m.state.stack, m.state.out)
  }

  /** `convertToRPN`, as the token sequence its output string spells. */
  function ConvertToRPN(s: string): seq<Token> {
    ConvertFrom(s, 0, [], [])
  }

  /** A number run is read whole and emitted as one literal. */
  lemma StepRun(s: string, i: nat, stack: seq<char>, out: seq<Token>)
    requires i < |s| && IsNumberChar(s[i])
    ensures var j := SpanEnd(s, i, IsNumberChar);
      Step(s, i, stack, out) == Move(j, Shunt(stack, out + [Number(s[i..j])]))
  {
  }

  /** Any other character is pushed if it is an operator and dropped otherwise. */
  lemma StepChar(s: string, i: nat, stack: seq<char>, out: seq<Token>)
    requires i < |s| && !IsNumberChar(s[i])
    ensures Step(s, i, stack, out) ==
      Move(i + 1, if IsOperator(s[i]) then PushOperator(s[i], stack, out) else Shunt(stack, out))
  {
  }

  /** The texts of the number runs among the lexemes, in order. */
  function RunTexts(ls: seq<Lexeme>): seq<string> {
    if |ls| == 0 then [] else (if ls[0].Run? then [ls[0].text] else []) + RunTexts(ls[1..])
  }

  lemma RunTextsCons(l: Lexeme, ls: seq<Lexeme>)
    ensures RunTexts([l] + ls) == (if l.Run? then [l.text] else []) + RunTexts(ls)
  {
    assert ([l] + ls)[1..] == ls;
  }

  /** A number run is emitted as the one literal it lexes to. */
  lemma RunNumbers(s: string, i: nat, out: seq<Token>)
    requires i < |s| && IsNumberChar(s[i])
    ensures var j := SpanEnd(s, i, IsNumberChar);
      NumberLexemes(out + [Number(s[i..j])]) + RunTexts(LexFrom(s, j)) == NumberLexemes(out) + RunTexts(LexFrom(s, i))
  {
    LexRunStep(s, i);
    var j := SpanEnd(s, i, IsNumberChar);
    EmitRun(out, s[i..j], LexFrom(s, j));
  }

  /** Emitting a literal matches consuming its run from the lexemes. */
  lemma EmitRun(out: seq<Token>, w: string, ls: seq<Lexeme>)
    ensures NumberLexemes(out + [Number(w)]) + RunTexts(ls) == NumberLexemes(out) + RunTexts([Run(w)] + ls)
  {
    EmitNumber(out, w);
    RunTextsCons(Run(w), ls);
    var u, v := NumberLexemes(out), RunTexts(ls);
    assert u + [w] + v == u + ([w] + v);
  }


  /** Any other character emits no literal. */
  lemma CharNumbers(s: string, i: nat, stack: seq<char>, out: seq<Token>)
    requires i < |s| && !IsNumberChar(s[i])
    ensures var m := Step(s, i, stack, out);
      NumberLexemes(m.state.out) + RunTexts(LexFrom(s, m.next)) == NumberLexemes(out) + RunTexts(LexFrom(s, i))
  {
    var c := s[i];
    StepChar(s, i, stack, out);
    LexSingleStep(s, i);
    RunTextsCons(Single(c), LexFrom(s, i + 1));
    if IsOperator(c) {
      PushConserves(c, stack, out, PopsFor(c));
    }
  }

  lemma {:induction false} ConvertFromNumbers(s: string, i: nat, stack: seq<char>, out: seq<Token>)
    requires i <= |s|
    ensures NumberLexemes(ConvertFrom(s, i, stack, out)) == NumberLexemes(out) + RunTexts(LexFrom(s, i))
    decreases |s| - i
  {
    if i == |s| {
      NumberLexemesAppend(out, PopAll(stack));
      PopAllConserves(stack);
    } else {
      var m := Step(s, i, stack, out);
      if IsNumberChar(s[i]) {
        StepRun(s, i, stack, out);
        RunNumbers(s, i, out);
      } else {
        CharNumbers(s, i, stack, out);
      }
      ConvertFromNumbers(s, m.next, m.state.stack, m.state.out);
    }
  }

  /** The number literals of the postfix output are, in input order, the maximal digit/point runs of the input. */
  lemma ConvertKeepsNumbers(s: string)
    ensures NumberLexemes(ConvertToRPN(s)) == RunTexts(Lex(s))
  {
    ConvertFromNumbers(s, 0, [], []);
  }

  /** The operator characters of `s[i..]`, in input order. */
  function OperatorsFrom(s: string, i: nat): seq<char>
    requires i <= |s|
    decreases |s| - i
  {
    if i == |s| then [] else (if IsOperator(s[i]) then [s[i]] else []) + OperatorsFrom(s, i + 1)
  }

  /** The operator characters of `t`, in order. */
  function OperatorsOf(t: string): seq<char>
  {
    if t == [] then [] else (if IsOperator(t[0]) then [t[0]] else []) + OperatorsOf(t[1..])
  }

  /** Scanning from an index picks out the operators of the remaining text. */
  lemma {:induction false} OperatorsFromSuffix(s: string, i: nat)
    requires i <= |s|
    ensures OperatorsFrom(s, i) == OperatorsOf(s[i..])
    decreases |s| - i
  {
    if i < |s| {
      OperatorsFromSuffix(s, i + 1);
      assert s[i..][1..] == s[i + 1..];
    }
  }

  /** Counted character by character: each operator as often as it occurs, nothing else. */
  lemma {:induction false} OperatorsOfCount(t: string, o: char)
    ensures multiset(OperatorsOf(t))[o] == if IsOperator(o) then multiset(t)[o] else 0
  {
    if t != [] {
      OperatorsOfCount(t[1..], o);
      assert t == [t[0]] + t[1..];
      HeadCount(t[0], t[1..], o);
      if IsOperator(t[0]) {
        HeadCount(t[0], OperatorsOf(t[1..]), o);
      }
    }
  }

  lemma HeadCount(c: char, t: seq<char>, o: char)
    ensures multiset([c] + t)[o] == (if c == o then 1 else 0) + multiset(t)[o]
  {
    assert multiset([c] + t) == multiset{c} + multiset(t);
  }

  /** A run of number characters holds no operator. */
  lemma {:induction false} OperatorsFromRun(s: string, i: nat, j: nat)
    requires i <= j <= |s|
    requires forall k :: i <= k < j ==> IsNumberChar(s[k])
    ensures OperatorsFrom(s, i) == OperatorsFrom(s, j)
    decreases j - i
  {
    if i < j {
      OperatorsFromSkip(s, i);
      OperatorsFromRun(s, i + 1, j);
    }
  }

  lemma OperatorsFromSkip(s: string, i: nat)
    requires i < |s| && IsNumberChar(s[i])
    ensures OperatorsFrom(s, i) == OperatorsFrom(s, i + 1)
  {
  }

  /** One step moves symbols between the input, the stack and the output without losing or inventing any. */
  lemma StepSymbols(s: string, i: nat, stack: seq<char>, out: seq<Token>)
    requires i < |s|
    ensures var m := Step(s, i, stack, out);
      Content(m.state) + multiset(OperatorsFrom(s, m.next)) == Content(Shunt(stack, out)) + multiset(OperatorsFrom(s, i))
  {
    if IsNumberChar(s[i]) {
      var j := SpanEnd(s, i, IsNumberChar);
      StepRun(s, i, stack, out);
      EmitNumber(out, s[i..j]);
      OperatorsFromRun(s, i, j);
    } else {
      StepChar(s, i, stack, out);
      if IsOperator(s[i]) {
        PushConserves(s[i], stack, out, PopsFor(s[i]));
      }
    }
  }

  lemma {:induction false} ConvertFromSymbols(s: string, i: nat, stack: seq<char>, out: seq<Token>)
    requires i <= |s|
    ensures Symbols(ConvertFrom(s, i, stack, out)) == Content(Shunt(stack, out)) + multiset(OperatorsFrom(s, i))
    decreases |s| - i
  {
    if i == |s| {
      SymbolsAppend(out, PopAll(stack));
      PopAllConserves(stack);
    } else {
      var m := Step(s, i, stack, out);
      StepSymbols(s, i, stack, out);
      ConvertFromSymbols(s, m.next, m.state.stack, m.state.out);
    }
  }

  /**
   The symbols of the postfix output are exactly the operators of the input,
   each as often as it occurs; every other character, parentheses included,
   is dropped.
   */
  lemma ConvertKeepsOperators(s: string)
    ensures forall o :: Symbols(ConvertToRPN(s))[o] == if IsOperator(o) then multiset(s)[o] else 0
  {
    ConvertFromSymbols(s, 0, [], []);
    assert Content(Shunt([], [])) == multiset{};
    OperatorsFromSuffix(s, 0);
    assert s[0..] == s;
    forall o ensures Symbols(ConvertToRPN(s))[o] == if IsOperator(o) then multiset(s)[o] else 0 {
      OperatorsOfCount(s, o);
    }
  }

  // ---------------------------------------------------------------------------
  // Evaluation of the postfix text

  /** Every way the evaluator can fail. */
  predicate EvaluationError(e: Error) {
    e == NumberFormat || e == EmptyStack || e == DivisionByZero || e == UnknownOperation
  }

  /**
   The loop of `evaluateRPN` over the words of the postfix text, with the
   value stack (top last): a word starting with a digit is parsed and pushed;
   any other word pops `b`, then `a`, and pushes `a op b`.
   */
  function EvalFrom(lib: Floating, words: seq<string>, stack: seq<real>): (r: Result<seq<real>, Error>)
    ensures r.Failure? ==> EvaluationError(r.error)
    decreases |words|
  {
    if |words| == 0 then Success(stack)
    else
      var w := words[0];
      if |w| == 0 then EvalFrom(lib, words[1..], stack)
      else if IsDigit(w[0]) then
        match ParseDecimal(w)
        case None => Failure(NumberFormat)
        case Some(x) => EvalFrom(lib, words[1..], stack + [x])
      else if |stack| < 2 then Failure(EmptyStack)
      else
        var b := stack[|stack| - 1];
        var a := stack[|stack| - 2];
        match ApplyOperation(lib, w[0], a, b)
        case Failure(e) => Failure(e)
        case Success(c) => EvalFrom(lib, words[1..], stack[..|stack| - 2] + [c])
  }

  /** `evaluateRPN`: the top of the value stack once every word is consumed. */
  function EvaluateRPN(lib: Floating, rpn: string): (r: Result<real, Error>)
    ensures r.Failure? ==> EvaluationError(r.error)
  {
    match EvalFrom(lib, Words(rpn), [])
    case Failure(e) => Failure(e)
    case Success(stack) => if |stack| == 0 then Failure(EmptyStack) else Success(stack[|stack| - 1])
  }

  /** The words the evaluator reads as numbers: those starting with a digit. */
  function Operands(ws: seq<string>): nat {
    if |ws| == 0 then 0 else (if |ws[0]| > 0 && IsDigit(ws[0][0]) then 1 else 0) + Operands(ws[1..])
  }

  /** The words the evaluator reads as operators: the other non-empty ones. */
  function Operations(ws: seq<string>): nat {
    if |ws| == 0 then 0 else (if |ws[0]| > 0 && !IsDigit(ws[0][0]) then 1 else 0) + Operations(ws[1..])
  }

  /** Every number pushes one value and every operation takes two and gives one back. */
  lemma {:induction false} EvalFromBalance(lib: Floating, ws: seq<string>, stack: seq<real>)
    ensures var r := EvalFrom(lib, ws, stack);
      r.Success? ==> |r.value| + Operations(ws) == |stack| + Operands(ws)
    decreases |ws|
  {
    if |ws| > 0 {
      var w := ws[0];
      if |w| == 0 {
        EvalFromBalance(lib, ws[1..], stack);
      } else if IsDigit(w[0]) {
        if ParseDecimal(w).Some? {
          EvalFromBalance(lib, ws[1..], stack + [ParseDecimal(w).value]);
        }
      } else if |stack| >= 2 {
        var r := ApplyOperation(lib, w[0], stack[|stack| - 2], stack[|stack| - 1]);
        if r.Success? {
          EvalFromBalance(lib, ws[1..], stack[..|stack| - 2] + [r.value]);
        }
      }
    }
  }

  /** A postfix text evaluates only if it holds more numbers than operations. */
  lemma EvaluateNeedsOperands(lib: Floating, rpn: string)
    ensures EvaluateRPN(lib, rpn).Success? ==> Operands(Words(rpn)) > Operations(Words(rpn))
  {
    EvalFromBalance(lib, Words(rpn), []);
  }

  /**
   The result is the top of the value stack, whatever lies below it: two
   numbers and no operation evaluate to the second, the first is ignored.
   */
  lemma EvaluateKeepsTop(lib: Floating, a: string, b: string)
    requires |a| > 0 && AllDigits(a) && |b| > 0 && AllDigits(b)
    ensures EvaluateRPN(lib, a + " " + b + " ") == Success(DigitsValue(b) as real)
  {
    DigitWords(a, b);
    ParseDigits(a);
    ParseDigits(b);
    var x, y := DigitsValue(a) as real, DigitsValue(b) as real;
    assert [a, b][1..] == [b] && [b][1..] == [];
    assert [] + [x] == [x] && [x] + [y] == [x, y];
    assert EvalFrom(lib, [a, b], []) == EvalFrom(lib, [b], [x]);
    assert EvalFrom(lib, [b], [x]) == EvalFrom(lib, [], [x, y]);
  }

  /** `1 2 ` evaluates to 2, leaving the 1 on the stack. */
  lemma LeftoverExample(lib: Floating)
    ensures EvaluateRPN(lib, "1 2 ") == Success(2.0)
  {
    LeftoverText();
    EvaluateKeepsTop(lib, "1", "2");
  }

  /** The text `1 2 ` as the two digit runs, and the value of the second. */
  lemma LeftoverText()
    ensures "1" + " " + "2" + " " == "1 2 "
    ensures DigitsValue("2") == 2
  {
    assert "2"[..0] == "";
  }

  /**
   A word that does not start with a digit is applied as an operator, so a
   point-led literal such as `.5` never reads as a number: with fewer than two
   values on the stack it fails with an empty stack (`1+.5` gives `1 .5 +`),
   otherwise as the unknown operation `.`.
   */
  lemma PointLedWordIsOperation(lib: Floating, w: string, rest: seq<string>, stack: seq<real>)
    requires |w| > 0 && w[0] == '.'
    ensures EvalFrom(lib, [w] + rest, stack) == Failure(if |stack| < 2 then EmptyStack else UnknownOperation)
  {
    assert ([w] + rest)[0] == w;
  }

  // ---------------------------------------------------------------------------
  // The whole calculation

  /**
   `calculate`: after whitespace removal the expression must match the
   pattern; the converted text is then evaluated. Rejection by the pattern is
   the only way to get `MalformedExpression`.
   */
  function Calculate(lib: Floating, expression: string): (r: Result<real, Error>)
    ensures r == Failure(MalformedExpression) <==> !MatchesPattern(StripWhitespace(expression))
    ensures r.Failure? && MatchesPattern(StripWhitespace(expression)) ==> EvaluationError(r.error)
  {
    var s := StripWhitespace(expression);
    if !PassesGate(s) then Failure(MalformedExpression)
    else EvaluateRPN(lib, Render(ConvertToRPN(s)))
  }

  /** A single digit does not match `-?\d+.*\d+`, which needs a digit at each end of two or more characters. */
  lemma SingleDigitRejected(lib: Floating)
    ensures Calculate(lib, "5") == Failure(MalformedExpression)
  {
    assert StripWhitespace("5") == "5" by {
      assert NoWhitespace("5");
    }
    assert !GateHolds("5");
  }
}

=== FILE: basic_sign.dfy ===
/**
 The leading minus of the basic calculator. The pattern `^-?\d+.*\d+$` admits
 a `-` in front, but the converter treats it as one more binary operator and
 the evaluator has no left operand for it: on text made only of number
 characters and the five operators, a leading operator leaves at least as
 many operations as numbers in the postfix text, and the evaluation fails.
 */
module BasicSign {
  import opened Wrappers
  import opened Lexing
  import opened Rpn
  import opened Arithmetic
  import Basic = BasicCalculator
  import Agreement = EngineAgreement

  /**
   From an operator (or the end), every number run of the rest is preceded by
   an operator of its own, so there are no more runs than operators.
   */
  lemma {:induction false} RunsAfterOperator(s: string, i: nat)
    requires i <= |s| && Agreement.Plain(s)
    requires i == |s| || !IsNumberChar(s[i])
    ensures |Basic.RunTexts(LexFrom(s, i))| <= |Basic.OperatorsFrom(s, i)|
    decreases |s| - i
  {
    if i < |s| {
      assert Agreement.PlainChar(s[i]);
      LexSingleStep(s, i);
      Basic.RunTextsCons(Single(s[i]), LexFrom(s, i + 1));
      if i + 1 < |s| && IsNumberChar(s[i + 1]) {
        var j := SpanEnd(s, i + 1, IsNumberChar);
        LexRunStep(s, i + 1);
        Basic.RunTextsCons(Run(s[i + 1..j]), LexFrom(s, j));
        Basic.OperatorsFromRun(s, i + 1, j);
        RunsAfterOperator(s, j);
      } else {
        RunsAfterOperator(s, i + 1);
      }
    }
  }

  /** In a stream of plain tokens, the words read as numbers are number tokens and every symbol is read as an operation. */
  lemma {:induction false} TokenWordCounts(ts: seq<Token>)
    requires Agreement.PlainTokens(ts)
    ensures Basic.Operands(Texts(ts)) <= |NumberLexemes(ts)|
    ensures |Symbols(ts)| <= Basic.Operations(Texts(ts))
  {
    if |ts| > 0 {
      assert Agreement.PlainTokens(ts[1..]) by {
        assert forall k :: 0 <= k < |ts[1..]| ==> ts[1..][k] == ts[k + 1];
      }
      TokenWordCounts(ts[1..]);
      assert Texts(ts)[1..] == Texts(ts[1..]);
      assert Agreement.PlainToken(ts[0]);
    }
  }

  /** The postfix text of plain input reads back word by word as its token texts. */
  lemma PlainWords(s: string)
    requires Agreement.Plain(s)
    ensures Agreement.PlainTokens(Basic.ConvertToRPN(s))
    ensures Words(Render(Basic.ConvertToRPN(s))) == Texts(Basic.ConvertToRPN(s))
  {
    var ts := Basic.ConvertToRPN(s);
    Agreement.ConvertFromPlain(s, 0, [], []);
    forall k | 0 <= k < |ts| ensures WordToken(ts[k]) {
      assert Agreement.PlainToken(ts[k]);
      if ts[k].Number? {
        var l := ts[k].lexeme;
        assert ' ' !in l by {
          forall m | 0 <= m < |l| ensures l[m] != ' ' {
            assert IsNumberChar(l[m]);
          }
        }
      }
    }
    SplitRender(ts);
  }

  /** Converted text that starts with an operator has no more number words than operation words. */
  lemma OperationsOutnumber(s: string)
    requires Agreement.Plain(s) && |s| > 0 && IsBinaryOperation(s[0])
    ensures var ws := Words(Render(Basic.ConvertToRPN(s)));
      Basic.Operands(ws) <= Basic.Operations(ws)
  {
    var ts := Basic.ConvertToRPN(s);
    PlainWords(s);
    TokenWordCounts(ts);
    Basic.ConvertKeepsNumbers(s);
    Basic.ConvertFromSymbols(s, 0, [], []);
    assert Content(Shunt([], [])) == multiset{};
    assert |Symbols(ts)| == |Basic.OperatorsFrom(s, 0)|;
    RunsAfterOperator(s, 0);
  }

  /**
   On text of number characters and the five operators, a leading `-` (or any
   leading operator) makes the calculation fail: the pattern rejects it or the
   evaluator runs out of operands.
   */
  lemma LeadingOperatorFails(lib: Floating, s: string)
    requires Agreement.Plain(s) && |s| > 0 && IsBinaryOperation(s[0])
    ensures Basic.Calculate(lib, s).Failure?
  {
    Agreement.PlainCharacters(s);
    var rpn := Render(Basic.ConvertToRPN(s));
    OperationsOutnumber(s);
    Basic.EvaluateNeedsOperands(lib, rpn);
  }

  // ---------------------------------------------------------------------------
  // The case `-2+3`, traced step by step

  /** The four characters of `-2+3`, stated index by index. */
  predicate SignedSum(s: string) {
    |s| == 4 && s[0] == '-' && s[1] == '2' && s[2] == '+' && s[3] == '3'
  }

  /** The leading `-` goes onto the empty operator stack. */
  lemma SignedSumFirst(s: string)
    requires SignedSum(s)
    ensures Basic.ConvertToRPN(s) == Basic.ConvertFrom(s, 1, ['-'], [])
  {
    SignPushed();
    Basic.StepChar(s, 0, [], []);
    assert Basic.Step(s, 0, [], []) == Move(1, Shunt(['-'], []));
  }

  /** On the empty stack an operator is pushed and nothing is emitted. */
  lemma SignPushed()
    ensures Basic.PushOperator('-', [], []) == Shunt(['-'], [])
  {
    assert PopWhile([], [], Basic.PopsFor('-')) == Shunt([], []);
  }

  /** The run `2` is emitted. */
  lemma SignedSumSecond(s: string)
    requires SignedSum(s)
    ensures Basic.ConvertFrom(s, 1, ['-'], []) == Basic.ConvertFrom(s, 2, ['-'], [Number("2")])
  {
    SpanEndUnique(s, 1, 2, IsNumberChar);
    Basic.StepRun(s, 1, ['-'], []);
    assert s[1..2] == "2";
    assert [] + [Number(s[1..2])] == [Number("2")];
  }

  /** `+` pops the `-` of equal priority and takes its place. */
  lemma SignedSumThird(s: string)
    requires SignedSum(s)
    ensures Basic.ConvertFrom(s, 2, ['-'], [Number("2")]) == Basic.ConvertFrom(s, 3, ['+'], [Number("2"), Symbol('-')])
  {
    SignPopped();
    Basic.StepChar(s, 2, ['-'], [Number("2")]);
    assert Basic.Step(s, 2, ['-'], [Number("2")]) == Move(3, Shunt(['+'], [Number("2"), Symbol('-')]));
  }

  /** `+` pops the `-` of equal priority before it is pushed. */
  lemma SignPopped()
    ensures Basic.PushOperator('+', ['-'], [Number("2")]) == Shunt(['+'], [Number("2"), Symbol('-')])
  {
    var r := PopWhile(['-'], [Number("2")], Basic.PopsFor('+'));
    assert Basic.PopsFor('+')('-');
    assert |r.stack| == 0;
    assert PopAll(['-']) == [Symbol('-')];
    assert r == Shunt([], [Number("2"), Symbol('-')]);
  }

  /** The run `3` is emitted and the stack is emptied at the end. */
  lemma SignedSumLast(s: string)
    requires SignedSum(s)
    ensures Basic.ConvertFrom(s, 3, ['+'], [Number("2"), Symbol('-')]) ==
      [Number("2"), Symbol('-'), Number("3"), Symbol('+')]
  {
    SpanEndUnique(s, 3, 4, IsNumberChar);
    Basic.StepRun(s, 3, ['+'], [Number("2"), Symbol('-')]);
    assert s[3..4] == "3";
    assert PopAll(['+']) == [Symbol('+')];
  }

  /** `-2+3` converts to `2 - 3 +`: the sign becomes the first operation. */
  lemma SignedSumConverts(s: string)
    requires SignedSum(s)
    ensures Basic.ConvertToRPN(s) == [Number("2"), Symbol('-'), Number("3"), Symbol('+')]
  {
    SignedSumFirst(s);
    SignedSumSecond(s);
    SignedSumThird(s);
    SignedSumLast(s);
  }

  /** The postfix text `2 - 3 + ` reads back as its four words. */
  lemma SignedSumWords()
    ensures Words(Render([Number("2"), Symbol('-'), Number("3"), Symbol('+')])) == ["2", "-", "3", "+"]
  {
    var ts := [Number("2"), Symbol('-'), Number("3"), Symbol('+')];
    assert forall k :: 0 <= k < |ts| ==> WordToken(ts[k]);
    SplitRender(ts);
    assert Texts(ts) == ["2", "-", "3", "+"];
  }

  /** The evaluator reads `2`, then meets `-` with one value on the stack. */
  lemma SignedSumEvaluates(lib: Floating)
    ensures Basic.EvalFrom(lib, ["2", "-", "3", "+"], []) == Failure(EmptyStack)
  {
    var ws := ["2", "-", "3", "+"];
    ParseDigits("2");
    assert ws[1..] == ["-", "3", "+"];
    assert Basic.EvalFrom(lib, ws, []) == Basic.EvalFrom(lib, ws[1..], [DigitsValue("2") as real]);
  }

  /** Text of the shape `-2+3` matches the pattern, and its calculation fails with an empty stack. */
  lemma SignedSumCalculates(lib: Floating, s: string)
    requires SignedSum(s)
    ensures Basic.MatchesPattern(s)
    ensures Basic.Calculate(lib, s) == Failure(EmptyStack)
  {
    assert NoWhitespace(s) by {
      assert forall k :: 0 <= k < |s| ==> s[k] in "-2+3";
    }
    assert Basic.GateHolds(s);
    Basic.GateSound(s);
    SignedSumConverts(s);
    SignedSumWords();
    SignedSumEvaluates(lib);
  }

  /** The literal `-2+3` has the four characters of `SignedSum`. */
  lemma SignedSumText()
    ensures SignedSum("-2+3")
  {
  }

  /**
   `-2+3` matches the pattern and still fails: the converter emits `2 - 3 +`,
   and the `-` finds a single value on the stack.
   */
  lemma NegativeLeadFails(lib: Floating)
    ensures Basic.Calculate(lib, "-2+3").Failure?
    ensures Basic.MatchesPattern("-2+3")
    ensures Basic.Calculate(lib, "-2+3") == Failure(EmptyStack)
  {
    SignedSumText();
    SignedSumCalculates(lib, "-2+3");
  }
}

=== FILE: data_store.dfy ===
/**
 The read-only cache and record store of PZ4.java (`DataRecord`, `DataCache`,
 `DataAPI`) as a state machine over immutable maps.

 The clock (`System.currentTimeMillis`) is a parameter `now`, and the id that
 `UUID.randomUUID` would draw is a parameter `freshId`. Records are values:
 the Java code shares one record object between the database and the cache,
 and the model instead proves that the two copies stay equal. Which of several
 equally old entries a full cache evicts depends on the hash map's iteration
 order; the model picks an unspecified one of them.
 */
module DataStore {
  import opened Wrappers

  /** `DataStatus`. */
  datatype Status = ReadOnly | Mutable

  /** A field value of a record's data, kept only to be compared and returned. */
  datatype Value = Value(repr: string)

  /** The `Map<String, Object>` a record holds. */
  type Payload = map<string, Value>

  /** `DataRecord`, with its times in clock units. */
  datatype Record = Record(id: string, data: Payload, status: Status, createdAt: int, updatedAt: int)

  /** `new DataRecord(id, data, status)` at time `now`: created and updated at `now`. */
  function NewRecord(id: string, data: Payload, status: Status, now: int): Record {
    Record(id, data, status, now, now)
  }

  /** `DataRecord.updateData(newData)` at time `now`. */
  function Updated(r: Record, newData: Payload, now: int): Record {
    r.(data := newData, updatedAt := now)
  }

  // ---------------------------------------------------------------------------
  // DataCache

  /** `DataCache`: the cached records by id and the size the cache aims to keep. */
  datatype Cache = Cache(entries: map<string, Record>, maxSize: int)

  /** `DataCache.get`. */
  function CacheGet(c: Cache, id: string): (r: Option<Record>)
    ensures r.Some? <==> id in c.entries
    ensures r.Some? ==> r.value == c.entries[id]
  {
    if id in c.entries then Some(c.entries[id]) else None
  }

  /** `DataCache.clear`. */
  function CacheClear(c: Cache): (c': Cache)
    ensures c'.entries == map[] && c'.maxSize == c.maxSize
  {
    c.(entries := map[])
  }

  /** `k` is an entry of least update time. */
  ghost predicate IsOldest(m: map<string, Record>, k: string) {
    k in m && forall j :: j in m ==> m[k].updatedAt <= m[j].updatedAt
  }

  /** A non-empty map has an entry of least update time. */
  lemma {:induction false} OldestExists(m: map<string, Record>)
    requires |m| > 0
    ensures exists k :: IsOldest(m, k)
    decreases |m|
  {
    var x :| x in m;
    var rest := map j | j in m && j != x :: m[j];
    assert rest.Keys == m.Keys - {x};
    if |rest| == 0 {
      assert forall j :: j in m ==> j == x || j in rest.Keys;
      assert IsOldest(m, x);
    } else {
      assert |rest| < |m| by {
        assert |rest.Keys| == |m.Keys| - 1;
      }
      OldestExists(rest);
      var k :| IsOldest(rest, k);
      var oldest := if m[x].updatedAt <= m[k].updatedAt then x else k;
      forall j | j in m ensures m[oldest].updatedAt <= m[j].updatedAt {
        if j != x {
          assert j in rest && rest[j] == m[j];
        }
      }
      assert IsOldest(m, oldest);
    }
  }

  /** The key the minimum by update time picks; the model does not fix which of several ties. */
  ghost function Oldest(m: map<string, Record>): (k: string)
    requires |m| > 0
    ensures IsOldest(m, k)
  {
    OldestExists(m);
    var k :| IsOldest(m, k);
    k
  }

  /** The entries left by the eviction step of `put`: a cache at or above its size drops one oldest entry. */
  ghost function MakeRoom(c: Cache): map<string, Record> {
    if |c.entries| >= c.maxSize && |c.entries| > 0 then c.entries - {Oldest(c.entries)} else c.entries
  }

  /**
   `DataCache.put`: a mutable record is ignored; a read-only one is cached
   under its id, after one oldest entry is evicted if the cache is at or above
   its size. Only an oldest entry is ever evicted, and at most one.
   */
  ghost function CachePut(c: Cache, r: Record): (c': Cache)
    ensures c'.maxSize == c.maxSize
    ensures r.status == Mutable ==> c' == c
    ensures r.status == ReadOnly ==> r.id in c'.entries && c'.entries[r.id] == r
    ensures forall k :: k in c'.entries && k != r.id ==> k in c.entries && c'.entries[k] == c.entries[k]
    ensures forall k :: k in c.entries && k !in c'.entries ==> IsOldest(c.entries, k)
    ensures forall k, j :: k in c.entries && k !in c'.entries && j in c.entries && j !in c'.entries ==> k == j
    ensures |c.entries| < c.maxSize ==> c.entries.Keys <= c'.entries.Keys
  {
    if r.status == ReadOnly then Cache(MakeRoom(c)[r.id := r], c.maxSize) else c
  }

  /** Removing a present key shrinks a map by one. */
  lemma RemoveOne(m: map<string, Record>, k: string)
    requires k in m
    ensures |m - {k}| == |m| - 1
  {
    assert (m - {k}).Keys == m.Keys - {k};
    assert |m.Keys - {k}| == |m.Keys| - 1;
  }

  /** With room for at least one entry, `put` keeps the cache within its size. */
  lemma PutKeepsBound(c: Cache, r: Record)
    requires c.maxSize >= 1 && |c.entries| <= c.maxSize
    ensures |CachePut(c, r).entries| <= c.maxSize
  {
    if r.status == ReadOnly && |c.entries| >= c.maxSize {
      RemoveOne(c.entries, Oldest(c.entries));
    }
  }

  /**
   `put` of a record whose id is already cached but is not the oldest, into a
   cache at its size, still evicts an oldest entry first: the cache shrinks.
   */
  lemma PutOfCachedIdShrinks(c: Cache, r: Record, older: string)
    requires r.status == ReadOnly && |c.entries| >= c.maxSize
    requires r.id in c.entries && older in c.entries && c.entries[older].updatedAt < c.entries[r.id].updatedAt
    ensures |CachePut(c, r).entries| == |c.entries| - 1
  {
    var v := Oldest(c.entries);
    assert v != r.id;
    RemoveOne(c.entries, v);
    assert r.id in c.entries - {v};
  }

  // ---------------------------------------------------------------------------
  // DataAPI

  /** `DataAPI`: the database of records by id and the cache. */
  datatype Store = Store(database: map<string, Record>, cache: Cache)

  /** `new DataAPI(cacheSize)`. */
  function Initial(cacheSize: int): Store {
    Store(map[], Cache(map[], cacheSize))
  }

  /**
   The invariant the operations keep: every record is stored under its own
   id, and every cached record is a read-only record of the database, equal
   to the database's copy.
   */
  ghost predicate Valid(st: Store) {
    && (forall k :: k in st.database ==> st.database[k].id == k)
    && (forall k :: k in st.cache.entries ==>
          k in st.database && st.cache.entries[k] == st.database[k] && st.database[k].status == ReadOnly)
  }

  /** The cache stays within its size whenever that size admits an entry. */
  ghost predicate Bounded(st: Store) {
    st.cache.maxSize >= 1 ==> |st.cache.entries| <= st.cache.maxSize
  }

  lemma InitialValid(cacheSize: int)
    ensures Valid(Initial(cacheSize)) && Bounded(Initial(cacheSize))
  {
  }

  /** Caching a read-only record of the database keeps the invariant and the bound. */
  lemma PutStoredKeepsValid(st: Store, id: string)
    requires Valid(st) && Bounded(st) && id in st.database
    ensures var st' := st.(cache := CachePut(st.cache, st.database[id]));
      Valid(st') && Bounded(st')
  {
    if st.cache.maxSize >= 1 {
      PutKeepsBound(st.cache, st.database[id]);
    }
  }

  /** The result of `uploadData`: the new id and the new state. */
  datatype Uploaded = Uploaded(id: string, store: Store)

  /**
   `uploadData(data, isReadOnly)` at time `now`, with `freshId` for the id the
   UUID generator draws: the record is stored under that id, and cached when
   it is read-only; no other record of the database changes.
   */
  ghost function Upload(st: Store, data: Payload, isReadOnly: bool, freshId: string, now: int): (u: Uploaded)
    ensures u.id == freshId
    ensures u.id in u.store.database && u.store.database[u.id].data == data && u.store.database[u.id].id == u.id
    ensures u.store.database[u.id].status == (if isReadOnly then ReadOnly else Mutable)
    ensures u.store.database.Keys == st.database.Keys + {freshId}
    ensures forall k :: k in st.database && k != freshId ==> u.store.database[k] == st.database[k]
    ensures isReadOnly ==> freshId in u.store.cache.entries && u.store.cache.entries[freshId] == u.store.database[freshId]
    ensures !isReadOnly ==> u.store.cache == st.cache
  {
    var record := NewRecord(freshId, data, if isReadOnly then ReadOnly else Mutable, now);
    var database := st.database[freshId := record];
    Uploaded(freshId, Store(database, if isReadOnly then CachePut(st.cache, record) else st.cache))
  }

  /** An upload under an id not yet stored keeps the invariant and the bound. */
  lemma UploadKeepsValid(st: Store, data: Payload, isReadOnly: bool, freshId: string, now: int)
    requires Valid(st) && Bounded(st) && freshId !in st.database
    ensures Valid(Upload(st, data, isReadOnly, freshId, now).store)
    ensures Bounded(Upload(st, data, isReadOnly, freshId, now).store)
  {
    var record := NewRecord(freshId, data, if isReadOnly then ReadOnly else Mutable, now);
    var mid := Store(st.database[freshId := record], st.cache);
    assert Valid(mid);
    if isReadOnly {
      PutStoredKeepsValid(mid, freshId);
    }
  }

  /** The result of `getData`: the data found, if any, and the new state. */
  datatype Fetched = Fetched(data: Option<Payload>, store: Store)

  /**
   `getData(id)`: the cached copy if there is one; otherwise the database's
   copy, which is cached when read-only; otherwise nothing. The database never
   changes.
   */
  ghost function GetData(st: Store, id: string): (f: Fetched)
    ensures f.store.database == st.database
    ensures f.data.Some? <==> id in st.cache.entries || id in st.database
    ensures id in st.cache.entries ==> f.store == st
    ensures id !in st.cache.entries && id in st.database && st.database[id].status == ReadOnly ==>
              f.store.cache == CachePut(st.cache, st.database[id])
    ensures id !in st.cache.entries && id in st.database && st.database[id].status == Mutable ==> f.store == st
    ensures id !in st.cache.entries && id !in st.database ==> f.store == st
  {
    match CacheGet(st.cache, id)
    case Some(cached) => Fetched(Some(cached.data), st)
    case None =>
      if id in st.database then
        var record := st.database[id];
        Fetched(Some(record.data), if record.status == ReadOnly then st.(cache := CachePut(st.cache, record)) else st)
      else Fetched(None, st)
  }

  /** Under the invariant, `getData` returns exactly the database's data, and keeps the invariant. */
  lemma GetDataReadsDatabase(st: Store, id: string)
    requires Valid(st) && Bounded(st)
    ensures GetData(st, id).data == if id in st.database then Some(st.database[id].data) else None
    ensures Valid(GetData(st, id).store) && Bounded(GetData(st, id).store)
  {
    if id !in st.cache.entries && id in st.database && st.database[id].status == ReadOnly {
      PutStoredKeepsValid(st, id);
    }
  }

  /** The result of `updateData`: whether it succeeded and the new state. */
  datatype Outcome = Outcome(ok: bool, store: Store)

  /**
   `updateData(id, newData)` at time `now`: refused, with nothing changed,
   for an unknown id or a read-only record; otherwise that record's data and
   update time are replaced and nothing else changes.
   */
  function UpdateData(st: Store, id: string, newData: Payload, now: int): (o: Outcome)
    ensures !o.ok <==> id !in st.database || st.database[id].status == ReadOnly
    ensures !o.ok ==> o.store == st
    ensures o.ok ==> && o.store.cache == st.cache
                     && o.store.database.Keys == st.database.Keys
                     && o.store.database[id].data == newData
                     && o.store.database[id].updatedAt == now
                     && o.store.database[id].id == st.database[id].id
                     && o.store.database[id].status == st.database[id].status
                     && o.store.database[id].createdAt == st.database[id].createdAt
                     && forall k :: k in st.database && k != id ==> o.store.database[k] == st.database[k]
  {
    if id !in st.database then Outcome(false, st)
    else
      var record := st.database[id];
      if record.status == ReadOnly then Outcome(false, st)
      else
        var database := st.database[id := Updated(record, newData, now)];
        assert database.Keys == st.database.Keys;
        Outcome(true, st.(database := database))
  }

  /** `updateData` keeps the invariant: it only touches mutable records, which are never cached. */
  lemma UpdateKeepsValid(st: Store, id: string, newData: Payload, now: int)
    requires Valid(st) && Bounded(st)
    ensures Valid(UpdateData(st, id, newData, now).store) && Bounded(UpdateData(st, id, newData, now).store)
  {
  }

  /** The result of `generateReport`: the data by id and the new state. */
  datatype Report = Report(entries: map<string, Payload>, store: Store)

  /** The loop of `generateReport` over `ids`, with the report so far and the state `getData` leaves. */
  ghost function ReportFrom(st: Store, ids: seq<string>, report: map<string, Payload>): Report
    decreases |ids|
  {
    if |ids| == 0 then Report(report, st)
    else
      var f := GetData(st, ids[0]);
      ReportFrom(f.store, ids[1..], Gather(f, ids[0], report))
  }

  /** `data.ifPresent(d -> report.put(dataId, d))`. */
  function Gather(f: Fetched, id: string, report: map<string, Payload>): map<string, Payload> {
    if f.data.Some? then report[id := f.data.value] else report
  }

  lemma GatherKeys(f: Fetched, id: string, report: map<string, Payload>)
    ensures Gather(f, id, report).Keys == report.Keys + (if f.data.Some? then {id} else {})
  {
  }

  /** One iteration of the loop of `generateReport` under the invariant: the database's data is gathered. */
  lemma ReportStep(st: Store, ids: seq<string>, report: map<string, Payload>)
    requires Valid(st) && Bounded(st) && |ids| > 0
    ensures var f := GetData(st, ids[0]);
      && ReportFrom(st, ids, report) == ReportFrom(f.store, ids[1..], Gather(f, ids[0], report))
      && Valid(f.store) && Bounded(f.store) && f.store.database == st.database
      && (f.data.Some? <==> ids[0] in st.database)
      && Gather(f, ids[0], report) == if ids[0] in st.database then report[ids[0] := st.database[ids[0]].data] else report
  {
    GetDataReadsDatabase(st, ids[0]);
  }

  /** `generateReport(dataIds)`. */
  ghost function GenerateReport(st: Store, ids: seq<string>): Report {
    ReportFrom(st, ids, map[])
  }

  /** The listed ids the database holds. */
  ghost function Listed(ids: seq<string>, database: map<string, Record>): set<string> {
    set k | k in ids && k in database
  }

  lemma ListedCons(ids: seq<string>, database: map<string, Record>)
    requires |ids| > 0
    ensures Listed(ids, database) == (if ids[0] in database then {ids[0]} else {}) + Listed(ids[1..], database)
  {
    assert forall k :: k in ids <==> k == ids[0] || k in ids[1..] by {
      assert ids == [ids[0]] + ids[1..];
    }
  }

  /** The loop of `generateReport` never changes the database and keeps the invariant and the bound. */
  lemma {:induction false} ReportFromKeepsValid(st: Store, ids: seq<string>, report: map<string, Payload>)
    requires Valid(st) && Bounded(st)
    ensures var r := ReportFrom(st, ids, report);
      r.store.database == st.database && Valid(r.store) && Bounded(r.store)
    decreases |ids|
  {
    if |ids| > 0 {
      var f := GetData(st, ids[0]);
      ReportStep(st, ids, report);
      ReportFromKeepsValid(f.store, ids[1..], Gather(f, ids[0], report));
    }
  }

  lemma UnionRegroup(a: set<string>, b: set<string>, c: set<string>)
    ensures (a + b) + c == a + (b + c)
  {
  }

  /** The loop of `generateReport` adds each listed id the database holds. */
  lemma {:induction false} ReportFromKeys(st: Store, ids: seq<string>, report: map<string, Payload>)
    requires Valid(st) && Bounded(st)
    ensures ReportFrom(st, ids, report).entries.Keys == report.Keys + Listed(ids, st.database)
    decreases |ids|
  {
    if |ids| > 0 {
      var id := ids[0];
      var f := GetData(st, id);
      ReportStep(st, ids, report);
      var next := Gather(f, id, report);
      var head := if id in st.database then {id} else {};
      GatherKeys(f, id, report);
      ReportFromKeys(f.store, ids[1..], next);
      ListedCons(ids, st.database);
      UnionRegroup(report.Keys, head, Listed(ids[1..], st.database));
    }
  }

  /** Each id the loop of `generateReport` adds carries the database's data. */
  lemma {:induction false} ReportFromValues(st: Store, ids: seq<string>, report: map<string, Payload>)
    requires Valid(st) && Bounded(st)
    ensures var r := ReportFrom(st, ids, report);
      forall k :: k in r.entries ==>
        if k in Listed(ids, st.database) then r.entries[k] == st.database[k].data else k in report && r.entries[k] == report[k]
    decreases |ids|
  {
    if |ids| > 0 {
      var id := ids[0];
      var f := GetData(st, id);
      ReportStep(st, ids, report);
      var next := Gather(f, id, report);
      ReportFromValues(f.store, ids[1..], next);
      ReportFromKeys(f.store, ids[1..], next);
      ListedCons(ids, st.database);
    }
  }

  /**
   The keys of the report are exactly the listed ids the database holds, each
   with the database's data; the database is left as it is.
   */
  lemma GenerateReportContents(st: Store, ids: seq<string>)
    requires Valid(st) && Bounded(st)
    ensures var r := GenerateReport(st, ids);
      && r.entries.Keys == Listed(ids, st.database)
      && (forall k :: k in r.entries ==> r.entries[k] == st.database[k].data)
      && r.store.database == st.database && Valid(r.store) && Bounded(r.store)
  {
    ReportFromKeepsValid(st, ids, map[]);
    ReportFromKeys(st, ids, map[]);
    ReportFromValues(st, ids, map[]);
  }

  /** `refreshData(id)`: the id is cached, or else stored in the database. */
  function RefreshData(st: Store, id: string): (found: bool) {
    CacheGet(st.cache, id).Some? || id in st.database
  }

  /** Under the invariant, `refreshData` is exactly membership in the database. */
  lemma RefreshMeansStored(st: Store, id: string)
    requires Valid(st)
    ensures RefreshData(st, id) <==> id in st.database
  {
  }

  /** `clear` empties only the cache and keeps the invariant. */
  lemma ClearKeepsValid(st: Store)
    requires Valid(st) && Bounded(st)
    ensures var st' := st.(cache := CacheClear(st.cache));
      Valid(st') && Bounded(st') && st'.database == st.database && st'.cache.entries == map[]
  {
  }
}

=== FILE: engine_agreement.dfy ===
/**
 The two engines compared on the text both understand: digits, decimal points
 and the five binary operators. Their priority tables differ by one on every
 binary operator, so they pop alike, convert such text to the same postfix
 tokens and evaluate those tokens alike. Once the basic engine's pattern test
 passes and the extended engine's checks pass, the two calculations agree,
 and the basic engine inherits the grouping shown for the extended one.
 */
module EngineAgreement {
  import opened Wrappers
  import opened Lexing
  import opened Rpn
  import opened Arithmetic
  import Basic = BasicCalculator
  import Extended = ExtendedCalculator
  import Precedence = ExtendedPrecedence

  /** A character both converters treat alike: part of a number or a binary operator. */
  predicate PlainChar(c: char) {
    IsNumberChar(c) || IsBinaryOperation(c)
  }

  predicate Plain(s: string) {
    forall k :: 0 <= k < |s| ==> PlainChar(s[k])
  }

  /** An operator stack that holds binary operators only. */
  predicate OperatorStack(stack: seq<char>) {
    forall k :: 0 <= k < |stack| ==> IsBinaryOperation(stack[k])
  }

  /** The extended priority of a binary operator is its basic priority plus one. */
  lemma PrioritiesShifted(c: char)
    requires IsBinaryOperation(c)
    ensures Extended.Priority(c) == Basic.Priority(c) + 1
    ensures Extended.IsOperator(c) && Basic.IsOperator(c) && !IsLetter(c) && !IsNumberChar(c)
  {
  }

  /** Two pop rules that judge every stack entry alike pop the same number of entries. */
  lemma {:induction false} PopCountAgrees(stack: seq<char>, p: char -> bool, q: char -> bool)
    requires forall k :: 0 <= k < |stack| ==> p(stack[k]) == q(stack[k])
    ensures PopCount(stack, p) == PopCount(stack, q)
  {
    if |stack| > 0 {
      assert p(Top(stack)) == q(Top(stack));
      assert forall k :: 0 <= k < |Pop(stack)| ==> Pop(stack)[k] == stack[k];
      PopCountAgrees(Pop(stack), p, q);
    }
  }

  /** Pushing a binary operator onto a stack of binary operators gives the same state in both engines. */
  lemma PushOperatorAgrees(c: char, stack: seq<char>, out: seq<Token>)
    requires IsBinaryOperation(c) && OperatorStack(stack)
    ensures Basic.PushOperator(c, stack, out) == Extended.PushOperator(c, stack, out)
    ensures OperatorStack(Basic.PushOperator(c, stack, out).stack)
  {
    forall k | 0 <= k < |stack| ensures Basic.PopsFor(c)(stack[k]) == Extended.PopsFor(c)(stack[k]) {
      PrioritiesShifted(c);
      PrioritiesShifted(stack[k]);
    }
    PopCountAgrees(stack, Basic.PopsFor(c), Extended.PopsFor(c));
  }

  lemma StepAgrees(s: string, i: nat, stack: seq<char>, out: seq<Token>)
    requires i < |s| && PlainChar(s[i]) && OperatorStack(stack)
    ensures Basic.Step(s, i, stack, out) == Extended.Step(s, i, stack, out)
    ensures OperatorStack(Basic.Step(s, i, stack, out).state.stack)
  {
    if IsNumberChar(s[i]) {
      Basic.StepRun(s, i, stack, out);
      Extended.StepRun(s, i, stack, out);
    } else {
      PrioritiesShifted(s[i]);
      Basic.StepChar(s, i, stack, out);
      Extended.StepChar(s, i, stack, out);
      PushOperatorAgrees(s[i], stack, out);
    }
  }

  lemma {:induction false} ConvertFromAgrees(s: string, i: nat, stack: seq<char>, out: seq<Token>)
    requires i <= |s| && Plain(s) && OperatorStack(stack)
    ensures Basic.ConvertFrom(s, i, stack, out) == Extended.ConvertFrom(s, i, stack, out)
    decreases |s| - i
  {
    if i < |s| {
      var m := Basic.Step(s, i, stack, out);
      StepAgrees(s, i, stack, out);
      ConvertFromAgrees(s, m.next, m.state.stack, m.state.out);
    }
  }

  /** On plain text both converters produce the same postfix tokens. */
  lemma ConvertAgrees(s: string)
    requires Plain(s)
    ensures Basic.ConvertToRPN(s) == Extended.ConvertToRPN(s)
  {
    ConvertFromAgrees(s, 0, [], []);
  }

  // ---------------------------------------------------------------------------
  // Evaluation

  /** A word both evaluators read alike: empty, a number, or an operator that is neither `!` nor a function. */
  predicate PlainWord(w: string) {
    |w| == 0 || IsDigit(w[0]) || (w[0] != '!' && w[0] != 'l' && w[0] != 'e')
  }

  predicate PlainWords(ws: seq<string>) {
    forall k :: 0 <= k < |ws| ==> PlainWord(ws[k])
  }

  lemma {:induction false} EvalFromAgrees(lib: Floating, ws: seq<string>, stack: seq<real>)
    requires PlainWords(ws)
    ensures Basic.EvalFrom(lib, ws, stack) == Extended.EvalFrom(lib, ws, stack)
    decreases |ws|
  {
    if |ws| > 0 {
      var w := ws[0];
      assert PlainWord(w);
      assert PlainWords(ws[1..]) by {
        assert forall k :: 0 <= k < |ws[1..]| ==> ws[1..][k] == ws[k + 1];
      }
      if |w| == 0 {
        EvalFromAgrees(lib, ws[1..], stack);
      } else if IsDigit(w[0]) {
        if ParseDecimal(w).Some? {
          EvalFromAgrees(lib, ws[1..], stack + [ParseDecimal(w).value]);
        }
      } else if |stack| >= 2 {
        var r := ApplyOperation(lib, w[0], stack[|stack| - 2], stack[|stack| - 1]);
        if r.Success? {
          EvalFromAgrees(lib, ws[1..], stack[..|stack| - 2] + [r.value]);
        }
      }
    }
  }

  /** A postfix text of plain words evaluates alike in both engines. */
  lemma EvaluateAgrees(lib: Floating, rpn: string)
    requires PlainWords(Words(rpn))
    ensures Basic.EvaluateRPN(lib, rpn) == Extended.EvaluateRPN(lib, rpn)
  {
    EvalFromAgrees(lib, Words(rpn), []);
  }

  /** A token of plain text: a non-empty run of number characters, or a binary operator. */
  predicate PlainToken(t: Token) {
    match t
    case Number(l) => |l| > 0 && forall m :: 0 <= m < |l| ==> IsNumberChar(l[m])
    case Symbol(c) => IsBinaryOperation(c)
  }

  predicate PlainTokens(ts: seq<Token>) {
    forall k :: 0 <= k < |ts| ==> PlainToken(ts[k])
  }

  lemma PlainTokensAppend(a: seq<Token>, b: seq<Token>)
    requires PlainTokens(a) && PlainTokens(b)
    ensures PlainTokens(a + b)
  {
    forall k | 0 <= k < |a + b| ensures PlainToken((a + b)[k]) {
      if k < |a| {
        assert (a + b)[k] == a[k];
      } else {
        assert (a + b)[k] == b[k - |a|];
      }
    }
  }

  lemma {:induction false} PopAllPlain(stack: seq<char>)
    requires OperatorStack(stack)
    ensures PlainTokens(PopAll(stack))
  {
    if |stack| > 0 {
      assert OperatorStack(Pop(stack)) by {
        assert forall k :: 0 <= k < |Pop(stack)| ==> Pop(stack)[k] == stack[k];
      }
      PopAllPlain(Pop(stack));
      assert PlainToken(Symbol(Top(stack)));
      PlainTokensAppend([Symbol(Top(stack))], PopAll(Pop(stack)));
    }
  }

  lemma PushOperatorPlain(c: char, stack: seq<char>, out: seq<Token>)
    requires IsBinaryOperation(c) && OperatorStack(stack) && PlainTokens(out)
    ensures PlainTokens(Basic.PushOperator(c, stack, out).out)
  {
    var r := PopWhile(stack, out, Basic.PopsFor(c));
    var n := |r.stack|;
    assert OperatorStack(stack[n..]) by {
      assert forall k :: 0 <= k < |stack[n..]| ==> stack[n..][k] == stack[n + k];
    }
    PopAllPlain(stack[n..]);
    PlainTokensAppend(out, PopAll(stack[n..]));
  }

  lemma StepPlain(s: string, i: nat, stack: seq<char>, out: seq<Token>)
    requires i < |s| && PlainChar(s[i]) && OperatorStack(stack) && PlainTokens(out)
    ensures var m := Basic.Step(s, i, stack, out);
      PlainTokens(m.state.out) && OperatorStack(m.state.stack)
  {
    StepAgrees(s, i, stack, out);
    if IsNumberChar(s[i]) {
      var j := SpanEnd(s, i, IsNumberChar);
      Basic.StepRun(s, i, stack, out);
      assert PlainToken(Number(s[i..j]));
      PlainTokensAppend(out, [Number(s[i..j])]);
    } else {
      PrioritiesShifted(s[i]);
      Basic.StepChar(s, i, stack, out);
      PushOperatorPlain(s[i], stack, out);
    }
  }

  lemma {:induction false} ConvertFromPlain(s: string, i: nat, stack: seq<char>, out: seq<Token>)
    requires i <= |s| && Plain(s) && OperatorStack(stack) && PlainTokens(out)
    ensures PlainTokens(Basic.ConvertFrom(s, i, stack, out))
    decreases |s| - i
  {
    if i == |s| {
      PopAllPlain(stack);
      PlainTokensAppend(out, PopAll(stack));
    } else {
      var m := Basic.Step(s, i, stack, out);
      StepPlain(s, i, stack, out);
      ConvertFromPlain(s, m.next, m.state.stack, m.state.out);
    }
  }

  /** The postfix text of plain input reads back as its token texts, each a plain word. */
  lemma RenderedWordsPlain(s: string)
    requires Plain(s)
    ensures PlainWords(Words(Render(Basic.ConvertToRPN(s))))
  {
    var ts := Basic.ConvertToRPN(s);
    ConvertFromPlain(s, 0, [], []);
    forall k | 0 <= k < |ts| ensures WordToken(ts[k]) && PlainWord(Text(ts[k])) {
      assert PlainToken(ts[k]);
      if ts[k].Number? {
        var l := ts[k].lexeme;
        assert IsNumberChar(l[0]);
        assert ' ' !in l by {
          forall m | 0 <= m < |l| ensures l[m] != ' ' {
            assert IsNumberChar(l[m]);
          }
        }
      }
    }
    SplitRender(ts);
  }

  // ---------------------------------------------------------------------------
  // The whole calculation

  /** On plain text the basic calculation is the extended conversion and evaluation, behind the pattern test. */
  lemma BasicCalculatePlain(lib: Floating, s: string)
    requires Plain(s)
    ensures Basic.Calculate(lib, s) ==
      if Basic.PassesGate(s) then Extended.EvaluateRPN(lib, Render(Extended.ConvertToRPN(s)))
      else Failure(MalformedExpression)
  {
    PlainCharacters(s);
    ConvertAgrees(s);
    RenderedWordsPlain(s);
    EvaluateAgrees(lib, Render(Basic.ConvertToRPN(s)));
  }

  /** Plain text holds no whitespace, no parenthesis and no letter. */
  lemma PlainCharacters(s: string)
    requires Plain(s)
    ensures NoWhitespace(s) && '(' !in s && ')' !in s
    ensures forall k :: 0 <= k < |s| ==> s[k] != 'e' && s[k] != 'l'
  {
    forall k | 0 <= k < |s|
      ensures !IsWhitespace(s[k]) && s[k] != '(' && s[k] != ')' && s[k] != 'e' && s[k] != 'l'
    {
      assert PlainChar(s[k]);
    }
  }

  /** Plain text without `**` passes every check of the extended engine but the operator bound unchanged. */
  lemma PlainPassesChecks(s: string)
    requires Plain(s) && Extended.NoDoubleStar(s)
    ensures StripWhitespace(s) == s && Extended.Balanced(s)
    ensures Extended.ReplaceDoubleStar(s) == s && Extended.Preprocess(s) == s
  {
    PlainCharacters(s);
    Precedence.NoParenthesesBalanced(s);
    Precedence.NoDoubleStarUnchanged(s);
    Precedence.NoFunctionUnchanged(s, 0);
    assert s[0..] == s;
  }

  /** On plain text without `**` and with at most fifteen operators the extended calculation is conversion and evaluation. */
  lemma ExtendedCalculatePlain(lib: Floating, s: string)
    requires Plain(s) && Extended.NoDoubleStar(s) && Extended.OperatorTotal(s) <= Extended.MaxOperations
    ensures Extended.Calculate(lib, s) == Extended.EvaluateRPN(lib, Render(Extended.ConvertToRPN(s)))
  {
    PlainPassesChecks(s);
  }

  /**
   Where both engines accept an expression of digits, points and binary
   operators (it passes the basic pattern, holds no `**` and at most fifteen
   operators), they compute the same result or the same error.
   */
  lemma EnginesAgree(lib: Floating, s: string)
    requires Plain(s) && Extended.NoDoubleStar(s) && Extended.OperatorTotal(s) <= Extended.MaxOperations
    requires Basic.PassesGate(s)
    ensures Basic.Calculate(lib, s) == Extended.Calculate(lib, s)
  {
    BasicCalculatePlain(lib, s);
    ExtendedCalculatePlain(lib, s);
  }

  /** `a o1 b o2 c` is plain text that passes the pattern test. */
  lemma InfixAccepted(a: string, o1: char, b: string, o2: char, c: string)
    requires Precedence.Numeral(a) && Precedence.Numeral(b) && Precedence.Numeral(c)
    requires IsBinaryOperation(o1) && IsBinaryOperation(o2)
    ensures var s := Precedence.Infix(a, o1, b, o2, c);
      Plain(s) && Extended.NoDoubleStar(s) && Extended.OperatorTotal(s) == 2 && Basic.PassesGate(s)
  {
    var s := Precedence.Infix(a, o1, b, o2, c);
    forall k | 0 <= k < |s| ensures PlainChar(s[k]) && !Basic.IsLineTerminator(s[k]) {
      Precedence.InfixCharacters(a, o1, b, o2, c, k);
    }
    Precedence.InfixPlainCharacters(a, o1, b, o2, c);
    Precedence.InfixOperatorTotal(a, o1, b, o2, c);
    Precedence.InfixShape(a, o1, b, o2, c);
    assert IsDigit(s[0]) && IsDigit(s[|s| - 1]);
    assert Basic.Unsigned(s) == s;
    assert Basic.GateHolds(s);
  }

  /**
   `calculate` of the basic engine on `x o1 y o2 z` (natural numbers in
   decimal, binary operators): the operator of higher priority is applied
   first and of two of equal priority the left one, `^` included, so `2^3^2`
   is `(2^3)^2` and `3+4*2` is `3+(4*2)`.
   */
  lemma CalculateThreeOperands(lib: Floating, x: nat, o1: char, y: nat, o2: char, z: nat)
    requires IsBinaryOperation(o1) && IsBinaryOperation(o2)
    ensures Basic.Calculate(lib, Precedence.Infix(NatToString(x), o1, NatToString(y), o2, NatToString(z))) ==
      if Basic.Priority(o1) >= Basic.Priority(o2) then
        Precedence.Then(ApplyOperation(lib, o1, x as real, y as real), v => ApplyOperation(lib, o2, v, z as real))
      else
        Precedence.Then(ApplyOperation(lib, o2, y as real, z as real), v => ApplyOperation(lib, o1, x as real, v))
  {
    var s := Precedence.Infix(NatToString(x), o1, NatToString(y), o2, NatToString(z));
    InfixAccepted(NatToString(x), o1, NatToString(y), o2, NatToString(z));
    EnginesAgree(lib, s);
    Precedence.CalculateThreeOperands(lib, x, o1, y, o2, z);
    PrioritiesShifted(o1);
    PrioritiesShifted(o2);
  }

  /** `8-2-1` in the basic engine, in the form of the statement above. */
  lemma DifferenceChainValue(lib: Floating)
    ensures Basic.Calculate(lib, Precedence.Infix("8", '-', "2", '-', "1")) == Success(5.0)
  {
    assert NatToString(8) == "8" && NatToString(2) == "2" && NatToString(1) == "1";
    CalculateThreeOperands(lib, 8, '-', 2, '-', 1);
    assert ApplyOperation(lib, '-', 8.0, 2.0) == Success(6.0);
    assert ApplyOperation(lib, '-', 6.0, 1.0) == Success(5.0);
  }

  /** The basic engine computes `8-2-1` as `(8-2)-1 = 5`. */
  lemma DifferenceChainExample(lib: Floating)
    ensures Basic.Calculate(lib, "8-2-1") == Success(5.0)
  {
    DifferenceChainValue(lib);
    Precedence.DifferenceChainShape();
  }

  /** `8/4/2` in the basic engine, in the form of the statement above. */
  lemma QuotientChainValue(lib: Floating)
    ensures Basic.Calculate(lib, Precedence.Infix("8", '/', "4", '/', "2")) == Success(1.0)
  {
    assert NatToString(8) == "8" && NatToString(4) == "4" && NatToString(2) == "2";
    CalculateThreeOperands(lib, 8, '/', 4, '/', 2);
    assert ApplyOperation(lib, '/', 8.0, 4.0) == Success(2.0);
    assert ApplyOperation(lib, '/', 2.0, 2.0) == Success(1.0);
  }

  /** The basic engine computes `8/4/2` as `(8/4)/2 = 1`. */
  lemma QuotientChainExample(lib: Floating)
    ensures Basic.Calculate(lib, "8/4/2") == Success(1.0)
  {
    QuotientChainValue(lib);
    Precedence.QuotientChainShape();
  }
}

=== FILE: extended_calculator.dfy ===
/**
 The extended calculator engine (`CalculatorModel` of PZ2.java): strip
 whitespace, check the parentheses, bound the operator count, rewrite `**`,
 `exp(` and `log(`, convert to postfix with an operator stack, and evaluate
 the postfix text with a value stack.

 The model follows the code as written. In particular the letter branch of
 the converter comes before the function branch, so every `e` becomes
 Euler's constant, every other letter is dropped, and no function is ever
 pushed; and `^` is left-associative because every operator pops while the
 stack top has greater OR EQUAL priority.
 */
module ExtendedCalculator {
  import opened Wrappers
  import opened Lexing
  import opened Rpn
  import opened Arithmetic

  /** The most operators an expression may contain. */
  const MaxOperations := 15

  /** What `output.append(Math.E)` writes. */
  const EulerText := "2.718281828459045"

  /** The value `Math.E` pushes in the evaluator. */
  const EulerValue: real := 2.718281828459045

  predicate IsOperator(c: char) {
    c == '+' || c == '-' || c == '*' || c == '/' || c == '^' || c == '!'
  }

  /** `getPriority`: `(` is the lowest, so no operator ever pops it. */
  function Priority(c: char): int {
    match c
    case '^' => 4
    case '!' => 4
    case 'e' => 4
    case 'l' => 4
    case '*' => 3
    case '/' => 3
    case '+' => 2
    case '-' => 2
    case '(' => 1
    case _ => 0
  }

  // ---------------------------------------------------------------------------
  // Parentheses

  /** Opening minus closing parentheses. */
  function Depth(p: string): int {
    multiset(p)['('] as int - multiset(p)[')'] as int
  }

  /** No prefix closes more parentheses than it opens, and the whole string closes all it opens. */
  ghost predicate Balanced(s: string) {
    && (forall k :: 0 <= k <= |s| ==> Depth(s[..k]) >= 0)
    && Depth(s) == 0
  }

  lemma DepthStep(s: string, i: nat)
    requires i < |s|
    ensures Depth(s[..i + 1]) == Depth(s[..i]) + (if s[i] == '(' then 1 else if s[i] == ')' then -1 else 0)
  {
    assert s[..i + 1] == s[..i] + [s[i]];
  }

  /** The loop of `checkParentheses` from index `i`, with `depth` parentheses on its stack. */
  function ScanParentheses(s: string, i: nat, depth: nat): (ok: bool)
    requires i <= |s| && depth == Depth(s[..i])
    ensures ok <==> (forall k :: i <= k <= |s| ==> Depth(s[..k]) >= 0) && Depth(s) == 0
    decreases |s| - i
  {
    if i == |s| then
      assert s[..i] == s;
      depth == 0
    else
      DepthStep(s, i);
      if s[i] == '(' then ScanParentheses(s, i + 1, depth + 1)
      else if s[i] == ')' then depth > 0 && ScanParentheses(s, i + 1, depth - 1)
      else ScanParentheses(s, i + 1, depth)
  }

  /** `checkParentheses`: true exactly for balanced strings. */
  function CheckParentheses(s: string): (ok: bool)
    ensures ok <==> Balanced(s)
  {
    assert s[..0] == "";
    ScanParentheses(s, 0, 0)
  }

  // ---------------------------------------------------------------------------
  // Operator count and preprocessing

  /** The number of operator characters. */
  function OperatorTotal(s: string): nat {
    if |s| == 0 then 0 else (if IsOperator(s[0]) then 1 else 0) + OperatorTotal(s[1..])
  }

  /** `expr.replace("**", "^")`: non-overlapping occurrences, left to right. */
  function ReplaceDoubleStar(s: string): (r: string)
    ensures |r| > 0 && r[0] == '*' ==> |s| > 0 && s[0] == '*' && (|s| == 1 || s[1] != '*')
    ensures forall k :: 0 <= k < |r| - 1 ==> !(r[k] == '*' && r[k + 1] == '*')
  {
    if |s| >= 2 && s[0] == '*' && s[1] == '*' then
      var t := ReplaceDoubleStar(s[2..]);
      assert forall k :: 1 <= k < |t| ==> ("^" + t)[k + 1] == t[k];
      "^" + t
    else if |s| == 0 then ""
    else
      var t := ReplaceDoubleStar(s[1..]);
      assert forall k :: 1 <= k < |t| ==> ([s[0]] + t)[k + 1] == t[k];
      [s[0]] + t
  }

  /** Turns every `^` back into `**`. */
  function RestoreDoubleStar(r: string): string {
    if |r| == 0 then ""
    else (if r[0] == '^' then "**" else [r[0]]) + RestoreDoubleStar(r[1..])
  }

  /** On a string without `^`, the `**` rewrite loses nothing: restoring it gives the input back. */
  lemma {:induction false} DoubleStarRoundTrip(s: string)
    requires '^' !in s
    ensures RestoreDoubleStar(ReplaceDoubleStar(s)) == s
  {
    if |s| >= 2 && s[0] == '*' && s[1] == '*' {
      var t := ReplaceDoubleStar(s[2..]);
      assert '^' !in s[2..] by {
        assert forall k :: 0 <= k < |s[2..]| ==> s[2..][k] == s[k + 2];
      }
      DoubleStarRoundTrip(s[2..]);
      assert ("^" + t)[1..] == t;
      assert s == "**" + s[2..];
    } else if |s| > 0 {
      var t := ReplaceDoubleStar(s[1..]);
      assert '^' !in s[1..] by {
        assert forall k :: 0 <= k < |s[1..]| ==> s[1..][k] == s[k + 1];
      }
      DoubleStarRoundTrip(s[1..]);
      assert ([s[0]] + t)[1..] == t;
      assert s[0] != '^';
      assert s == [s[0]] + s[1..];
    }
  }

  /** The loop of `countOperators` from index `i`: a `**` pair is one operator. */
  function CountOperatorsFrom(s: string, i: nat): nat
    requires i <= |s|
    decreases |s| - i
  {
    if i == |s| then 0
    else if IsOperator(s[i]) then
      1 + CountOperatorsFrom(s, if s[i] == '*' && i < |s| - 1 && s[i + 1] == '*' then i + 2 else i + 1)
    else
      CountOperatorsFrom(s, i + 1)
  }

  lemma {:induction false} CountOperatorsFromAfterReplace(s: string, i: nat)
    requires i <= |s|
    ensures CountOperatorsFrom(s, i) == OperatorTotal(ReplaceDoubleStar(s[i..]))
    decreases |s| - i
  {
    var t := s[i..];
    if i == |s| {
      assert t == "";
    } else if s[i] == '*' && i < |s| - 1 && s[i + 1] == '*' {
      CountOperatorsFromAfterReplace(s, i + 2);
      assert t[2..] == s[i + 2..];
      var r := ReplaceDoubleStar(t[2..]);
      assert ("^" + r)[1..] == r;
    } else {
      CountOperatorsFromAfterReplace(s, i + 1);
      assert t[1..] == s[i + 1..];
      var r := ReplaceDoubleStar(t[1..]);
      assert ([s[i]] + r)[1..] == r;
    }
  }

  /**
   `countOperators`: the number of operators `+ - * / ^ !`, where a `**` pair
   counts once; that is, the operator characters left after the `**` rewrite.
   */
  function CountOperators(s: string): (n: nat)
    ensures n == OperatorTotal(ReplaceDoubleStar(s))
  {
    CountOperatorsFromAfterReplace(s, 0);
    assert s[0..] == s;
    CountOperatorsFrom(s, 0)
  }

  /** `c == 'e' && i + 3 < length && substring(i, i + 4).equals("exp(")`. */
  predicate ExpCallAt(s: string, i: nat)
    requires i < |s|
  {
    s[i] == 'e' && i + 3 < |s| && s[i..i + 4] == "exp("
  }

  /** `c == 'l' && i + 3 < length && substring(i, i + 4).equals("log(")`. */
  predicate LogCallAt(s: string, i: nat)
    requires i < |s|
  {
    s[i] == 'l' && i + 3 < |s| && s[i..i + 4] == "log("
  }

  /** The loop of `preprocessExpression` from index `i`: `exp(` becomes `e^(`, `log(` becomes `log2(`. */
  function RewriteFunctionsFrom(s: string, i: nat): (r: string)
    requires i <= |s|
    ensures i < |s| ==> |r| > 0 && r[0] == s[i]
    decreases |s| - i
  {
    if i == |s| then ""
    else if ExpCallAt(s, i) then "e^(" + RewriteFunctionsFrom(s, i + 4)
    else if LogCallAt(s, i) then "log2(" + RewriteFunctionsFrom(s, i + 4)
    else [s[i]] + RewriteFunctionsFrom(s, i + 1)
  }

  /** `e^(` starts at index `k`. */
  predicate EPowAt(r: string, k: nat) {
    k + 3 <= |r| && r[k] == 'e' && r[k + 1] == '^' && r[k + 2] == '('
  }

  /** `log2(` starts at index `k`. */
  predicate Log2At(r: string, k: nat) {
    k + 5 <= |r| && r[k] == 'l' && r[k + 1] == 'o' && r[k + 2] == 'g' && r[k + 3] == '2' && r[k + 4] == '('
  }

  /** Turns `e^(` back into `exp(` and `log2(` back into `log(`. */
  function RestoreFunctions(r: string): string {
    if EPowAt(r, 0) then "exp(" + RestoreFunctions(r[3..])
    else if Log2At(r, 0) then "log(" + RestoreFunctions(r[5..])
    else if |r| == 0 then ""
    else [r[0]] + RestoreFunctions(r[1..])
  }

  /** `e^(` and `log2(` do not occur in `s`. */
  ghost predicate NoRewriteTargets(s: string) {
    forall k: nat :: k < |s| ==> !EPowAt(s, k) && !Log2At(s, k)
  }

  /** A character that cannot start a rewrite is copied as it is. */
  lemma RewriteCopies(s: string, i: nat)
    requires i < |s| && s[i] != 'e' && s[i] != 'l'
    ensures RewriteFunctionsFrom(s, i) == [s[i]] + RewriteFunctionsFrom(s, i + 1)
  {
  }

  lemma {:induction false} RewriteFunctionsRoundTripFrom(s: string, i: nat)
    requires i <= |s| && NoRewriteTargets(s)
    ensures RestoreFunctions(RewriteFunctionsFrom(s, i)) == s[i..]
    decreases |s| - i
  {
    if i < |s| {
      var r := RewriteFunctionsFrom(s, i);
      if ExpCallAt(s, i) {
        var w := RewriteFunctionsFrom(s, i + 4);
        RewriteFunctionsRoundTripFrom(s, i + 4);
        assert r == "e^(" + w;
        assert EPowAt(r, 0) && r[3..] == w;
        assert s[i..] == s[i..i + 4] + s[i + 4..];
      } else if LogCallAt(s, i) {
        var w := RewriteFunctionsFrom(s, i + 4);
        RewriteFunctionsRoundTripFrom(s, i + 4);
        assert r == "log2(" + w;
        assert !EPowAt(r, 0);
        assert Log2At(r, 0) && r[5..] == w;
        assert s[i..] == s[i..i + 4] + s[i + 4..];
      } else {
        var w := RewriteFunctionsFrom(s, i + 1);
        RewriteFunctionsRoundTripFrom(s, i + 1);
        assert r == [s[i]] + w;
        assert !EPowAt(s, i) && !Log2At(s, i);
        EPowAtCopy(s, i);
        Log2AtCopy(s, i);
        assert r[1..] == w;
        assert s[i..] == [s[i]] + s[i + 1..];
      }
    }
  }

  /** Where a character is copied, `e^(` at the front of the rewritten text was already in the input. */
  lemma EPowAtCopy(s: string, i: nat)
    requires i < |s| && !ExpCallAt(s, i) && !LogCallAt(s, i)
    ensures EPowAt(RewriteFunctionsFrom(s, i), 0) ==> EPowAt(s, i)
  {
    var w := RewriteFunctionsFrom(s, i + 1);
    assert RewriteFunctionsFrom(s, i) == [s[i]] + w;
    if EPowAt([s[i]] + w, 0) {
      RewriteCopies(s, i + 1);
    }
  }

  /** Where a character is copied, `log2(` at the front of the rewritten text was already in the input. */
  lemma Log2AtCopy(s: string, i: nat)
    requires i < |s| && !ExpCallAt(s, i) && !LogCallAt(s, i)
    ensures Log2At(RewriteFunctionsFrom(s, i), 0) ==> Log2At(s, i)
  {
    var w := RewriteFunctionsFrom(s, i + 1);
    assert RewriteFunctionsFrom(s, i) == [s[i]] + w;
    if Log2At([s[i]] + w, 0) {
      RewriteCopies(s, i + 1);
      RewriteCopies(s, i + 2);
      RewriteCopies(s, i + 3);
    }
  }

  /** When `e^(` and `log2(` are absent, the function rewrite loses nothing: restoring it gives the input back. */
  lemma RewriteFunctionsRoundTrip(s: string)
    requires NoRewriteTargets(s)
    ensures RestoreFunctions(RewriteFunctionsFrom(s, 0)) == s
  {
    RewriteFunctionsRoundTripFrom(s, 0);
  }

  /** No two adjacent `*`. */
  predicate NoDoubleStar(s: string) {
    forall k :: 0 <= k < |s| - 1 ==> !(s[k] == '*' && s[k + 1] == '*')
  }

  /** The function rewrite inserts no `*`, so it creates no `**` pair. */
  lemma {:induction false} RewriteKeepsNoDoubleStar(s: string, i: nat)
    requires i <= |s| && NoDoubleStar(s)
    ensures NoDoubleStar(RewriteFunctionsFrom(s, i))
    decreases |s| - i
  {
    if i < |s| {
      var r := RewriteFunctionsFrom(s, i);
      if ExpCallAt(s, i) || LogCallAt(s, i) {
        var w := RewriteFunctionsFrom(s, i + 4);
        var head := if ExpCallAt(s, i) then "e^(" else "log2(";
        RewriteKeepsNoDoubleStar(s, i + 4);
        assert r == head + w;
        assert forall k :: 0 <= k < |head| ==> r[k] != '*';
        assert forall k :: |head| <= k < |r| ==> r[k] == w[k - |head|];
      } else {
        var w := RewriteFunctionsFrom(s, i + 1);
        RewriteKeepsNoDoubleStar(s, i + 1);
        assert r == [s[i]] + w;
        assert forall k :: 1 <= k < |r| ==> r[k] == w[k - 1];
      }
    }
  }

  /** `preprocessExpression`: `**` becomes `^`, then `exp(` becomes `e^(` and `log(` becomes `log2(`. No `**` survives. */
  function Preprocess(s: string): (r: string)
    ensures NoDoubleStar(r)
  {
    var t := ReplaceDoubleStar(s);
    RewriteKeepsNoDoubleStar(t, 0);
    RewriteFunctionsFrom(t, 0)
  }

  /**
   Without `^` in the input, and where the `**` rewrite leaves no `e^(` or `log2(`
   behind, preprocessing loses nothing: undoing both rewrites gives the input back.
   */
  lemma PreprocessRoundTrip(s: string)
    requires '^' !in s && NoRewriteTargets(ReplaceDoubleStar(s))
    ensures RestoreDoubleStar(RestoreFunctions(Preprocess(s))) == s
  {
    RewriteFunctionsRoundTrip(ReplaceDoubleStar(s));
    DoubleStarRoundTrip(s);
  }

  // ---------------------------------------------------------------------------
  // Conversion to postfix

  /** `isFunction(c, pos, expr)`: `e^(` or `log2(` starts at `pos`. */
  predicate IsFunction(s: string, pos: nat)
    requires pos < |s|
  {
    || (s[pos] == 'e' && pos + 2 < |s| && s[pos + 1] == '^' && s[pos + 2] == '(')
    || (s[pos] == 'l' && pos + 4 < |s| && s[pos..pos + 5] == "log2(")
  }

  /** Every function keyword starts with a letter, which the letter branch takes first. */
  lemma FunctionBranchUnreachable(s: string, pos: nat)
    requires pos < |s|
    ensures IsFunction(s, pos) ==> IsLetter(s[pos])
  {
  }

  /** The pop rule for an incoming operator `c`: stack tops of greater or equal priority. */
  function PopsFor(c: char): char -> bool {
    t => Priority(t) >= Priority(c)
  }

  predicate IsNotOpen(t: char) {
    t != '('
  }

  /** An operator arrives: pop every top of greater or equal priority, then push it. */
  function PushOperator(c: char, stack: seq<char>, out: seq<Token>): Shunt {
    var r := PopWhile(stack, out, PopsFor(c));
    Shunt(r.stack + [c], r.out)
  }

  /** Pops down to the nearest `(` and drops it, if there is one. */
  function PopToOpen(stack: seq<char>, out: seq<Token>): Shunt {
    var r := PopWhile(stack, out, IsNotOpen);
    if |r.stack| > 0 && Top(r.stack) == '(' then Shunt(Pop(r.stack), r.out) else r
  }

  /** Emits a function (`l` or `e`) left on top of the stack. */
  function EmitFunction(st: Shunt): Shunt {
    if |st.stack| > 0 && (Top(st.stack) == 'l' || Top(st.stack) == 'e') then
      Shunt(Pop(st.stack), st.out + [Symbol(Top(st.stack))])
    else st
  }

  /** A `)` arrives: pop down to the `(`, drop the `(`, then emit a function left on top. */
  function CloseParen(stack: seq<char>, out: seq<Token>): Shunt {
    EmitFunction(PopToOpen(stack, out))
  }

  /** The branches of the loop body of `convertToRPN` for a character that does not start a number. */
  function CharStep(c: char, stack: seq<char>, out: seq<Token>): Shunt {
    if IsLetter(c) then Shunt(stack, if c == 'e' then out + [Number(EulerText)] else out)
    else if IsOperator(c) then PushOperator(c, stack, out)
    else if c == '(' then Shunt(stack + [c], out)
    else if c == ')' then CloseParen(stack, out)
    else Shunt(stack, out)
  }

  function Step(s: string, i: nat, stack: seq<char>, out: seq<Token>): (m: Move)
    requires i < |s|
    ensures i < m.next <= |s|
  {
    if IsNumberChar(s[i]) then
      var j := SpanEnd(s, i, IsNumberChar);
      Move(j, Shunt(stack, out + [Number(s[i..j])]))
    else
      Move(i + 1, CharStep(s[i], stack, out))
  }

  /** The loop of `convertToRPN` from index `i`, then the final emptying of the stack. */
  function ConvertFrom(s: string, i: nat, stack: seq<char>, out: seq<Token>): seq<Token>
    requires i <= |s|
    decreases |s| - i
  {
    if i == |s| then out + PopAll(stack)
    else
      var m := Step(s, i, stack, out);
      ConvertFrom(s, m.next, m.state.stack, m.state.out)
  }

  /** `convertToRPN`, as the token sequence its output string spells. */
  function ConvertToRPN(s: string): seq<Token> {
    ConvertFrom(s, 0, [], [])
  }

  /** A number run is read whole and emitted as one literal. */
  lemma StepRun(s: string, i: nat, stack: seq<char>, out: seq<Token>)
    requires i < |s| && IsNumberChar(s[i])
    ensures var j := SpanEnd(s, i, IsNumberChar);
      Step(s, i, stack, out) == Move(j, Shunt(stack, out + [Number(s[i..j])]))
  {
  }

  /** Any other character is one `CharStep`. */
  lemma StepChar(s: string, i: nat, stack: seq<char>, out: seq<Token>)
    requires i < |s| && !IsNumberChar(s[i])
    ensures Step(s, i, stack, out) == Move(i + 1, CharStep(s[i], stack, out))
  {
  }

  /** How the number of `(` on the stack changes when `c` arrives. */
  function OpenStep(c: char, open: nat): nat {
    if c == '(' then open + 1
    else if c == ')' then (if open > 0 then open - 1 else 0)
    else open
  }

  /** Moving the stack top to the output loses and invents nothing. */
  lemma EmitTop(stack: seq<char>, out: seq<Token>)
    requires |stack| > 0
    ensures Content(Shunt(Pop(stack), out + [Symbol(Top(stack))])) == Content(Shunt(stack, out))
    ensures Symbols(out + [Symbol(Top(stack))])['('] == Symbols(out)['('] + (if Top(stack) == '(' then 1 else 0)
    ensures NumberLexemes(out + [Symbol(Top(stack))]) == NumberLexemes(out)
  {
    var t := Top(stack);
    SymbolsAppend(out, [Symbol(t)]);
    NumberLexemesAppend(out, [Symbol(t)]);
    assert [Symbol(t)][1..] == [];
    assert stack == Pop(stack) + [t];
  }

  lemma PoppedHasNoOpen(stack: seq<char>, out: seq<Token>, pop: char -> bool)
    requires forall t :: pop(t) ==> t != '('
    ensures var r := PopWhile(stack, out, pop);
      && multiset(r.stack)['('] == multiset(stack)['(']
      && Symbols(r.out)['('] == Symbols(out)['(']
  {
    var r := PopWhile(stack, out, pop);
    var n := |r.stack|;
    assert stack == stack[..n] + stack[n..];
    assert multiset(stack[n..])['('] == 0 by {
      forall k | n <= k < |stack| ensures stack[k] != '(' {
        assert pop(stack[k]);
      }
      assert '(' !in stack[n..];
    }
    PopAllConserves(stack[n..]);
    SymbolsAppend(out, PopAll(stack[n..]));
  }

  /** No operator pops a `(`: it has the lowest priority. */
  lemma PopsForSparesOpen(c: char)
    requires IsOperator(c)
    ensures forall t :: PopsFor(c)(t) ==> t != '('
  {
    forall t | PopsFor(c)(t) ensures t != '(' {
      assert Priority(c) >= 2;
    }
  }

  lemma PushOperatorKeepsOpen(c: char, stack: seq<char>, out: seq<Token>)
    requires IsOperator(c)
    ensures var st := PushOperator(c, stack, out);
      && Symbols(st.out)['('] == Symbols(out)['(']
      && multiset(st.stack)['('] == multiset(stack)['(']
  {
    var r := PopWhile(stack, out, PopsFor(c));
    PopsForSparesOpen(c);
    PoppedHasNoOpen(stack, out, PopsFor(c));
    assert multiset(r.stack + [c]) == multiset(r.stack) + multiset{c};
  }

  /** Popping down to the `(` and dropping it: only that `(` leaves the state. */
  lemma PopToOpenConserves(stack: seq<char>, out: seq<Token>)
    ensures var st := PopToOpen(stack, out);
      && Content(st) + (if '(' in stack then multiset{'('} else multiset{}) == Content(Shunt(stack, out))
      && NumberLexemes(st.out) == NumberLexemes(out)
      && Symbols(st.out)['('] == Symbols(out)['(']
      && multiset(st.stack)['('] == OpenStep(')', multiset(stack)['('])
  {
    PopToOpenFinds(stack, out);
    if '(' in stack {
      PopToOpenDrops(stack, out);
    } else {
      PopToOpenEmpties(stack, out);
    }
  }

  /** With a `(` on the stack, the entries above it move to the output and it is dropped. */
  lemma PopToOpenDrops(stack: seq<char>, out: seq<Token>)
    requires '(' in stack
    ensures var st := PopToOpen(stack, out);
      && Content(st) + multiset{'('} == Content(Shunt(stack, out))
      && NumberLexemes(st.out) == NumberLexemes(out)
      && Symbols(st.out)['('] == Symbols(out)['(']
      && multiset(st.stack)['('] + 1 == multiset(stack)['(']
  {
    var r := PopWhile(stack, out, IsNotOpen);
    PopToOpenFinds(stack, out);
    PopWhileConserves(stack, out, IsNotOpen);
    PoppedHasNoOpen(stack, out, IsNotOpen);
    var st := Shunt(Pop(r.stack), r.out);
    assert PopToOpen(stack, out) == st;
    assert multiset(r.stack) == multiset(st.stack) + multiset{'('} by {
      assert r.stack == st.stack + ['('];
    }
    assert Content(st) + multiset{'('} == Symbols(r.out) + multiset(r.stack);
  }

  /** With no `(` on the stack, the whole stack moves to the output. */
  lemma PopToOpenEmpties(stack: seq<char>, out: seq<Token>)
    requires '(' !in stack
    ensures var st := PopToOpen(stack, out);
      && Content(st) == Content(Shunt(stack, out))
      && NumberLexemes(st.out) == NumberLexemes(out)
      && Symbols(st.out)['('] == Symbols(out)['(']
      && st.stack == []
  {
    var r := PopWhile(stack, out, IsNotOpen);
    PopToOpenFinds(stack, out);
    PopWhileConserves(stack, out, IsNotOpen);
    PoppedHasNoOpen(stack, out, IsNotOpen);
    assert PopToOpen(stack, out) == r;
  }

  /** Popping everything but `(` stops on a `(` exactly when the stack holds one. */
  lemma PopToOpenFinds(stack: seq<char>, out: seq<Token>)
    ensures var r := PopWhile(stack, out, IsNotOpen);
      ('(' in stack <==> |r.stack| > 0) && (|r.stack| > 0 ==> Top(r.stack) == '(')
  {
    var r := PopWhile(stack, out, IsNotOpen);
    if |r.stack| > 0 {
      assert stack[|r.stack| - 1] == Top(r.stack);
    } else {
      forall k | 0 <= k < |stack| ensures stack[k] != '(' {
        assert IsNotOpen(stack[k]);
      }
    }
  }

  /** Emitting a function left on top moves it from the stack to the output. */
  lemma EmitFunctionConserves(st: Shunt)
    ensures var fin := EmitFunction(st);
      && Content(fin) == Content(st)
      && NumberLexemes(fin.out) == NumberLexemes(st.out)
      && Symbols(fin.out)['('] == Symbols(st.out)['(']
      && multiset(fin.stack)['('] == multiset(st.stack)['(']
  {
    if |st.stack| > 0 && (Top(st.stack) == 'l' || Top(st.stack) == 'e') {
      assert EmitFunction(st) == Shunt(Pop(st.stack), st.out + [Symbol(Top(st.stack))]);
      EmitTop(st.stack, st.out);
      KeepsOpenCount(st.stack);
    }
  }

  /** Popping a top other than `(` leaves the count of `(` on the stack alone. */
  lemma KeepsOpenCount(stack: seq<char>)
    requires |stack| > 0 && Top(stack) != '('
    ensures multiset(Pop(stack))['('] == multiset(stack)['(']
  {
    var t, rest := Top(stack), Pop(stack);
    assert stack == rest + [t];
    assert multiset(stack) == multiset(rest) + multiset{t};
    AddOneCount(multiset(rest), t, '(');
  }

  /** Closing a parenthesis loses no symbol but the one `(` it matches, if there is one. */
  lemma CloseParenConserves(stack: seq<char>, out: seq<Token>)
    ensures var st := CloseParen(stack, out);
      && Content(st) + (if '(' in stack then multiset{'('} else multiset{}) == Content(Shunt(stack, out))
      && NumberLexemes(st.out) == NumberLexemes(out)
      && Symbols(st.out)['('] == Symbols(out)['(']
      && multiset(st.stack)['('] == OpenStep(')', multiset(stack)['('])
  {
    PopToOpenConserves(stack, out);
    EmitFunctionConserves(PopToOpen(stack, out));
  }

  lemma CharStepNumbers(c: char, stack: seq<char>, out: seq<Token>)
    ensures NumberLexemes(CharStep(c, stack, out).out) == NumberLexemes(out) + AtomsOf(Single(c))
  {
    if c == 'e' {
      EmitNumber(out, EulerText);
    } else {
      assert AtomsOf(Single(c)) == [];
      if IsOperator(c) {
        PopWhileConserves(stack, out, PopsFor(c));
      } else if c == ')' {
        CloseParenConserves(stack, out);
      }
    }
  }

  lemma CharStepSymbols(c: char, stack: seq<char>, out: seq<Token>, o: char)
    requires o != '('
    ensures Content(CharStep(c, stack, out))[o] == Content(Shunt(stack, out))[o] + (if IsOperator(o) && c == o then 1 else 0)
  {
    if IsLetter(c) {
      EmitNumber(out, EulerText);
    } else if IsOperator(c) {
      PushOperatorCount(c, stack, out, o);
    } else if c == '(' {
      assert multiset(stack + [c]) == multiset(stack) + multiset{c};
    } else if c == ')' {
      CloseParenConserves(stack, out);
    }
  }

  lemma PushOperatorCount(c: char, stack: seq<char>, out: seq<Token>, o: char)
    ensures Content(PushOperator(c, stack, out))[o] == Content(Shunt(stack, out))[o] + (if c == o then 1 else 0)
  {
    PushConserves(c, stack, out, PopsFor(c));
    AddOneCount(Content(Shunt(stack, out)), c, o);
  }

  lemma AddOneCount(m: multiset<char>, c: char, o: char)
    ensures (m + multiset{c})[o] == m[o] + (if c == o then 1 else 0)
  {
  }

  lemma CharStepOpen(c: char, stack: seq<char>, out: seq<Token>)
    ensures Symbols(CharStep(c, stack, out).out)['('] == Symbols(out)['(']
    ensures multiset(CharStep(c, stack, out).stack)['('] == OpenStep(c, multiset(stack)['('])
  {
    if IsLetter(c) {
      EmitNumber(out, EulerText);
    } else if IsOperator(c) {
      PushOperatorKeepsOpen(c, stack, out);
    } else if c == '(' {
      assert multiset(stack + [c]) == multiset(stack) + multiset{c};
    } else if c == ')' {
      CloseParenConserves(stack, out);
    }
  }

  /** The number literals the converter emits for one lexeme: a run itself, Euler's constant for `e`. */
  function AtomsOf(l: Lexeme): seq<string> {
    match l
    case Run(t) => [t]
    case Single(c) => if c == 'e' then [EulerText] else []
  }

  function Atoms(ls: seq<Lexeme>): seq<string> {
    if |ls| == 0 then [] else AtomsOf(ls[0]) + Atoms(ls[1..])
  }

  lemma AtomsCons(l: Lexeme, ls: seq<Lexeme>)
    ensures Atoms([l] + ls) == AtomsOf(l) + Atoms(ls)
  {
    assert ([l] + ls)[1..] == ls;
  }

  lemma StepNumbers(s: string, i: nat, stack: seq<char>, out: seq<Token>)
    requires i < |s|
    ensures var m := Step(s, i, stack, out);
      NumberLexemes(m.state.out) + Atoms(LexFrom(s, m.next)) == NumberLexemes(out) + Atoms(LexFrom(s, i))
  {
    if IsNumberChar(s[i]) {
      RunNumbers(s, i, stack, out);
    } else {
      CharNumbers(s, i, stack, out);
    }
  }

  /** A number run is emitted as the one literal it lexes to. */
  lemma RunNumbers(s: string, i: nat, stack: seq<char>, out: seq<Token>)
    requires i < |s| && IsNumberChar(s[i])
    ensures var m := Step(s, i, stack, out);
      NumberLexemes(m.state.out) + Atoms(LexFrom(s, m.next)) == NumberLexemes(out) + Atoms(LexFrom(s, i))
  {
    StepRun(s, i, stack, out);
    LexRunStep(s, i);
    var j := SpanEnd(s, i, IsNumberChar);
    EmitRun(out, s[i..j], LexFrom(s, j));
  }

  lemma ConcatAssociates(u: seq<string>, x: seq<string>, v: seq<string>)
    ensures u + x + v == u + (x + v)
  {
  }

  /** Emitting a literal matches consuming its run from the lexemes. */
  lemma EmitRun(out: seq<Token>, w: string, ls: seq<Lexeme>)
    ensures NumberLexemes(out + [Number(w)]) + Atoms(ls) == NumberLexemes(out) + Atoms([Run(w)] + ls)
  {
    EmitNumber(out, w);
    AtomsCons(Run(w), ls);
    var u, v := NumberLexemes(out), Atoms(ls);
    assert u + [w] + v == u + ([w] + v);
  }


  /** Any other character emits Euler's constant for `e` and no literal otherwise. */
  lemma CharNumbers(s: string, i: nat, stack: seq<char>, out: seq<Token>)
    requires i < |s| && !IsNumberChar(s[i])
    ensures var m := Step(s, i, stack, out);
      NumberLexemes(m.state.out) + Atoms(LexFrom(s, m.next)) == NumberLexemes(out) + Atoms(LexFrom(s, i))
  {
    StepChar(s, i, stack, out);
    LexSingleStep(s, i);
    CharStepNumbers(s[i], stack, out);
    ConsumeSingle(out, CharStep(s[i], stack, out).out, s[i], LexFrom(s, i + 1));
  }

  /** An output that gained the literals of one lexeme matches consuming that lexeme. */
  lemma ConsumeSingle(out: seq<Token>, out': seq<Token>, c: char, ls: seq<Lexeme>)
    requires NumberLexemes(out') == NumberLexemes(out) + AtomsOf(Single(c))
    ensures NumberLexemes(out') + Atoms(ls) == NumberLexemes(out) + Atoms([Single(c)] + ls)
  {
    AtomsCons(Single(c), ls);
    ConcatAssociates(NumberLexemes(out), AtomsOf(Single(c)), Atoms(ls));
  }

  lemma {:induction false} ConvertFromNumbers(s: string, i: nat, stack: seq<char>, out: seq<Token>)
    requires i <= |s|
    ensures NumberLexemes(ConvertFrom(s, i, stack, out)) == NumberLexemes(out) + Atoms(LexFrom(s, i))
    decreases |s| - i
  {
    if i == |s| {
      NumberLexemesAppend(out, PopAll(stack));
      PopAllConserves(stack);
    } else {
      var m := Step(s, i, stack, out);
      StepNumbers(s, i, stack, out);
      ConvertFromNumbers(s, m.next, m.state.stack, m.state.out);
    }
  }

  /**
   The number literals of the postfix output are, in input order, the maximal
   digit/point runs of the input, with Euler's constant in place of each `e`.
   */
  lemma ConvertKeepsNumbers(s: string)
    ensures NumberLexemes(ConvertToRPN(s)) == Atoms(Lex(s))
  {
    ConvertFromNumbers(s, 0, [], []);
  }

  /** How often the operator `o` occurs in `s[i..]` (0 for a non-operator). */
  function OperatorsIn(s: string, i: nat, o: char): nat
    requires i <= |s|
  {
    if IsOperator(o) then multiset(s[i..])[o] else 0
  }

  lemma StepSymbols(s: string, i: nat, stack: seq<char>, out: seq<Token>, o: char)
    requires i < |s| && o != '('
    ensures var m := Step(s, i, stack, out);
      Content(m.state)[o] + OperatorsIn(s, m.next, o) == Content(Shunt(stack, out))[o] + OperatorsIn(s, i, o)
  {
    if IsNumberChar(s[i]) {
      RunSymbols(s, i, stack, out, o);
    } else {
      CharSymbols(s, i, stack, out, o);
    }
  }

  /** A number run holds no operator and emits no symbol. */
  lemma RunSymbols(s: string, i: nat, stack: seq<char>, out: seq<Token>, o: char)
    requires i < |s| && o != '(' && IsNumberChar(s[i])
    ensures var m := Step(s, i, stack, out);
      Content(m.state)[o] + OperatorsIn(s, m.next, o) == Content(Shunt(stack, out))[o] + OperatorsIn(s, i, o)
  {
    var j := SpanEnd(s, i, IsNumberChar);
    StepRun(s, i, stack, out);
    EmitNumber(out, s[i..j]);
    OperatorsInRun(s, i, j, o);
  }

  /** Any other character adds itself to the state exactly when it is an operator. */
  lemma CharSymbols(s: string, i: nat, stack: seq<char>, out: seq<Token>, o: char)
    requires i < |s| && o != '(' && !IsNumberChar(s[i])
    ensures var m := Step(s, i, stack, out);
      Content(m.state)[o] + OperatorsIn(s, m.next, o) == Content(Shunt(stack, out))[o] + OperatorsIn(s, i, o)
  {
    StepChar(s, i, stack, out);
    CharStepSymbols(s[i], stack, out, o);
    OperatorsInStep(s, i, o);
  }

  lemma OperatorsInStep(s: string, i: nat, o: char)
    requires i < |s|
    ensures OperatorsIn(s, i, o) == OperatorsIn(s, i + 1, o) + (if IsOperator(o) && s[i] == o then 1 else 0)
  {
    assert s[i..] == [s[i]] + s[i + 1..];
  }

  /** A run of number characters holds no operator. */
  lemma {:induction false} OperatorsInRun(s: string, i: nat, j: nat, o: char)
    requires i <= j <= |s|
    requires forall k :: i <= k < j ==> IsNumberChar(s[k])
    ensures OperatorsIn(s, i, o) == OperatorsIn(s, j, o)
    decreases j - i
  {
    if i < j {
      OperatorsInStep(s, i, o);
      OperatorsInRun(s, i + 1, j, o);
    }
  }

  lemma {:induction false} ConvertFromSymbols(s: string, i: nat, stack: seq<char>, out: seq<Token>, o: char)
    requires i <= |s| && o != '('
    ensures Symbols(ConvertFrom(s, i, stack, out))[o] == Content(Shunt(stack, out))[o] + OperatorsIn(s, i, o)
    decreases |s| - i
  {
    if i == |s| {
      SymbolsAppend(out, PopAll(stack));
      PopAllConserves(stack);
    } else {
      var m := Step(s, i, stack, out);
      StepSymbols(s, i, stack, out, o);
      ConvertFromSymbols(s, m.next, m.state.stack, m.state.out, o);
    }
  }

  /** How many `(` are left on the stack once `s[i..]` is read. */
  function OpenLeftFrom(s: string, i: nat, open: nat): nat
    requires i <= |s|
    decreases |s| - i
  {
    if i == |s| then open else OpenLeftFrom(s, i + 1, OpenStep(s[i], open))
  }

  lemma {:induction false} OpenLeftSkipsRun(s: string, i: nat, j: nat, open: nat)
    requires i <= j <= |s|
    requires forall k :: i <= k < j ==> IsNumberChar(s[k])
    ensures OpenLeftFrom(s, i, open) == OpenLeftFrom(s, j, open)
    decreases j - i
  {
    if i < j {
      OpenLeftSkipsRun(s, i + 1, j, open);
    }
  }

  lemma StepOpenParens(s: string, i: nat, stack: seq<char>, out: seq<Token>)
    requires i < |s|
    ensures var m := Step(s, i, stack, out);
      && Symbols(m.state.out)['('] == Symbols(out)['(']
      && OpenLeftFrom(s, m.next, multiset(m.state.stack)['(']) == OpenLeftFrom(s, i, multiset(stack)['('])
  {
    if IsNumberChar(s[i]) {
      var j := SpanEnd(s, i, IsNumberChar);
      EmitNumber(out, s[i..j]);
      OpenLeftSkipsRun(s, i, j, multiset(stack)['(']);
    } else {
      CharStepOpen(s[i], stack, out);
    }
  }

  lemma {:induction false} ConvertFromOpenParens(s: string, i: nat, stack: seq<char>, out: seq<Token>)
    requires i <= |s|
    ensures Symbols(ConvertFrom(s, i, stack, out))['('] ==
      Symbols(out)['('] + OpenLeftFrom(s, i, multiset(stack)['('])
    decreases |s| - i
  {
    if i == |s| {
      SymbolsAppend(out, PopAll(stack));
      PopAllConserves(stack);
    } else {
      var m := Step(s, i, stack, out);
      StepOpenParens(s, i, stack, out);
      ConvertFromOpenParens(s, m.next, m.state.stack, m.state.out);
    }
  }

  lemma {:induction false} BalancedLeavesNoOpen(s: string, i: nat)
    requires i <= |s| && Balanced(s)
    ensures OpenLeftFrom(s, i, Depth(s[..i])) == 0
    decreases |s| - i
  {
    if i == |s| {
      assert s[..i] == s;
    } else {
      DepthStep(s, i);
      BalancedLeavesNoOpen(s, i + 1);
    }
  }

  /** Each symbol other than `(` is emitted as often as it occurs in the input if it is an operator, and never otherwise. */
  lemma ConvertSymbolCount(s: string, o: char)
    requires o != '('
    ensures Symbols(ConvertToRPN(s))[o] == (if IsOperator(o) then multiset(s)[o] else 0)
  {
    ConvertFromSymbols(s, 0, [], [], o);
    assert s[0..] == s;
    assert Content(Shunt([], []))[o] == 0;
  }

  lemma ConvertOpenFromStart(s: string)
    ensures Symbols(ConvertToRPN(s))['('] == OpenLeftFrom(s, 0, 0)
  {
    ConvertFromOpenParens(s, 0, [], []);
    assert Symbols([])['('] == 0 && multiset([])['('] == 0;
  }

  /** A `(` is emitted only for one left unclosed, so never for balanced input. */
  lemma ConvertOpenCount(s: string)
    ensures Symbols(ConvertToRPN(s))['('] == OpenLeftFrom(s, 0, 0)
    ensures Balanced(s) ==> Symbols(ConvertToRPN(s))['('] == 0
  {
    ConvertOpenFromStart(s);
    if Balanced(s) {
      assert s[..0] == "";
      BalancedLeavesNoOpen(s, 0);
    }
  }

  /**
   The symbols of the postfix output are exactly the operators of the input,
   each once; no `)` and no letter is ever emitted, so a function is never
   popped at a `)`; and for balanced input no `(` is emitted either.
   */
  lemma ConvertKeepsOperators(s: string)
    ensures forall o :: IsOperator(o) ==> Symbols(ConvertToRPN(s))[o] == multiset(s)[o]
    ensures forall o :: !IsOperator(o) && o != '(' ==> Symbols(ConvertToRPN(s))[o] == 0
    ensures Balanced(s) ==> Symbols(ConvertToRPN(s))['('] == 0
  {
    forall o | IsOperator(o) ensures Symbols(ConvertToRPN(s))[o] == multiset(s)[o] {
      ConvertSymbolCount(s, o);
    }
    forall o | !IsOperator(o) && o != '(' ensures Symbols(ConvertToRPN(s))[o] == 0 {
      ConvertSymbolCount(s, o);
    }
    ConvertOpenCount(s);
  }

  // ---------------------------------------------------------------------------
  // Evaluation of the postfix text

  /** The loop of `evaluateRPN` over the words of the postfix text, with the value stack (top last). */
  function EvalFrom(lib: Floating, words: seq<string>, stack: seq<real>): Result<seq<real>, Error>
    decreases |words|
  {
    if |words| == 0 then Success(stack)
    else
      var w := words[0];
      if |w| == 0 then EvalFrom(lib, words[1..], stack)
      else if IsDigit(w[0]) then
        match ParseDecimal(w)
        case None => Failure(NumberFormat)
        case Some(x) => EvalFrom(lib, words[1..], stack + [x])
      else if w == "e" then EvalFrom(lib, words[1..], stack + [EulerValue])
      else if w[0] == '!' then
        if |stack| == 0 then Failure(EmptyStack)
        else
          match Factorial(stack[|stack| - 1])
          case Failure(e) => Failure(e)
          case Success(f) => EvalFrom(lib, words[1..], stack[..|stack| - 1] + [f])
      else if w[0] == 'l' || w[0] == 'e' then
        if |stack| == 0 then Failure(EmptyStack)
        else
          var a := stack[|stack| - 1];
          var image := if w[0] == 'l' then lib.log2(a) else lib.exp(a);
          EvalFrom(lib, words[1..], stack[..|stack| - 1] + [image])
      else
        if |stack| < 2 then Failure(EmptyStack)
        else
          var b := stack[|stack| - 1];
          var a := stack[|stack| - 2];
          match ApplyOperation(lib, w[0], a, b)
          case Failure(e) => Failure(e)
          case Success(c) => EvalFrom(lib, words[1..], stack[..|stack| - 2] + [c])
  }

  /** `evaluateRPN`: the top of the value stack once every word is consumed. */
  function EvaluateRPN(lib: Floating, rpn: string): Result<real, Error> {
    match EvalFrom(lib, Words(rpn), [])
    case Failure(e) => Failure(e)
    case Success(stack) => if |stack| == 0 then Failure(EmptyStack) else Success(stack[|stack| - 1])
  }

  /**
   The result is the top of the value stack, whatever lies below it: two
   numbers and no operation evaluate to the second, the first is ignored.
   */
  lemma EvaluateKeepsTop(lib: Floating, a: string, b: string)
    requires |a| > 0 && AllDigits(a) && |b| > 0 && AllDigits(b)
    ensures EvaluateRPN(lib, a + " " + b + " ") == Success(DigitsValue(b) as real)
  {
    DigitWords(a, b);
    ParseDigits(a);
    ParseDigits(b);
    var x, y := DigitsValue(a) as real, DigitsValue(b) as real;
    assert [a, b][1..] == [b] && [b][1..] == [];
    assert [] + [x] == [x] && [x] + [y] == [x, y];
    assert EvalFrom(lib, [a, b], []) == EvalFrom(lib, [b], [x]);
    assert EvalFrom(lib, [b], [x]) == EvalFrom(lib, [], [x, y]);
  }

  /** Evaluating two word sequences one after the other is evaluating their concatenation. */
  lemma {:induction false} EvalFromConcat(lib: Floating, w1: seq<string>, w2: seq<string>, stack: seq<real>)
    ensures var r := EvalFrom(lib, w1, stack);
      EvalFrom(lib, w1 + w2, stack) == if r.Failure? then Failure(r.error) else EvalFrom(lib, w2, r.value)
    decreases |w1|
  {
    if |w1| == 0 {
      assert w1 + w2 == w2;
    } else {
      assert (w1 + w2)[0] == w1[0];
      assert (w1 + w2)[1..] == w1[1..] + w2;
      var w := w1[0];
      if |w| == 0 {
        EvalFromConcat(lib, w1[1..], w2, stack);
      } else if IsDigit(w[0]) {
        if ParseDecimal(w).Some? {
          EvalFromConcat(lib, w1[1..], w2, stack + [ParseDecimal(w).value]);
        }
      } else if w == "e" {
        EvalFromConcat(lib, w1[1..], w2, stack + [EulerValue]);
      } else if w[0] == '!' {
        if |stack| > 0 && Factorial(stack[|stack| - 1]).Success? {
          EvalFromConcat(lib, w1[1..], w2, stack[..|stack| - 1] + [Factorial(stack[|stack| - 1]).value]);
        }
      } else if w[0] == 'l' || w[0] == 'e' {
        if |stack| > 0 {
          var a := stack[|stack| - 1];
          var v := if w[0] == 'l' then lib.log2(a) else lib.exp(a);
          EvalFromConcat(lib, w1[1..], w2, stack[..|stack| - 1] + [v]);
        }
      } else if |stack| >= 2 {
        var r := ApplyOperation(lib, w[0], stack[|stack| - 2], stack[|stack| - 1]);
        if r.Success? {
          EvalFromConcat(lib, w1[1..], w2, stack[..|stack| - 2] + [r.value]);
        }
      }
    }
  }

  // ---------------------------------------------------------------------------
  // The whole calculation

  /**
   `calculate`: unbalanced parentheses and more than fifteen operators are
   rejected before anything is converted; otherwise the preprocessed text is
   converted and its postfix rendering evaluated.
   */
  function Calculate(lib: Floating, expression: string): (r: Result<real, Error>)
    ensures !Balanced(StripWhitespace(expression)) ==> r == Failure(UnbalancedParentheses)
    ensures Balanced(StripWhitespace(expression)) && OperatorTotal(ReplaceDoubleStar(StripWhitespace(expression))) > MaxOperations
      ==> r == Failure(TooManyOperations)
  {
    var s := StripWhitespace(expression);
    if !CheckParentheses(s) then Failure(UnbalancedParentheses)
    else if CountOperators(s) > MaxOperations then Failure(TooManyOperations)
    else EvaluateRPN(lib, Render(ConvertToRPN(Preprocess(s))))
  }
}

=== FILE: extended_factorial.dfy ===
/**
 The postfix factorial `!` of the extended engine. The converter pushes `!`
 like any operator, and the evaluator pops ONE value and pushes its
 factorial. So `n!` is n factorial, and `(a o b)!` applies `o` first and the
 factorial to its result. A minus just inside a parenthesis has no left
 operand, so `(-1)!` fails with an empty stack before any factorial is taken.
 The statements follow each form through every stage of `calculate`.
 */
module ExtendedFactorial {
  import opened Wrappers
  import opened Lexing
  import opened Rpn
  import opened Arithmetic
  import opened ExtendedCalculator
  import opened ExtendedPrecedence
  import opened ExtendedParentheses

  /** `a!`. */
  function NumeralFactorial(a: string): string {
    a + "!"
  }

  /** `(a o b)!`. */
  function GroupFactorial(a: string, o: char, b: string): string {
    "(" + a + [o] + b + ")" + "!"
  }

  /** `(o a)!`, an operator just inside the parenthesis. */
  function SignedFactorial(o: char, a: string): string {
    "(" + [o] + a + ")" + "!"
  }

  // ---------------------------------------------------------------------------
  // Evaluation of the `!` word

  /**
   The `!` word pops one value and pushes its factorial, or ends evaluation
   with the factorial's error; the values below it are untouched.
   */
  lemma EvalFactorialThen(lib: Floating, ws: seq<string>, stack: seq<real>, v: real)
    requires |ws| > 0 && ws[0] == "!"
    ensures var r := Factorial(v);
      EvalFrom(lib, ws, stack + [v]) == if r.Failure? then Failure(r.error) else EvalFrom(lib, ws[1..], stack + [r.value])
  {
    var st := stack + [v];
    assert ws[0][0] == '!' && ws[0] != "e";
    assert st[..|st| - 1] == stack && st[|st| - 1] == v;
  }

  /** The `!` word on an empty stack fails. */
  lemma EvalFactorialEmpty(lib: Floating, ws: seq<string>)
    requires |ws| > 0 && ws[0] == "!"
    ensures EvalFrom(lib, ws, []) == Failure(EmptyStack)
  {
    assert ws[0][0] == '!' && ws[0] != "e";
  }

  /** A binary operator word with a single value on the stack fails. */
  lemma EvalBinaryOnOne(lib: Floating, ws: seq<string>, v: real)
    requires |ws| > 0 && |ws[0]| == 1 && IsBinaryOperation(ws[0][0])
    ensures EvalFrom(lib, ws, [v]) == Failure(EmptyStack)
  {
    assert ws[0] != "e";
  }

  // ---------------------------------------------------------------------------
  // Conversion

  /** A `!` at index `i` is pushed like an operator, giving state `st`. */
  lemma ConvertBang(s: string, i: nat, stack: seq<char>, out: seq<Token>, st: Shunt)
    requires i < |s| && s[i] == '!'
    requires st == PushOperator('!', stack, out)
    ensures ConvertFrom(s, i, stack, out) == ConvertFrom(s, i + 1, st.stack, st.out)
  {
    assert !IsNumberChar('!') && !IsLetter('!') && IsOperator('!');
    assert Step(s, i, stack, out) == Move(i + 1, st);
  }

  /** A final `!` above an emptied stack: it is pushed, then emitted last. */
  lemma ConvertFinalBang(s: string, i: nat, out: seq<Token>)
    requires i + 1 == |s| && s[i] == '!'
    ensures ConvertFrom(s, i, [], out) == out + [Symbol('!')]
  {
    PushOnEmpty('!', out);
    ConvertBang(s, i, [], out, Shunt(['!'], out));
    assert PopAll(['!']) == [Symbol('!')];
  }

  /** The converter emits `a!` as `a !`. */
  lemma ConvertNumeralFactorial(a: string)
    requires Numeral(a)
    ensures ConvertToRPN(NumeralFactorial(a)) == [Number(a), Symbol('!')]
  {
    var s := NumeralFactorial(a);
    assert s[0..|a|] == a && s[|a|] == '!';
    ConvertRun(s, 0, a, [], []);
    ConvertFinalBang(s, |a|, [] + [Number(a)]);
    assert [] + [Number(a)] + [Symbol('!')] == [Number(a), Symbol('!')];
  }

  /** Where the pieces of `(a o b)!` sit. */
  lemma GroupSlices(a: string, o: char, b: string)
    requires Numeral(a) && Numeral(b) && IsBinaryOperation(o)
    ensures var s := GroupFactorial(a, o, b);
      && s[0] == '('
      && NumeralOperatorAt(s, 1, a, o)
      && NumeralCloseAt(s, |a| + 2, b)
      && |a| + 2 + |b| + 1 + 1 == |s| && s[|a| + 2 + |b| + 1] == '!'
  {
    var s := GroupFactorial(a, o, b);
    assert s == "(" + (a + ([o] + (b + (")" + "!"))));
    assert s[1..1 + |a|] == a;
    assert s[|a| + 2..|a| + 2 + |b|] == b;
  }

  /** The converter emits `(a o b)!` as `a b o !`: the group closes before `!` is pushed. */
  lemma ConvertGroupFactorial(a: string, o: char, b: string)
    requires Numeral(a) && Numeral(b) && IsBinaryOperation(o)
    ensures ConvertToRPN(GroupFactorial(a, o, b)) == [Number(a), Number(b), Symbol(o), Symbol('!')]
  {
    var s := GroupFactorial(a, o, b);
    GroupSlices(a, o, b);
    var st1 := PushOperator(o, [] + ['('], [] + [Number(a)]);
    var st2 := CloseParen(st1.stack, st1.out + [Number(b)]);
    LeftChainHead(s, a, o, b, |a| + 2, |a| + 2 + |b| + 1, st1, st2);
    LeftFirstState(a, o, st1);
    LeftCloseState(a, o, b, st1, st2);
    ConvertFinalBang(s, |a| + 2 + |b| + 1, [Number(a), Number(b), Symbol(o)]);
    assert [Number(a), Number(b), Symbol(o)] + [Symbol('!')] == [Number(a), Number(b), Symbol(o), Symbol('!')];
  }

  /** Where the pieces of `(o a)!` sit. */
  lemma SignedSlices(o: char, a: string)
    requires Numeral(a) && IsBinaryOperation(o)
    ensures var s := SignedFactorial(o, a);
      && s[0] == '(' && s[1] == o
      && NumeralCloseAt(s, 2, a)
      && |a| + 3 + 1 == |s| && s[|a| + 3] == '!'
  {
    var s := SignedFactorial(o, a);
    assert s == "(" + ([o] + (a + (")" + "!")));
    assert s[2..2 + |a|] == a;
  }

  /** `o` above the `(` pushes nothing off. */
  lemma SignedFirstState(o: char, st1: Shunt)
    requires IsBinaryOperation(o) && st1 == PushOperator(o, [] + ['('], [])
    ensures st1 == Shunt(['(', o], [])
  {
    assert [] + ['('] == ['('];
    PushAboveOpen(o, [], []);
    assert [] + ['(', o] == ['(', o];
  }

  /** The `)` after `a` emits `o` and empties the stack. */
  lemma SignedCloseState(o: char, a: string, st2: Shunt)
    requires IsBinaryOperation(o) && st2 == CloseParen(['(', o], [] + [Number(a)])
    ensures st2 == Shunt([], [Number(a), Symbol(o)])
  {
    assert [] + [Number(a)] == [Number(a)];
    CloseGroup([], o, [Number(a)]);
    assert [] + ['(', o] == ['(', o];
    assert [Number(a)] + [Symbol(o)] == [Number(a), Symbol(o)];
  }

  /** The `(` and the operator after it are pushed; conversion continues at `p`, the numeral. */
  lemma SignedOpening(s: string, o: char, p: nat, st1: Shunt)
    requires p == 2 && p < |s| && s[0] == '(' && s[1] == o && IsBinaryOperation(o)
    requires st1 == PushOperator(o, [] + ['('], [])
    ensures ConvertFrom(s, 0, [], []) == ConvertFrom(s, p, st1.stack, st1.out)
  {
    assert ConvertFrom(s, 0, [], []) == ConvertFrom(s, 1, [] + ['('], []) by {
      ConvertOpen(s, 0, [], []);
    }
    assert ConvertFrom(s, 1, [] + ['('], []) == ConvertFrom(s, p, st1.stack, st1.out) by {
      ConvertOperator(s, 1, o, [] + ['('], [], st1);
    }
  }

  /** From the start of `(o a)!` to just after the `)`, at `pe`. */
  lemma SignedChainHead(s: string, o: char, a: string, p: nat, pe: nat, st1: Shunt, st2: Shunt)
    requires p == 2 && pe == p + |a| + 1
    requires NumeralCloseAt(s, p, a) && s[0] == '(' && s[1] == o && IsBinaryOperation(o)
    requires st1 == PushOperator(o, [] + ['('], [])
    requires st2 == CloseParen(st1.stack, st1.out + [Number(a)])
    ensures ConvertFrom(s, 0, [], []) == ConvertFrom(s, pe, st2.stack, st2.out)
  {
    SignedOpening(s, o, p, st1);
    ConvertNumeralClose(s, p, a, pe, st1.stack, st1.out, st2);
  }

  /** The converter emits `(o a)!` as `a o !`: the operator inside has one operand before it in the output. */
  lemma ConvertSignedFactorial(o: char, a: string)
    requires Numeral(a) && IsBinaryOperation(o)
    ensures ConvertToRPN(SignedFactorial(o, a)) == [Number(a), Symbol(o), Symbol('!')]
  {
    var s := SignedFactorial(o, a);
    SignedSlices(o, a);
    var st1 := PushOperator(o, [] + ['('], []);
    var st2 := CloseParen(st1.stack, st1.out + [Number(a)]);
    SignedChainHead(s, o, a, 2, |a| + 3, st1, st2);
    SignedFirstState(o, st1);
    SignedCloseState(o, a, st2);
    ConvertFinalBang(s, |a| + 3, [Number(a), Symbol(o)]);
    assert [Number(a), Symbol(o)] + [Symbol('!')] == [Number(a), Symbol(o), Symbol('!')];
  }

  // ---------------------------------------------------------------------------
  // The stages before conversion

  /** `x!` for tame `x` holds no whitespace, no letter the function rewrite looks at, and no `**`. */
  lemma BangCharacters(x: string)
    requires AllTame(x) && NoDoubleStar(x)
    ensures var s := x + "!";
      && (forall k :: 0 <= k < |s| ==> !IsWhitespace(s[k]) && s[k] != 'e' && s[k] != 'l')
      && NoDoubleStar(s)
  {
    var s := x + "!";
    forall k | 0 <= k < |s| ensures !IsWhitespace(s[k]) && s[k] != 'e' && s[k] != 'l' {
      if k < |x| {
        assert s[k] == x[k] && Tame(x[k]);
      }
    }
    NoDoubleStarAppend(x, "!");
  }

  /** `!` is one more operator. */
  lemma BangCount(x: string)
    ensures OperatorTotal(x + "!") == OperatorTotal(x) + 1
  {
    OperatorTotalAppend(x, "!");
    assert "!"[1..] == "";
  }

  /** `x!` for tame `x`: nothing is stripped or rewritten, and `!` is one more operator. */
  lemma BangPassesChecks(x: string)
    requires AllTame(x) && NoDoubleStar(x) && Balanced(x + "!")
    ensures var s := x + "!";
      StripWhitespace(s) == s && CheckParentheses(s) && CountOperators(s) == OperatorTotal(x) + 1 && Preprocess(s) == s
  {
    var s := x + "!";
    BangCharacters(x);
    assert StripWhitespace(s) == s by {
      assert NoWhitespace(s);
    }
    assert ReplaceDoubleStar(s) == s by {
      NoDoubleStarUnchanged(s);
    }
    BangCount(x);
    assert RewriteFunctionsFrom(s, 0) == s by {
      NoFunctionUnchanged(s, 0);
      assert s[0..] == s;
    }
  }

  /** Every check passes `a!` through, with one operator. */
  lemma NumeralFactorialPassesChecks(a: string)
    requires Numeral(a)
    ensures var s := NumeralFactorial(a);
      StripWhitespace(s) == s && CheckParentheses(s) && CountOperators(s) == 1 && Preprocess(s) == s
  {
    var s := NumeralFactorial(a);
    NumeralPiece(a);
    assert '(' !in s && ')' !in s by {
      forall k | 0 <= k < |s| ensures s[k] != '(' && s[k] != ')' {
        if k < |a| {
          assert s[k] == a[k] && IsDigit(a[k]);
        }
      }
    }
    NoParenthesesBalanced(s);
    BangPassesChecks(a);
  }

  /** `(a o b)!` as a wrapped middle piece. */
  lemma GroupShape(a: string, o: char, b: string)
    ensures "" + "(" + (a + [o] + b) + ")" + "!" == GroupFactorial(a, o, b)
  {
    assert "" + "(" == "(";
  }

  /** Every check passes `(a o b)!` through, with two operators. */
  lemma GroupFactorialPassesChecks(a: string, o: char, b: string)
    requires Numeral(a) && Numeral(b) && IsBinaryOperation(o)
    ensures var s := GroupFactorial(a, o, b);
      StripWhitespace(s) == s && CheckParentheses(s) && CountOperators(s) == 2 && Preprocess(s) == s
  {
    var x := "(" + a + [o] + b + ")";
    CharPiece('(');
    GlueNumeral("(", a);
    GlueChar("(" + a, o);
    GlueNumeral("(" + a + [o], b);
    GlueChar("(" + a + [o] + b, ')');
    InnerParenthesisFree(a, o, b);
    WrappedBalanced("", a + [o] + b, "!");
    GroupShape(a, o, b);
    BangPassesChecks(x);
  }

  /** `(o a)!` as a wrapped middle piece. */
  lemma SignedShape(o: char, a: string)
    ensures "" + "(" + ("" + [o] + a) + ")" + "!" == SignedFactorial(o, a)
  {
    assert "" + "(" == "(" && "" + [o] + a == [o] + a;
  }

  /** Every check passes `(o a)!` through, with two operators. */
  lemma SignedFactorialPassesChecks(o: char, a: string)
    requires Numeral(a) && IsBinaryOperation(o)
    ensures var s := SignedFactorial(o, a);
      StripWhitespace(s) == s && CheckParentheses(s) && CountOperators(s) == 2 && Preprocess(s) == s
  {
    var x := "(" + [o] + a + ")";
    CharPiece('(');
    GlueChar("(", o);
    GlueNumeral("(" + [o], a);
    GlueChar("(" + [o] + a, ')');
    InnerParenthesisFree("", o, a);
    WrappedBalanced("", "" + [o] + a, "!");
    SignedShape(o, a);
    BangPassesChecks(x);
  }

  // ---------------------------------------------------------------------------
  // The whole calculation

  /** `a !` evaluates to the factorial of `x`, its error included. */
  lemma EvaluateNumeralFactorial(lib: Floating, a: string, x: real)
    requires Numeral(a) && Reads(a, x)
    ensures EvaluateRPN(lib, Render([Number(a), Symbol('!')])) == Factorial(x)
  {
    var text := Render([Number(a), Symbol('!')]);
    NumeralHasNoSpace(a);
    SplitRender([Number(a), Symbol('!')]);
    var ws := Words(text);
    assert ws == [a, "!"];
    EvalNumberThen(lib, ws, [], x);
    assert [] + [x] == [x];
    EvalFactorialThen(lib, ws[1..], [], x);
    assert ws[1..][1..] == [];
    EvaluateThroughTop(lib, text);
  }

  /** `calculate` on `a!` (a numeral reading as `x`) is the factorial of `x`. */
  lemma CalculateNumeralFactorial(lib: Floating, a: string, x: real)
    requires Numeral(a) && Reads(a, x)
    ensures Calculate(lib, NumeralFactorial(a)) == Factorial(x)
  {
    NumeralFactorialPassesChecks(a);
    ConvertNumeralFactorial(a);
    EvaluateNumeralFactorial(lib, a, x);
  }

  /** `n!` for a natural number written in decimal is n factorial. */
  lemma CalculateFactorial(lib: Floating, n: nat)
    ensures Calculate(lib, NatToString(n) + "!") == Success(Fact(n) as real)
  {
    NumeralReads(n);
    CalculateNumeralFactorial(lib, NatToString(n), n as real);
    assert (n as real).Floor == n;
  }

  /** `a b o !` applies `o` to `x` and `y`, then the factorial to its result. */
  lemma EvaluateGroupFactorial(lib: Floating, a: string, o: char, b: string, x: real, y: real)
    requires Numeral(a) && Numeral(b) && Reads(a, x) && Reads(b, y) && IsBinaryOperation(o)
    ensures EvaluateRPN(lib, Render([Number(a), Number(b), Symbol(o), Symbol('!')])) ==
      Then(ApplyOperation(lib, o, x, y), v => Factorial(v))
  {
    var ts := [Number(a), Number(b), Symbol(o), Symbol('!')];
    var text := Render(ts);
    NumeralHasNoSpace(a);
    NumeralHasNoSpace(b);
    SplitRender(ts);
    var ws := Words(text);
    assert ws == [a, b, [o], "!"];
    EvalNumbersOperator(lib, ws, [], o, x, y);
    var r := ApplyOperation(lib, o, x, y);
    if r.Success? {
      assert [] + [r.value] == [r.value];
      EvalFactorialThen(lib, ws[3..], [], r.value);
      assert ws[3..][1..] == [];
    }
    EvaluateThroughTop(lib, text);
  }

  /**
   `calculate` on `(a o b)!` (numerals reading as `x` and `y`) applies `o`
   first and the factorial to its result; the first error is the result.
   */
  lemma CalculateGroupFactorial(lib: Floating, a: string, o: char, b: string, x: real, y: real)
    requires Numeral(a) && Numeral(b) && Reads(a, x) && Reads(b, y) && IsBinaryOperation(o)
    ensures Calculate(lib, GroupFactorial(a, o, b)) == Then(ApplyOperation(lib, o, x, y), v => Factorial(v))
  {
    GroupFactorialPassesChecks(a, o, b);
    ConvertGroupFactorial(a, o, b);
    EvaluateGroupFactorial(lib, a, o, b, x, y);
  }

  /** `a o !` fails at `o`, which finds a single value on the stack. */
  lemma EvaluateSignedFactorial(lib: Floating, o: char, a: string, x: real)
    requires Numeral(a) && Reads(a, x) && IsBinaryOperation(o)
    ensures EvaluateRPN(lib, Render([Number(a), Symbol(o), Symbol('!')])) == Failure(EmptyStack)
  {
    var ts := [Number(a), Symbol(o), Symbol('!')];
    var text := Render(ts);
    NumeralHasNoSpace(a);
    SplitRender(ts);
    var ws := Words(text);
    assert ws == [a, [o], "!"];
    EvalNumberThen(lib, ws, [], x);
    assert [] + [x] == [x];
    EvalBinaryOnOne(lib, ws[1..], x);
    EvaluateThroughTop(lib, text);
  }

  /**
   `calculate` on `(o a)!`, `(-1)!` among them, fails with an empty stack:
   every operator is binary, so a sign inside the parenthesis has no left
   operand, and the factorial is never reached.
   */
  lemma CalculateSignedFactorial(lib: Floating, o: char, a: string, x: real)
    requires Numeral(a) && Reads(a, x) && IsBinaryOperation(o)
    ensures Calculate(lib, SignedFactorial(o, a)) == Failure(EmptyStack)
  {
    SignedFactorialPassesChecks(o, a);
    ConvertSignedFactorial(o, a);
    EvaluateSignedFactorial(lib, o, a, x);
  }

  // ---------------------------------------------------------------------------
  // Examples

  lemma ThreeFactorialValue(lib: Floating)
    ensures Calculate(lib, NatToString(3) + "!") == Success(6.0)
  {
    CalculateFactorial(lib, 3);
    assert Fact(3) == 6;
  }

  lemma ThreeFactorialShape()
    ensures NatToString(3) + "!" == "3!"
  {
  }

  /** `3!` is 6. */
  lemma ThreeFactorialExample(lib: Floating)
    ensures Calculate(lib, "3!") == Success(6.0)
  {
    ThreeFactorialValue(lib);
    ThreeFactorialShape();
  }

  lemma NegatedOneValue(lib: Floating)
    ensures Calculate(lib, SignedFactorial('-', "1")) == Failure(EmptyStack)
  {
    NumeralReads(1);
    assert NatToString(1) == "1";
    CalculateSignedFactorial(lib, '-', "1", 1.0);
  }

  lemma NegatedOneShape()
    ensures SignedFactorial('-', "1") == "(-1)!"
  {
  }

  /** `(-1)!` fails with an empty stack, not with the negative-factorial error. */
  lemma NegatedOneExample(lib: Floating)
    ensures Calculate(lib, "(-1)!") == Failure(EmptyStack)
  {
    NegatedOneValue(lib);
    NegatedOneShape();
  }

  lemma NegativeDifferenceValue(lib: Floating)
    ensures Calculate(lib, GroupFactorial("0", '-', "1")) == Failure(NegativeFactorial)
  {
    NumeralReads(0);
    NumeralReads(1);
    assert NatToString(0) == "0" && NatToString(1) == "1";
    CalculateGroupFactorial(lib, "0", '-', "1", 0.0, 1.0);
    assert ApplyOperation(lib, '-', 0.0, 1.0) == Success(-1.0);
  }

  lemma NegativeDifferenceShape()
    ensures GroupFactorial("0", '-', "1") == "(0-1)!"
  {
  }

  /** `(0-1)!` reaches the factorial with -1 and fails as a negative factorial. */
  lemma NegativeDifferenceExample(lib: Floating)
    ensures Calculate(lib, "(0-1)!") == Failure(NegativeFactorial)
  {
    NegativeDifferenceValue(lib);
    NegativeDifferenceShape();
  }
}

=== FILE: extended_parentheses.dfy ===
/**
 How the extended engine treats parentheses in an expression of three numbers
 and two binary operators: a parenthesised pair is applied first whatever the
 priorities, `(a o1 b) o2 c` giving `a b o1 c o2` and `a o1 (b o2 c)` giving
 `a b c o2 o1`. The statements follow both forms through every stage of
 `calculate`.
 */
module ExtendedParentheses {
  import opened Wrappers
  import opened Lexing
  import opened Rpn
  import opened Arithmetic
  import opened ExtendedCalculator
  import opened ExtendedPrecedence

  /** `(a o1 b) o2 c`, written without spaces. */
  function LeftParenthesised(a: string, o1: char, b: string, o2: char, c: string): string {
    "(" + a + [o1] + b + ")" + [o2] + c
  }

  /** `a o1 (b o2 c)`, written without spaces. */
  function RightParenthesised(a: string, o1: char, b: string, o2: char, c: string): string {
    a + [o1] + "(" + b + [o2] + c + ")"
  }

  // ---------------------------------------------------------------------------
  // Conversion

  /** A `(` is pushed. */
  lemma ConvertOpen(s: string, i: nat, stack: seq<char>, out: seq<Token>)
    requires i < |s| && s[i] == '('
    ensures ConvertFrom(s, i, stack, out) == ConvertFrom(s, i + 1, stack + ['('], out)
  {
    assert !IsNumberChar('(') && !IsLetter('(') && !IsOperator('(');
    assert Step(s, i, stack, out) == Move(i + 1, Shunt(stack + ['('], out));
  }

  /** A `)` pops down to the `(` and drops it. */
  lemma ConvertClose(s: string, i: nat, stack: seq<char>, out: seq<Token>)
    requires i < |s| && s[i] == ')'
    ensures var st := CloseParen(stack, out);
      ConvertFrom(s, i, stack, out) == ConvertFrom(s, i + 1, st.stack, st.out)
  {
    assert !IsNumberChar(')') && !IsLetter(')') && !IsOperator(')');
    assert Step(s, i, stack, out) == Move(i + 1, CloseParen(stack, out));
  }

  /** The numeral `w` sits at index `i` of `s`, closed by a `)`. */
  predicate NumeralCloseAt(s: string, i: nat, w: string) {
    Numeral(w) && i + |w| < |s| && s[i..i + |w|] == w && s[i + |w|] == ')'
  }

  /** A numeral followed by `)` is emitted as one number. */
  lemma ConvertNumeralBeforeClose(s: string, i: nat, w: string, stack: seq<char>, out: seq<Token>)
    requires NumeralCloseAt(s, i, w)
    ensures ConvertFrom(s, i, stack, out) == ConvertFrom(s, i + |w|, stack, out + [Number(w)])
  {
    assert !IsNumberChar(')');
    ConvertRun(s, i, w, stack, out);
  }

  /** A numeral and its closing `)`: the number is emitted, then the group closes, giving state `st`. */
  lemma ConvertNumeralClose(s: string, i: nat, w: string, j: nat, stack: seq<char>, out: seq<Token>, st: Shunt)
    requires NumeralCloseAt(s, i, w) && j == i + |w| + 1
    requires st == CloseParen(stack, out + [Number(w)])
    ensures ConvertFrom(s, i, stack, out) == ConvertFrom(s, j, st.stack, st.out)
  {
    ConvertNumeralBeforeClose(s, i, w, stack, out);
    ConvertClose(s, i + |w|, stack, out + [Number(w)]);
  }

  /** A binary operator arriving above a `(` pops nothing: `(` has the lowest priority. */
  lemma PushAboveOpen(o: char, stack: seq<char>, out: seq<Token>)
    requires IsBinaryOperation(o)
    ensures PushOperator(o, stack + ['('], out) == Shunt(stack + ['(', o], out)
  {
    var full := stack + ['('];
    assert Top(full) == '(' && !PopsFor(o)('(');
    assert PopCount(full, PopsFor(o)) == 0;
    assert full[|full|..] == [];
  }

  /** A `)` above `( o` emits `o` and drops the `(`; no function sits beneath. */
  lemma CloseGroup(stack: seq<char>, o: char, out: seq<Token>)
    requires IsBinaryOperation(o)
    requires |stack| == 0 || IsBinaryOperation(Top(stack))
    ensures CloseParen(stack + ['(', o], out) == Shunt(stack, out + [Symbol(o)])
  {
    var full := stack + ['(', o];
    assert Top(full) == o && Pop(full) == stack + ['('];
    assert Top(Pop(full)) == '(';
    assert PopCount(full, IsNotOpen) == 1;
    assert full[..|full| - 1] == stack + ['('] && full[|full| - 1..] == [o];
    assert PopAll([o]) == [Symbol(o)];
    assert Pop(stack + ['(']) == stack;
  }

  /** Where the pieces of `(a o1 b) o2 c` sit. */
  lemma LeftSlices(a: string, o1: char, b: string, o2: char, c: string)
    requires Numeral(a) && Numeral(b) && Numeral(c)
    requires IsBinaryOperation(o1) && IsBinaryOperation(o2)
    ensures var s := LeftParenthesised(a, o1, b, o2, c);
      var pb := |a| + 2;
      var pc := pb + |b| + 2;
      && s[0] == '('
      && NumeralOperatorAt(s, 1, a, o1)
      && NumeralCloseAt(s, pb, b)
      && s[pb + |b| + 1] == o2
      && LastNumeralAt(s, pc, c)
  {
    var s := LeftParenthesised(a, o1, b, o2, c);
    assert s == "(" + (a + ([o1] + (b + (")" + ([o2] + c)))));
    assert s[1..1 + |a|] == a;
    assert s[|a| + 2..|a| + 2 + |b|] == b;
    assert s[|a| + 2 + |b| + 2..] == c;
  }

  /** Where the pieces of `a o1 (b o2 c)` sit. */
  lemma RightSlices(a: string, o1: char, b: string, o2: char, c: string)
    requires Numeral(a) && Numeral(b) && Numeral(c)
    requires IsBinaryOperation(o1) && IsBinaryOperation(o2)
    ensures var s := RightParenthesised(a, o1, b, o2, c);
      var pb := |a| + 2;
      var pc := pb + |b| + 1;
      && NumeralOperatorAt(s, 0, a, o1)
      && s[|a| + 1] == '('
      && NumeralOperatorAt(s, pb, b, o2)
      && NumeralCloseAt(s, pc, c) && pc + |c| + 1 == |s|
  {
    var s := RightParenthesised(a, o1, b, o2, c);
    assert s == a + ([o1] + ("(" + (b + ([o2] + (c + ")")))));
    assert s[0..|a|] == a;
    assert s[|a| + 2..|a| + 2 + |b|] == b;
    assert s[|a| + 2 + |b| + 1..|a| + 2 + |b| + 1 + |c|] == c;
  }

  /**
   The conversion of `(a o1 b) o2 c` as a chain of moves: `(` is pushed, `a`
   emitted, `o1` pushed (state `st1`), `b` emitted, `)` closes (state `st2`),
   `o2` pushed (state `st3`), `c` emitted, and the stack emptied.
   */
  lemma ConvertLeftChain(s: string, a: string, o1: char, b: string, o2: char, c: string, pb: nat, po: nat, st1: Shunt, st2: Shunt, st3: Shunt)
    requires pb == |a| + 2 && po == pb + |b| + 1
    requires 0 < |s| && s[0] == '(' && NumeralOperatorAt(s, 1, a, o1)
    requires NumeralCloseAt(s, pb, b) && po < |s| && s[po] == o2
    requires IsBinaryOperation(o2) && LastNumeralAt(s, po + 1, c)
    requires st1 == PushOperator(o1, [] + ['('], [] + [Number(a)])
    requires st2 == CloseParen(st1.stack, st1.out + [Number(b)])
    requires st3 == PushOperator(o2, st2.stack, st2.out)
    ensures ConvertFrom(s, 0, [], []) == st3.out + [Number(c)] + PopAll(st3.stack)
  {
    LeftChainHead(s, a, o1, b, pb, po, st1, st2);
    LeftChainTail(s, po, o2, c, st2, st3);
  }

  /** From the start of `(a o1 b) ...` to just after the `)`, at `po`. */
  lemma LeftChainHead(s: string, a: string, o1: char, b: string, pb: nat, po: nat, st1: Shunt, st2: Shunt)
    requires pb == |a| + 2 && po == pb + |b| + 1
    requires 0 < |s| && s[0] == '(' && NumeralOperatorAt(s, 1, a, o1)
    requires NumeralCloseAt(s, pb, b)
    requires st1 == PushOperator(o1, [] + ['('], [] + [Number(a)])
    requires st2 == CloseParen(st1.stack, st1.out + [Number(b)])
    ensures ConvertFrom(s, 0, [], []) == ConvertFrom(s, po, st2.stack, st2.out)
  {
    ConvertOpen(s, 0, [], []);
    ConvertNumeralOperator(s, 1, a, o1, pb, [] + ['('], [], st1);
    ConvertNumeralClose(s, pb, b, po, st1.stack, st1.out, st2);
  }

  /** From the `o2` of `... o2 c` to the end. */
  lemma LeftChainTail(s: string, i: nat, o2: char, c: string, st2: Shunt, st3: Shunt)
    requires i < |s| && s[i] == o2 && IsBinaryOperation(o2) && LastNumeralAt(s, i + 1, c)
    requires st3 == PushOperator(o2, st2.stack, st2.out)
    ensures ConvertFrom(s, i, st2.stack, st2.out) == st3.out + [Number(c)] + PopAll(st3.stack)
  {
    ConvertOperator(s, i, o2, st2.stack, st2.out, st3);
    ConvertLastNumeral(s, i + 1, c, st3.stack, st3.out);
  }

  /** `o1` above the first `(`. */
  lemma LeftFirstState(a: string, o1: char, st1: Shunt)
    requires IsBinaryOperation(o1) && st1 == PushOperator(o1, [] + ['('], [] + [Number(a)])
    ensures st1 == Shunt(['(', o1], [Number(a)])
  {
    assert [] + [Number(a)] == [Number(a)] && [] + ['('] == ['('];
    PushAboveOpen(o1, [], [Number(a)]);
    assert [] + ['(', o1] == ['(', o1];
  }

  /** The `)` after `b` empties the stack and emits `o1`. */
  lemma LeftCloseState(a: string, o1: char, b: string, st1: Shunt, st2: Shunt)
    requires IsBinaryOperation(o1) && st1 == Shunt(['(', o1], [Number(a)])
    requires st2 == CloseParen(st1.stack, st1.out + [Number(b)])
    ensures st2 == Shunt([], [Number(a), Number(b), Symbol(o1)])
  {
    assert st1.out + [Number(b)] == [Number(a), Number(b)];
    CloseGroup([], o1, [Number(a), Number(b)]);
    assert [] + ['(', o1] == ['(', o1];
    assert [Number(a), Number(b)] + [Symbol(o1)] == [Number(a), Number(b), Symbol(o1)];
  }

  /** `o2` on the empty stack. */
  lemma PushOnEmptyState(o2: char, out: seq<Token>, st2: Shunt, st3: Shunt)
    requires st2 == Shunt([], out) && st3 == PushOperator(o2, st2.stack, st2.out)
    ensures st3 == Shunt([o2], out)
  {
    PushOnEmpty(o2, out);
  }

  /** Two single appends to a three-element sequence. */
  lemma AppendTwo<T>(x: T, y: T, z: T, p: T, q: T)
    ensures [x, y, z] + [p] + [q] == [x, y, z, p, q]
  {
  }

  /** The states of the left chain: `( o1` on the stack, then empty after `)`, then `o2`. */
  lemma LeftStates(a: string, o1: char, b: string, o2: char, c: string, st1: Shunt, st2: Shunt, st3: Shunt)
    requires IsBinaryOperation(o1) && IsBinaryOperation(o2)
    requires st1 == PushOperator(o1, [] + ['('], [] + [Number(a)])
    requires st2 == CloseParen(st1.stack, st1.out + [Number(b)])
    requires st3 == PushOperator(o2, st2.stack, st2.out)
    ensures st3.out + [Number(c)] + PopAll(st3.stack) == [Number(a), Number(b), Symbol(o1), Number(c), Symbol(o2)]
  {
    LeftFirstState(a, o1, st1);
    LeftCloseState(a, o1, b, st1, st2);
    var out := [Number(a), Number(b), Symbol(o1)];
    PushOnEmptyState(o2, out, st2, st3);
    assert PopAll([o2]) == [Symbol(o2)];
    AppendTwo(Number(a), Number(b), Symbol(o1), Number(c), Symbol(o2));
  }

  /** The converter emits `(a o1 b) o2 c` as `a b o1 c o2`, whatever the priorities of `o1` and `o2`. */
  lemma ConvertLeftParenthesised(a: string, o1: char, b: string, o2: char, c: string)
    requires Numeral(a) && Numeral(b) && Numeral(c)
    requires IsBinaryOperation(o1) && IsBinaryOperation(o2)
    ensures ConvertToRPN(LeftParenthesised(a, o1, b, o2, c)) ==
      [Number(a), Number(b), Symbol(o1), Number(c), Symbol(o2)]
  {
    var s := LeftParenthesised(a, o1, b, o2, c);
    LeftSlices(a, o1, b, o2, c);
    var st1 := PushOperator(o1, [] + ['('], [] + [Number(a)]);
    var st2 := CloseParen(st1.stack, st1.out + [Number(b)]);
    var st3 := PushOperator(o2, st2.stack, st2.out);
    ConvertLeftChain(s, a, o1, b, o2, c, |a| + 2, |a| + 2 + |b| + 1, st1, st2, st3);
    LeftStates(a, o1, b, o2, c, st1, st2, st3);
  }

  /**
   The conversion of `a o1 (b o2 c)` as a chain of moves: `a` emitted, `o1`
   pushed (state `st1`), `(` pushed, `b` emitted, `o2` pushed (state `st2`),
   `c` emitted, `)` closes (state `st3`), and the stack emptied.
   */
  lemma ConvertRightChain(s: string, a: string, o1: char, b: string, o2: char, c: string, po: nat, pc: nat, st1: Shunt, st2: Shunt, st3: Shunt)
    requires po == |a| + 1 && pc == po + 1 + |b| + 1
    requires NumeralOperatorAt(s, 0, a, o1) && po < |s| && s[po] == '('
    requires NumeralOperatorAt(s, po + 1, b, o2)
    requires NumeralCloseAt(s, pc, c) && pc + |c| + 1 == |s|
    requires st1 == PushOperator(o1, [], [] + [Number(a)])
    requires st2 == PushOperator(o2, st1.stack + ['('], st1.out + [Number(b)])
    requires st3 == CloseParen(st2.stack, st2.out + [Number(c)])
    ensures ConvertFrom(s, 0, [], []) == st3.out + PopAll(st3.stack)
  {
    ConvertNumeralOperator(s, 0, a, o1, po, [], [], st1);
    RightChainTail(s, po, b, o2, c, pc, st1, st2, st3);
  }

  /** From the `(` of `(b o2 c)` at index `i`, which ends the text; `c` starts at `pc`. */
  lemma RightChainTail(s: string, i: nat, b: string, o2: char, c: string, pc: nat, st1: Shunt, st2: Shunt, st3: Shunt)
    requires pc == i + 1 + |b| + 1
    requires i < |s| && s[i] == '('
    requires NumeralOperatorAt(s, i + 1, b, o2)
    requires NumeralCloseAt(s, pc, c) && pc + |c| + 1 == |s|
    requires st2 == PushOperator(o2, st1.stack + ['('], st1.out + [Number(b)])
    requires st3 == CloseParen(st2.stack, st2.out + [Number(c)])
    ensures ConvertFrom(s, i, st1.stack, st1.out) == st3.out + PopAll(st3.stack)
  {
    ConvertOpen(s, i, st1.stack, st1.out);
    ConvertNumeralOperator(s, i + 1, b, o2, pc, st1.stack + ['('], st1.out, st2);
    ConvertNumeralClose(s, pc, c, |s|, st2.stack, st2.out, st3);
  }

  /** `o1` on the empty stack, after `a`. */
  lemma RightFirstState(a: string, o1: char, st1: Shunt)
    requires st1 == PushOperator(o1, [], [] + [Number(a)])
    ensures st1 == Shunt([o1], [Number(a)])
  {
    assert [] + [Number(a)] == [Number(a)];
    PushOnEmpty(o1, [Number(a)]);
  }

  /** `o2` above `o1 (`, after `b`. */
  lemma RightInnerState(a: string, o1: char, b: string, o2: char, st1: Shunt, st2: Shunt)
    requires IsBinaryOperation(o2) && st1 == Shunt([o1], [Number(a)])
    requires st2 == PushOperator(o2, st1.stack + ['('], st1.out + [Number(b)])
    ensures st2 == Shunt([o1, '(', o2], [Number(a), Number(b)])
  {
    assert st1.out + [Number(b)] == [Number(a), Number(b)];
    PushAboveOpen(o2, [o1], [Number(a), Number(b)]);
    assert [o1] + ['(', o2] == [o1, '(', o2];
  }

  /** The final `)` emits `o2` and leaves `o1`. */
  lemma RightCloseState(o1: char, o2: char, out: seq<Token>, st2: Shunt, st3: Shunt)
    requires IsBinaryOperation(o1) && IsBinaryOperation(o2)
    requires st2.stack == [o1, '(', o2] && st3 == CloseParen(st2.stack, out)
    ensures st3 == Shunt([o1], out + [Symbol(o2)])
  {
    CloseGroup([o1], o2, out);
    assert [o1] + ['(', o2] == [o1, '(', o2];
  }

  /** The states of the right chain: `o1`, then `o1 ( o2`, then `o1` again after `)`. */
  lemma RightStates(a: string, o1: char, b: string, o2: char, c: string, st1: Shunt, st2: Shunt, st3: Shunt)
    requires IsBinaryOperation(o1) && IsBinaryOperation(o2)
    requires st1 == PushOperator(o1, [], [] + [Number(a)])
    requires st2 == PushOperator(o2, st1.stack + ['('], st1.out + [Number(b)])
    requires st3 == CloseParen(st2.stack, st2.out + [Number(c)])
    ensures st3.out + PopAll(st3.stack) == [Number(a), Number(b), Number(c), Symbol(o2), Symbol(o1)]
  {
    RightFirstState(a, o1, st1);
    RightInnerState(a, o1, b, o2, st1, st2);
    var out := [Number(a), Number(b), Number(c)];
    assert st2.out + [Number(c)] == out;
    RightCloseState(o1, o2, out, st2, st3);
    assert PopAll([o1]) == [Symbol(o1)];
    AppendTwo(Number(a), Number(b), Number(c), Symbol(o2), Symbol(o1));
  }

  /** The converter emits `a o1 (b o2 c)` as `a b c o2 o1`, whatever the priorities of `o1` and `o2`. */
  lemma ConvertRightParenthesised(a: string, o1: char, b: string, o2: char, c: string)
    requires Numeral(a) && Numeral(b) && Numeral(c)
    requires IsBinaryOperation(o1) && IsBinaryOperation(o2)
    ensures ConvertToRPN(RightParenthesised(a, o1, b, o2, c)) ==
      [Number(a), Number(b), Number(c), Symbol(o2), Symbol(o1)]
  {
    var s := RightParenthesised(a, o1, b, o2, c);
    RightSlices(a, o1, b, o2, c);
    var st1 := PushOperator(o1, [], [] + [Number(a)]);
    var st2 := PushOperator(o2, st1.stack + ['('], st1.out + [Number(b)]);
    var st3 := CloseParen(st2.stack, st2.out + [Number(c)]);
    ConvertRightChain(s, a, o1, b, o2, c, |a| + 1, |a| + 2 + |b| + 1, st1, st2, st3);
    RightStates(a, o1, b, o2, c, st1, st2, st3);
  }

  // ---------------------------------------------------------------------------
  // The stages before conversion

  /** The characters such an expression is made of. */
  predicate Tame(c: char) {
    IsDigit(c) || IsBinaryOperation(c) || c == '(' || c == ')'
  }

  predicate AllTame(s: string) {
    forall k :: 0 <= k < |s| ==> Tame(s[k])
  }

  lemma TameAppend(x: string, y: string)
    requires AllTame(x) && AllTame(y)
    ensures AllTame(x + y)
  {
    forall k | 0 <= k < |x + y| ensures Tame((x + y)[k]) {
      if k >= |x| {
        assert (x + y)[k] == y[k - |x|];
      }
    }
  }

  /** Gluing two strings without `**` creates one only at the seam. */
  lemma NoDoubleStarAppend(x: string, y: string)
    requires NoDoubleStar(x) && NoDoubleStar(y)
    requires |x| == 0 || |y| == 0 || x[|x| - 1] != '*' || y[0] != '*'
    ensures NoDoubleStar(x + y)
  {
    forall k | 0 <= k < |x + y| - 1 ensures !((x + y)[k] == '*' && (x + y)[k + 1] == '*') {
      if k + 1 < |x| {
        assert (x + y)[k] == x[k] && (x + y)[k + 1] == x[k + 1];
      } else if k >= |x| {
        assert (x + y)[k] == y[k - |x|] && (x + y)[k + 1] == y[k + 1 - |x|];
      }
    }
  }

  /** A numeral is made of digits only. */
  lemma NumeralPiece(a: string)
    requires Numeral(a)
    ensures AllTame(a) && NoDoubleStar(a) && OperatorTotal(a) == 0 && a[0] != '*' && a[|a| - 1] != '*'
  {
    NumeralHasNoOperator(a);
  }

  /** One character of the expression. */
  lemma CharPiece(c: char)
    requires Tame(c)
    ensures AllTame([c]) && NoDoubleStar([c]) && OperatorTotal([c]) == (if IsBinaryOperation(c) then 1 else 0)
  {
    assert [c][1..] == [];
  }

  /** `x` followed by the one-character piece `[c]`. */
  lemma GlueChar(x: string, c: char)
    requires AllTame(x) && NoDoubleStar(x) && |x| > 0 && (x[|x| - 1] != '*' || c != '*') && Tame(c)
    ensures AllTame(x + [c]) && NoDoubleStar(x + [c]) && (x + [c])[|x|] == c
    ensures OperatorTotal(x + [c]) == OperatorTotal(x) + (if IsBinaryOperation(c) then 1 else 0)
  {
    CharPiece(c);
    TameAppend(x, [c]);
    NoDoubleStarAppend(x, [c]);
    OperatorTotalAppend(x, [c]);
  }

  /** `x` followed by a numeral. */
  lemma GlueNumeral(x: string, a: string)
    requires AllTame(x) && NoDoubleStar(x) && Numeral(a)
    ensures AllTame(x + a) && NoDoubleStar(x + a) && (x + a)[|x + a| - 1] != '*'
    ensures OperatorTotal(x + a) == OperatorTotal(x)
  {
    NumeralPiece(a);
    TameAppend(x, a);
    NoDoubleStarAppend(x, a);
    OperatorTotalAppend(x, a);
    assert (x + a)[|x + a| - 1] == a[|a| - 1];
  }

  /** Every check before conversion passes text of such characters with no `**` and two operators through. */
  lemma TamePassesChecks(s: string)
    requires AllTame(s) && NoDoubleStar(s) && OperatorTotal(s) == 2
    requires Balanced(s)
    ensures StripWhitespace(s) == s && CheckParentheses(s)
    ensures CountOperators(s) == 2 && Preprocess(s) == s
  {
    forall k | 0 <= k < |s| ensures !IsWhitespace(s[k]) && s[k] != 'e' && s[k] != 'l' {
      assert Tame(s[k]);
    }
    assert NoWhitespace(s);
    NoDoubleStarUnchanged(s);
    NoFunctionUnchanged(s, 0);
    assert s[0..] == s;
  }

  /** A string with no parenthesis. */
  predicate ParenthesisFree(x: string) {
    forall k :: 0 <= k < |x| ==> x[k] != '(' && x[k] != ')'
  }

  lemma ParenthesisFreeDepth(x: string)
    requires ParenthesisFree(x)
    ensures Depth(x) == 0
  {
    assert '(' !in x && ')' !in x;
  }

  lemma ParenthesisFreePrefix(x: string, k: nat)
    requires ParenthesisFree(x) && k <= |x|
    ensures ParenthesisFree(x[..k])
  {
  }

  /** `pre ( mid ) post` is balanced when none of the three pieces holds a parenthesis. */
  lemma WrappedBalanced(pre: string, mid: string, post: string)
    requires ParenthesisFree(pre) && ParenthesisFree(mid) && ParenthesisFree(post)
    ensures Balanced(pre + "(" + mid + ")" + post)
  {
    var s := pre + "(" + mid + ")" + post;
    var open := |pre| + 1;
    var close := open + |mid| + 1;
    forall k | 0 <= k <= |s| ensures Depth(s[..k]) >= 0 {
      if k <= |pre| {
        assert s[..k] == pre[..k];
        ParenthesisFreePrefix(pre, k);
        ParenthesisFreeDepth(pre[..k]);
      } else if k < close {
        assert s[..k] == pre + "(" + mid[..k - open];
        ParenthesisFreePrefix(mid, k - open);
        ParenthesisFreeDepth(pre);
        ParenthesisFreeDepth(mid[..k - open]);
      } else {
        assert s[..k] == pre + "(" + mid + ")" + post[..k - close];
        ParenthesisFreePrefix(post, k - close);
        ParenthesisFreeDepth(pre);
        ParenthesisFreeDepth(mid);
        ParenthesisFreeDepth(post[..k - close]);
      }
    }
    ParenthesisFreeDepth(pre);
    ParenthesisFreeDepth(mid);
    ParenthesisFreeDepth(post);
  }

  lemma NumeralParenthesisFree(a: string)
    requires Numeral(a)
    ensures ParenthesisFree(a)
  {
  }

  /** `a o b` with no parenthesis, for digit strings `a` and `b` (either may be empty). */
  lemma InnerParenthesisFree(a: string, o: char, b: string)
    requires AllDigits(a) && AllDigits(b) && IsBinaryOperation(o)
    ensures ParenthesisFree(a + [o] + b)
  {
    var x := a + [o] + b;
    forall k | 0 <= k < |x| ensures x[k] != '(' && x[k] != ')' {
      if k < |a| {
        assert x[k] == a[k];
      } else if k > |a| {
        assert x[k] == b[k - |a| - 1];
      }
    }
  }

  /** `(a o1 b) o2 c` is made of tame characters, has no `**` and holds two operators. */
  lemma LeftTame(a: string, o1: char, b: string, o2: char, c: string)
    requires Numeral(a) && Numeral(b) && Numeral(c)
    requires IsBinaryOperation(o1) && IsBinaryOperation(o2)
    ensures var s := LeftParenthesised(a, o1, b, o2, c);
      AllTame(s) && NoDoubleStar(s) && OperatorTotal(s) == 2
  {
    CharPiece('(');
    GlueNumeral("(", a);
    GlueChar("(" + a, o1);
    GlueNumeral("(" + a + [o1], b);
    GlueChar("(" + a + [o1] + b, ')');
    GlueChar("(" + a + [o1] + b + ")", o2);
    GlueNumeral("(" + a + [o1] + b + ")" + [o2], c);
  }

  /** `(a o1 b) o2 c` as a wrapped middle piece. */
  lemma LeftShape(a: string, o1: char, b: string, o2: char, c: string)
    ensures "" + "(" + (a + [o1] + b) + ")" + ([o2] + c) == LeftParenthesised(a, o1, b, o2, c)
  {
    assert "" + "(" == "(";
  }

  /** The parentheses of `(a o1 b) o2 c` are balanced. */
  lemma LeftBalanced(a: string, o1: char, b: string, o2: char, c: string)
    requires Numeral(a) && Numeral(b) && Numeral(c)
    requires IsBinaryOperation(o1) && IsBinaryOperation(o2)
    ensures Balanced(LeftParenthesised(a, o1, b, o2, c))
  {
    InnerParenthesisFree(a, o1, b);
    InnerParenthesisFree("", o2, c);
    assert "" + [o2] + c == [o2] + c;
    WrappedBalanced("", a + [o1] + b, [o2] + c);
    LeftShape(a, o1, b, o2, c);
  }

  /** Every check before conversion passes `(a o1 b) o2 c` through unchanged. */
  lemma LeftPassesChecks(a: string, o1: char, b: string, o2: char, c: string)
    requires Numeral(a) && Numeral(b) && Numeral(c)
    requires IsBinaryOperation(o1) && IsBinaryOperation(o2)
    ensures var s := LeftParenthesised(a, o1, b, o2, c);
      StripWhitespace(s) == s && CheckParentheses(s) && CountOperators(s) == 2 && Preprocess(s) == s
  {
    LeftTame(a, o1, b, o2, c);
    LeftBalanced(a, o1, b, o2, c);
    TamePassesChecks(LeftParenthesised(a, o1, b, o2, c));
  }

  /** `a o1 (b o2 c)` is made of tame characters, has no `**` and holds two operators. */
  lemma RightTame(a: string, o1: char, b: string, o2: char, c: string)
    requires Numeral(a) && Numeral(b) && Numeral(c)
    requires IsBinaryOperation(o1) && IsBinaryOperation(o2)
    ensures var s := RightParenthesised(a, o1, b, o2, c);
      AllTame(s) && NoDoubleStar(s) && OperatorTotal(s) == 2
  {
    NumeralPiece(a);
    GlueChar(a, o1);
    GlueChar(a + [o1], '(');
    GlueNumeral(a + [o1] + "(", b);
    GlueChar(a + [o1] + "(" + b, o2);
    GlueNumeral(a + [o1] + "(" + b + [o2], c);
    GlueChar(a + [o1] + "(" + b + [o2] + c, ')');
  }

  /** `a o1 (b o2 c)` as a wrapped middle piece. */
  lemma RightShape(a: string, o1: char, b: string, o2: char, c: string)
    ensures a + [o1] + "(" + (b + [o2] + c) + ")" + "" == RightParenthesised(a, o1, b, o2, c)
  {
    assert a + [o1] + "(" + (b + [o2] + c) + ")" + "" == a + [o1] + "(" + (b + [o2] + c) + ")";
  }

  /** The parentheses of `a o1 (b o2 c)` are balanced. */
  lemma RightBalanced(a: string, o1: char, b: string, o2: char, c: string)
    requires Numeral(a) && Numeral(b) && Numeral(c)
    requires IsBinaryOperation(o1) && IsBinaryOperation(o2)
    ensures Balanced(RightParenthesised(a, o1, b, o2, c))
  {
    InnerParenthesisFree(a, o1, "");
    InnerParenthesisFree(b, o2, c);
    assert a + [o1] + "" == a + [o1];
    WrappedBalanced(a + [o1], b + [o2] + c, "");
    RightShape(a, o1, b, o2, c);
  }

  /** Every check before conversion passes `a o1 (b o2 c)` through unchanged. */
  lemma RightPassesChecks(a: string, o1: char, b: string, o2: char, c: string)
    requires Numeral(a) && Numeral(b) && Numeral(c)
    requires IsBinaryOperation(o1) && IsBinaryOperation(o2)
    ensures var s := RightParenthesised(a, o1, b, o2, c);
      StripWhitespace(s) == s && CheckParentheses(s) && CountOperators(s) == 2 && Preprocess(s) == s
  {
    RightTame(a, o1, b, o2, c);
    RightBalanced(a, o1, b, o2, c);
    TamePassesChecks(RightParenthesised(a, o1, b, o2, c));
  }

  // ---------------------------------------------------------------------------
  // The whole calculation

  /** The words of `a b o1 c o2` rendered. */
  lemma LeftWords(a: string, o1: char, b: string, o2: char, c: string)
    requires Numeral(a) && Numeral(b) && Numeral(c)
    requires IsBinaryOperation(o1) && IsBinaryOperation(o2)
    ensures Words(Render([Number(a), Number(b), Symbol(o1), Number(c), Symbol(o2)])) == [a, b, [o1], c, [o2]]
  {
    NumeralHasNoSpace(a);
    NumeralHasNoSpace(b);
    NumeralHasNoSpace(c);
    SplitRender([Number(a), Number(b), Symbol(o1), Number(c), Symbol(o2)]);
  }

  /** The words of `a b c o2 o1` rendered. */
  lemma RightWords(a: string, o1: char, b: string, o2: char, c: string)
    requires Numeral(a) && Numeral(b) && Numeral(c)
    requires IsBinaryOperation(o1) && IsBinaryOperation(o2)
    ensures Words(Render([Number(a), Number(b), Number(c), Symbol(o2), Symbol(o1)])) == [a, b, c, [o2], [o1]]
  {
    NumeralHasNoSpace(a);
    NumeralHasNoSpace(b);
    NumeralHasNoSpace(c);
    SplitRender([Number(a), Number(b), Number(c), Symbol(o2), Symbol(o1)]);
  }

  /** `calculate` on `(a o1 b) o2 c` evaluates `a b o1 c o2`. */
  lemma LeftReachesEvaluation(lib: Floating, a: string, o1: char, b: string, o2: char, c: string)
    requires Numeral(a) && Numeral(b) && Numeral(c)
    requires IsBinaryOperation(o1) && IsBinaryOperation(o2)
    ensures Calculate(lib, LeftParenthesised(a, o1, b, o2, c)) ==
      EvaluateRPN(lib, Render([Number(a), Number(b), Symbol(o1), Number(c), Symbol(o2)]))
  {
    LeftPassesChecks(a, o1, b, o2, c);
    ConvertLeftParenthesised(a, o1, b, o2, c);
  }

  /** `calculate` on `a o1 (b o2 c)` evaluates `a b c o2 o1`. */
  lemma RightReachesEvaluation(lib: Floating, a: string, o1: char, b: string, o2: char, c: string)
    requires Numeral(a) && Numeral(b) && Numeral(c)
    requires IsBinaryOperation(o1) && IsBinaryOperation(o2)
    ensures Calculate(lib, RightParenthesised(a, o1, b, o2, c)) ==
      EvaluateRPN(lib, Render([Number(a), Number(b), Number(c), Symbol(o2), Symbol(o1)]))
  {
    RightPassesChecks(a, o1, b, o2, c);
    ConvertRightParenthesised(a, o1, b, o2, c);
  }

  /** `a b o1 c o2` evaluates to `(x o1 y) o2 z`. */
  lemma EvaluateLeftPostfix(lib: Floating, a: string, o1: char, b: string, o2: char, c: string, x: real, y: real, z: real)
    requires Numeral(a) && Numeral(b) && Numeral(c)
    requires Reads(a, x) && Reads(b, y) && Reads(c, z)
    requires IsBinaryOperation(o1) && IsBinaryOperation(o2)
    ensures EvaluateRPN(lib, Render([Number(a), Number(b), Symbol(o1), Number(c), Symbol(o2)])) ==
      Then(ApplyOperation(lib, o1, x, y), v => ApplyOperation(lib, o2, v, z))
  {
    var text := Render([Number(a), Number(b), Symbol(o1), Number(c), Symbol(o2)]);
    LeftWords(a, o1, b, o2, c);
    EvalLeftGrouped(lib, Words(text), o1, o2, x, y, z);
    EvaluateThroughTop(lib, text);
  }

  /** `a b c o2 o1` evaluates to `x o1 (y o2 z)`. */
  lemma EvaluateRightPostfix(lib: Floating, a: string, o1: char, b: string, o2: char, c: string, x: real, y: real, z: real)
    requires Numeral(a) && Numeral(b) && Numeral(c)
    requires Reads(a, x) && Reads(b, y) && Reads(c, z)
    requires IsBinaryOperation(o1) && IsBinaryOperation(o2)
    ensures EvaluateRPN(lib, Render([Number(a), Number(b), Number(c), Symbol(o2), Symbol(o1)])) ==
      Then(ApplyOperation(lib, o2, y, z), v => ApplyOperation(lib, o1, x, v))
  {
    var text := Render([Number(a), Number(b), Number(c), Symbol(o2), Symbol(o1)]);
    RightWords(a, o1, b, o2, c);
    EvalRightGrouped(lib, Words(text), o1, o2, x, y, z);
    EvaluateThroughTop(lib, text);
  }

  /**
   `calculate` on `(a o1 b) o2 c` (numerals reading as `x`, `y`, `z`) is
   `(x o1 y) o2 z` whatever the priorities: the bracketed operation is applied
   first, and its error, if any, is the result.
   */
  lemma CalculateLeftParenthesised(lib: Floating, a: string, o1: char, b: string, o2: char, c: string, x: real, y: real, z: real)
    requires Numeral(a) && Numeral(b) && Numeral(c)
    requires Reads(a, x) && Reads(b, y) && Reads(c, z)
    requires IsBinaryOperation(o1) && IsBinaryOperation(o2)
    ensures Calculate(lib, LeftParenthesised(a, o1, b, o2, c)) ==
      Then(ApplyOperation(lib, o1, x, y), v => ApplyOperation(lib, o2, v, z))
  {
    LeftReachesEvaluation(lib, a, o1, b, o2, c);
    EvaluateLeftPostfix(lib, a, o1, b, o2, c, x, y, z);
  }

  /**
   `calculate` on `a o1 (b o2 c)` is `x o1 (y o2 z)` whatever the priorities:
   the bracketed operation is applied first, and its error, if any, is the
   result.
   */
  lemma CalculateRightParenthesised(lib: Floating, a: string, o1: char, b: string, o2: char, c: string, x: real, y: real, z: real)
    requires Numeral(a) && Numeral(b) && Numeral(c)
    requires Reads(a, x) && Reads(b, y) && Reads(c, z)
    requires IsBinaryOperation(o1) && IsBinaryOperation(o2)
    ensures Calculate(lib, RightParenthesised(a, o1, b, o2, c)) ==
      Then(ApplyOperation(lib, o2, y, z), v => ApplyOperation(lib, o1, x, v))
  {
    RightReachesEvaluation(lib, a, o1, b, o2, c);
    EvaluateRightPostfix(lib, a, o1, b, o2, c, x, y, z);
  }

  /**
   The same for natural numbers written in decimal: `(3+4)*2` is `(3+4)*2`
   although `*` binds tighter, and `2^(3^2)` is `2^9` although `^` groups to
   the left.
   */
  lemma CalculateParenthesisedOperands(lib: Floating, x: nat, o1: char, y: nat, o2: char, z: nat)
    requires IsBinaryOperation(o1) && IsBinaryOperation(o2)
    ensures Calculate(lib, LeftParenthesised(NatToString(x), o1, NatToString(y), o2, NatToString(z))) ==
      Then(ApplyOperation(lib, o1, x as real, y as real), v => ApplyOperation(lib, o2, v, z as real))
    ensures Calculate(lib, RightParenthesised(NatToString(x), o1, NatToString(y), o2, NatToString(z))) ==
      Then(ApplyOperation(lib, o2, y as real, z as real), v => ApplyOperation(lib, o1, x as real, v))
  {
    NumeralReads(x);
    NumeralReads(y);
    NumeralReads(z);
    CalculateLeftParenthesised(lib, NatToString(x), o1, NatToString(y), o2, NatToString(z), x as real, y as real, z as real);
    CalculateRightParenthesised(lib, NatToString(x), o1, NatToString(y), o2, NatToString(z), x as real, y as real, z as real);
  }

  /** `(3+4)*2` in the form of the statements above. */
  lemma GroupedSumValue(lib: Floating)
    ensures Calculate(lib, LeftParenthesised("3", '+', "4", '*', "2")) == Success(14.0)
  {
    NumeralReads(3);
    NumeralReads(4);
    NumeralReads(2);
    assert NatToString(3) == "3" && NatToString(4) == "4" && NatToString(2) == "2";
    CalculateLeftParenthesised(lib, "3", '+', "4", '*', "2", 3.0, 4.0, 2.0);
    assert Then(ApplyOperation(lib, '+', 3.0, 4.0), v => ApplyOperation(lib, '*', v, 2.0)) == Success(14.0);
  }

  lemma GroupedSumShape()
    ensures LeftParenthesised("3", '+', "4", '*', "2") == "(3+4)*2"
  {
  }

  /** `(3+4)*2` is 14, where `3+4*2` would be 11. */
  lemma GroupedSumExample(lib: Floating)
    ensures Calculate(lib, "(3+4)*2") == Success(14.0)
  {
    GroupedSumValue(lib);
    GroupedSumShape();
  }

  /** `8/(4-4)` in the form of the statements above. */
  lemma GroupedDivisorValue(lib: Floating)
    ensures Calculate(lib, RightParenthesised("8", '/', "4", '-', "4")) == Failure(DivisionByZero)
  {
    NumeralReads(8);
    NumeralReads(4);
    assert NatToString(8) == "8" && NatToString(4) == "4";
    CalculateRightParenthesised(lib, "8", '/', "4", '-', "4", 8.0, 4.0, 4.0);
    assert Then(ApplyOperation(lib, '-', 4.0, 4.0), v => ApplyOperation(lib, '/', 8.0, v)) == Failure(DivisionByZero);
  }

  lemma GroupedDivisorShape()
    ensures RightParenthesised("8", '/', "4", '-', "4") == "8/(4-4)"
  {
  }

  /** `8/(4-4)` divides by zero. */
  lemma GroupedDivisorExample(lib: Floating)
    ensures Calculate(lib, "8/(4-4)") == Failure(DivisionByZero)
  {
    GroupedDivisorValue(lib);
    GroupedDivisorShape();
  }
}

=== FILE: extended_precedence.dfy ===
/**
 How the extended engine groups an expression of three numbers and two binary
 operators: the operator of higher priority is applied first, and of two
 operators of equal priority the left one is applied first, `^` included.
 The statements follow one expression through every stage of `calculate`.
 */
module ExtendedPrecedence {
  import opened Wrappers
  import opened Lexing
  import opened Rpn
  import opened Arithmetic
  import opened ExtendedCalculator

  /** `a o1 b o2 c`, written without spaces. */
  function Infix(a: string, o1: char, b: string, o2: char, c: string): string {
    a + [o1] + b + [o2] + c
  }

  /** A non-empty run of ASCII digits. */
  predicate Numeral(a: string) {
    |a| > 0 && AllDigits(a)
  }

  /** The postfix order the converter produces for `a o1 b o2 c`. */
  function Grouped(a: string, o1: char, b: string, o2: char, c: string): seq<Token> {
    if Priority(o1) >= Priority(o2) then [Number(a), Number(b), Symbol(o1), Number(c), Symbol(o2)]
    else [Number(a), Number(b), Number(c), Symbol(o2), Symbol(o1)]
  }

  /** A numeral `w` at index `i`, followed by a non-number character or the end, is emitted as one number. */
  lemma ConvertRun(s: string, i: nat, w: string, stack: seq<char>, out: seq<Token>)
    requires Numeral(w) && i + |w| <= |s| && s[i..i + |w|] == w
    requires i + |w| == |s| || !IsNumberChar(s[i + |w|])
    ensures ConvertFrom(s, i, stack, out) == ConvertFrom(s, i + |w|, stack, out + [Number(w)])
  {
    forall k | i <= k < i + |w| ensures IsNumberChar(s[k]) {
      assert s[k] == w[k - i];
    }
    SpanEndUnique(s, i, i + |w|, IsNumberChar);
    assert Step(s, i, stack, out) == Move(i + |w|, Shunt(stack, out + [Number(w)]));
  }

  /** A binary operator `o` at index `i` is pushed, giving state `st`. */
  lemma ConvertOperator(s: string, i: nat, o: char, stack: seq<char>, out: seq<Token>, st: Shunt)
    requires i < |s| && s[i] == o && IsBinaryOperation(o)
    requires st == PushOperator(o, stack, out)
    ensures ConvertFrom(s, i, stack, out) == ConvertFrom(s, i + 1, st.stack, st.out)
  {
    assert !IsNumberChar(o) && !IsLetter(o) && IsOperator(o);
    assert Step(s, i, stack, out) == Move(i + 1, st);
  }

  /** An operator pushed on an empty stack. */
  lemma PushOnEmpty(o: char, out: seq<Token>)
    ensures PushOperator(o, [], out) == Shunt([o], out)
  {
  }

  /** An operator arriving above one operator: that one is popped exactly when its priority is at least as high. */
  lemma PushOnOne(o1: char, o2: char, out: seq<Token>)
    ensures PushOperator(o2, [o1], out) ==
      if Priority(o1) >= Priority(o2) then Shunt([o2], out + [Symbol(o1)]) else Shunt([o1, o2], out)
  {
    var r := PopWhile([o1], out, PopsFor(o2));
    if Priority(o1) >= Priority(o2) {
      assert PopsFor(o2)(o1);
      assert r.stack == [];
      assert PopAll([o1]) == [Symbol(o1)];
    } else {
      assert !PopsFor(o2)(o1);
      assert r.stack == [o1];
    }
  }

  /** The numeral `w` starts at index `i` of `s` and the binary operator `o` follows it. */
  predicate NumeralOperatorAt(s: string, i: nat, w: string, o: char) {
    Numeral(w) && IsBinaryOperation(o) && i + |w| < |s| && s[i..i + |w|] == w && s[i + |w|] == o
  }

  /** The numeral `w` ends `s` from index `i`. */
  predicate LastNumeralAt(s: string, i: nat, w: string) {
    Numeral(w) && i + |w| == |s| && s[i..] == w
  }

  /** A numeral followed by an operator is emitted as one number. */
  lemma ConvertNumeralBeforeOperator(s: string, i: nat, w: string, o: char, stack: seq<char>, out: seq<Token>)
    requires NumeralOperatorAt(s, i, w, o)
    ensures ConvertFrom(s, i, stack, out) == ConvertFrom(s, i + |w|, stack, out + [Number(w)])
  {
    assert !IsNumberChar(s[i + |w|]);
    ConvertRun(s, i, w, stack, out);
  }

  /** The operator after the numeral is pushed. */
  lemma ConvertOperatorAfterNumeral(s: string, i: nat, w: string, o: char, j: nat, stack: seq<char>, out: seq<Token>, st: Shunt)
    requires NumeralOperatorAt(s, i, w, o) && j == i + |w| + 1
    requires st == PushOperator(o, stack, out + [Number(w)])
    ensures ConvertFrom(s, i + |w|, stack, out + [Number(w)]) == ConvertFrom(s, j, st.stack, st.out)
  {
    var k := i + |w|;
    assert k < |s| && s[k] == o;
    ConvertOperator(s, k, o, stack, out + [Number(w)], st);
  }

  /**
   A numeral followed by a binary operator: the number is emitted, then the
   operator is pushed, giving state `st`; conversion continues at `j`.
   */
  lemma ConvertNumeralOperator(s: string, i: nat, w: string, o: char, j: nat, stack: seq<char>, out: seq<Token>, st: Shunt)
    requires NumeralOperatorAt(s, i, w, o) && j == i + |w| + 1
    requires st == PushOperator(o, stack, out + [Number(w)])
    ensures ConvertFrom(s, i, stack, out) == ConvertFrom(s, j, st.stack, st.out)
  {
    ConvertNumeralBeforeOperator(s, i, w, o, stack, out);
    ConvertOperatorAfterNumeral(s, i, w, o, j, stack, out, st);
  }

  /** The last numeral is emitted, then the stack is emptied. */
  lemma ConvertLastNumeral(s: string, i: nat, w: string, stack: seq<char>, out: seq<Token>)
    requires LastNumeralAt(s, i, w)
    ensures ConvertFrom(s, i, stack, out) == out + [Number(w)] + PopAll(stack)
  {
    assert s[i..i + |w|] == w;
    ConvertRun(s, i, w, stack, out);
  }

  /** Where the pieces of `a o1 b o2 c` sit. */
  lemma InfixSlices(a: string, o1: char, b: string, o2: char, c: string)
    requires Numeral(a) && Numeral(b) && Numeral(c)
    requires IsBinaryOperation(o1) && IsBinaryOperation(o2)
    ensures var s := Infix(a, o1, b, o2, c);
      && NumeralOperatorAt(s, 0, a, o1)
      && NumeralOperatorAt(s, |a| + 1, b, o2)
      && LastNumeralAt(s, |a| + 1 + |b| + 1, c)
  {
    var s := Infix(a, o1, b, o2, c);
    assert s == a + ([o1] + (b + ([o2] + c)));
    assert s[0..|a|] == a;
    assert s[|a| + 1..|a| + 1 + |b|] == b;
    assert s[|a| + 1 + |b| + 1..] == c;
  }

  /** The conversion of `a o1 b` followed by an operator `o2`: `st1` is the state after `a o1`, `st` the state after `b o2`. */
  lemma ConvertTwoFrom(s: string, i: nat, a: string, o1: char, b: string, o2: char, p1: nat, p2: nat,
                       stack: seq<char>, out: seq<Token>, st1: Shunt, st: Shunt)
    requires NumeralOperatorAt(s, i, a, o1) && p1 == i + |a| + 1
    requires NumeralOperatorAt(s, p1, b, o2) && p2 == p1 + |b| + 1
    requires st1 == PushOperator(o1, stack, out + [Number(a)])
    requires st == PushOperator(o2, st1.stack, st1.out + [Number(b)])
    ensures ConvertFrom(s, i, stack, out) == ConvertFrom(s, p2, st.stack, st.out)
  {
    ConvertNumeralOperator(s, i, a, o1, p1, stack, out, st1);
    ConvertNumeralOperator(s, p1, b, o2, p2, st1.stack, st1.out, st);
  }

  /** The conversion of `a o1 b o2 c` found at index `i` of `s`, from any state. */
  lemma ConvertThreeFrom(s: string, i: nat, a: string, o1: char, b: string, o2: char, c: string,
                         p1: nat, p2: nat, stack: seq<char>, out: seq<Token>, st1: Shunt, st: Shunt)
    requires NumeralOperatorAt(s, i, a, o1) && p1 == i + |a| + 1
    requires NumeralOperatorAt(s, p1, b, o2) && p2 == p1 + |b| + 1
    requires LastNumeralAt(s, p2, c)
    requires st1 == PushOperator(o1, stack, out + [Number(a)])
    requires st == PushOperator(o2, st1.stack, st1.out + [Number(b)])
    ensures ConvertFrom(s, i, stack, out) == st.out + [Number(c)] + PopAll(st.stack)
  {
    ConvertTwoFrom(s, i, a, o1, b, o2, p1, p2, stack, out, st1, st);
    ConvertLastNumeral(s, p2, c, st.stack, st.out);
  }

  /** From the empty state, `a o1 b` leaves `o1` on the stack and `a b` in the output. */
  lemma AfterTwoFromEmpty(a: string, o1: char, b: string, o2: char)
    ensures PushOperator(o2, PushOperator(o1, [], [] + [Number(a)]).stack, PushOperator(o1, [], [] + [Number(a)]).out + [Number(b)])
      == PushOperator(o2, [o1], [Number(a), Number(b)])
  {
    assert [] + [Number(a)] == [Number(a)];
    PushOnEmpty(o1, [Number(a)]);
    assert [Number(a)] + [Number(b)] == [Number(a), Number(b)];
  }

  lemma LeftTail(a: string, o1: char, b: string, o2: char, c: string)
    requires Priority(o1) >= Priority(o2)
    ensures [Number(a), Number(b)] + [Symbol(o1)] + [Number(c)] + PopAll([o2]) == Grouped(a, o1, b, o2, c)
  {
    assert PopAll([o2]) == [Symbol(o2)];
  }

  lemma RightTail(a: string, o1: char, b: string, o2: char, c: string)
    requires Priority(o1) < Priority(o2)
    ensures [Number(a), Number(b)] + [Number(c)] + PopAll([o1, o2]) == Grouped(a, o1, b, o2, c)
  {
    assert PopAll([o1, o2]) == [Symbol(o2), Symbol(o1)];
  }

  /** From the empty state, the operator stack and output after `a o1 b o2 c` spell the grouped order. */
  lemma GroupedFromEmpty(a: string, o1: char, b: string, o2: char, c: string, st: Shunt)
    requires st == PushOperator(o2, [o1], [Number(a), Number(b)])
    ensures st.out + [Number(c)] + PopAll(st.stack) == Grouped(a, o1, b, o2, c)
  {
    PushOnOne(o1, o2, [Number(a), Number(b)]);
    if Priority(o1) >= Priority(o2) {
      LeftTail(a, o1, b, o2, c);
    } else {
      RightTail(a, o1, b, o2, c);
    }
  }

  /**
   The converter puts `a o1 b o2 c` in postfix order grouping `(a o1 b) o2 c`
   when `o1` has greater or equal priority, and `a o1 (b o2 c)` otherwise.
   */
  lemma ConvertThreeOperands(a: string, o1: char, b: string, o2: char, c: string)
    requires Numeral(a) && Numeral(b) && Numeral(c)
    requires IsBinaryOperation(o1) && IsBinaryOperation(o2)
    ensures ConvertToRPN(Infix(a, o1, b, o2, c)) == Grouped(a, o1, b, o2, c)
  {
    var s := Infix(a, o1, b, o2, c);
    InfixSlices(a, o1, b, o2, c);
    var st1 := PushOperator(o1, [], [] + [Number(a)]);
    var st := PushOperator(o2, st1.stack, st1.out + [Number(b)]);
    ConvertThreeFrom(s, 0, a, o1, b, o2, c, |a| + 1, |a| + 1 + |b| + 1, [], [], st1, st);
    AfterTwoFromEmpty(a, o1, b, o2);
    GroupedFromEmpty(a, o1, b, o2, c, st);
  }

  // ---------------------------------------------------------------------------
  // The stages before conversion leave such an expression unchanged

  lemma InfixShape(a: string, o1: char, b: string, o2: char, c: string)
    ensures var s := Infix(a, o1, b, o2, c);
      && |s| == |a| + 1 + |b| + 1 + |c|
      && (forall k :: 0 <= k < |a| ==> s[k] == a[k])
      && s[|a|] == o1
      && (forall k :: |a| + 1 <= k < |a| + 1 + |b| ==> s[k] == b[k - |a| - 1])
      && s[|a| + 1 + |b|] == o2
      && (forall k :: |a| + 1 + |b| + 1 <= k < |s| ==> s[k] == c[k - |a| - 1 - |b| - 1])
  {
  }

  lemma InfixCharacters(a: string, o1: char, b: string, o2: char, c: string, k: nat)
    requires Numeral(a) && Numeral(b) && Numeral(c)
    requires IsBinaryOperation(o1) && IsBinaryOperation(o2)
    requires k < |Infix(a, o1, b, o2, c)|
    ensures var s := Infix(a, o1, b, o2, c);
      (IsDigit(s[k]) && k != |a| && k != |a| + 1 + |b|) || ((k == |a| || k == |a| + 1 + |b|) && IsBinaryOperation(s[k]))
  {
    InfixShape(a, o1, b, o2, c);
  }

  lemma {:induction false} OperatorTotalAppend(u: string, v: string)
    ensures OperatorTotal(u + v) == OperatorTotal(u) + OperatorTotal(v)
  {
    if |u| == 0 {
      assert u + v == v;
    } else {
      assert (u + v)[1..] == u[1..] + v;
      OperatorTotalAppend(u[1..], v);
    }
  }

  lemma {:induction false} NumeralHasNoOperator(a: string)
    requires AllDigits(a)
    ensures OperatorTotal(a) == 0
  {
    if |a| > 0 {
      NumeralHasNoOperator(a[1..]);
    }
  }

  /** A string with no `**` pair is left as it is by the `**` rewrite. */
  lemma {:induction false} NoDoubleStarUnchanged(s: string)
    requires forall k :: 0 <= k < |s| - 1 ==> !(s[k] == '*' && s[k + 1] == '*')
    ensures ReplaceDoubleStar(s) == s
  {
    if |s| > 0 {
      NoDoubleStarUnchanged(s[1..]);
      assert s == [s[0]] + s[1..];
    }
  }

  /** Without `e` and `l` the function rewrite copies its input. */
  lemma {:induction false} NoFunctionUnchanged(s: string, i: nat)
    requires i <= |s|
    requires forall k :: i <= k < |s| ==> s[k] != 'e' && s[k] != 'l'
    ensures RewriteFunctionsFrom(s, i) == s[i..]
    decreases |s| - i
  {
    if i < |s| {
      RewriteCopies(s, i);
      NoFunctionUnchanged(s, i + 1);
      assert s[i..] == [s[i]] + s[i + 1..];
    }
  }

  lemma NoParenthesesBalanced(s: string)
    requires '(' !in s && ')' !in s
    ensures Balanced(s)
  {
    forall k | 0 <= k <= |s| ensures Depth(s[..k]) == 0 {
      assert '(' !in s[..k] && ')' !in s[..k];
    }
    assert s[..|s|] == s;
  }

  /** No character of `a o1 b o2 c` is whitespace, a parenthesis or a letter the function rewrite looks at, and no `**` pair occurs. */
  lemma InfixPlainCharacters(a: string, o1: char, b: string, o2: char, c: string)
    requires Numeral(a) && Numeral(b) && Numeral(c)
    requires IsBinaryOperation(o1) && IsBinaryOperation(o2)
    ensures var s := Infix(a, o1, b, o2, c);
      && (forall k :: 0 <= k < |s| ==> !IsWhitespace(s[k]) && s[k] != '(' && s[k] != ')' && s[k] != 'e' && s[k] != 'l')
      && (forall k :: 0 <= k < |s| - 1 ==> !(s[k] == '*' && s[k + 1] == '*'))
  {
    var s := Infix(a, o1, b, o2, c);
    forall k | 0 <= k < |s|
      ensures !IsWhitespace(s[k]) && s[k] != '(' && s[k] != ')' && s[k] != 'e' && s[k] != 'l'
    {
      InfixCharacters(a, o1, b, o2, c, k);
    }
    forall k | 0 <= k < |s| - 1 ensures !(s[k] == '*' && s[k + 1] == '*') {
      InfixCharacters(a, o1, b, o2, c, k);
      InfixCharacters(a, o1, b, o2, c, k + 1);
    }
  }

  /** `a o1 b o2 c` holds exactly two operators. */
  lemma InfixOperatorTotal(a: string, o1: char, b: string, o2: char, c: string)
    requires Numeral(a) && Numeral(b) && Numeral(c)
    requires IsBinaryOperation(o1) && IsBinaryOperation(o2)
    ensures OperatorTotal(Infix(a, o1, b, o2, c)) == 2
  {
    NumeralHasNoOperator(a);
    NumeralHasNoOperator(b);
    NumeralHasNoOperator(c);
    OperatorTotalAppend(a, [o1]);
    OperatorTotalAppend(a + [o1], b);
    OperatorTotalAppend(a + [o1] + b, [o2]);
    OperatorTotalAppend(a + [o1] + b + [o2], c);
    assert OperatorTotal([o1]) == 1 && OperatorTotal([o2]) == 1;
  }

  /** Whitespace stripping, the parenthesis check, the operator bound and preprocessing all pass the expression through. */
  lemma InfixPassesChecks(a: string, o1: char, b: string, o2: char, c: string)
    requires Numeral(a) && Numeral(b) && Numeral(c)
    requires IsBinaryOperation(o1) && IsBinaryOperation(o2)
    ensures var s := Infix(a, o1, b, o2, c);
      && StripWhitespace(s) == s
      && Balanced(s)
      && OperatorTotal(ReplaceDoubleStar(s)) == 2
      && Preprocess(s) == s
  {
    var s := Infix(a, o1, b, o2, c);
    InfixPlainCharacters(a, o1, b, o2, c);
    assert NoWhitespace(s);
    assert '(' !in s && ')' !in s;
    NoParenthesesBalanced(s);
    NoDoubleStarUnchanged(s);
    NoFunctionUnchanged(s, 0);
    assert s[0..] == s;
    InfixOperatorTotal(a, o1, b, o2, c);
  }

  // ---------------------------------------------------------------------------
  // Evaluation of the grouped postfix text

  /** `r` with `f` applied to its value, or its error. */
  function Then(r: Result<real, Error>, f: real -> Result<real, Error>): Result<real, Error> {
    if r.Failure? then Failure(r.error) else f(r.value)
  }

  /** A numeral word pushes its value and evaluation continues with the rest. */
  lemma EvalNumberThen(lib: Floating, ws: seq<string>, stack: seq<real>, v: real)
    requires |ws| > 0 && Reads(ws[0], v)
    ensures EvalFrom(lib, ws, stack) == EvalFrom(lib, ws[1..], stack + [v])
  {
  }

  /** An operator word replaces the two top values by the result, or ends evaluation with its error. */
  lemma EvalBinaryThen(lib: Floating, ws: seq<string>, stack: seq<real>, a: real, b: real)
    requires |ws| > 0 && |ws[0]| == 1 && IsBinaryOperation(ws[0][0])
    ensures var r := ApplyOperation(lib, ws[0][0], a, b);
      EvalFrom(lib, ws, stack + [a, b]) == if r.Failure? then Failure(r.error) else EvalFrom(lib, ws[1..], stack + [r.value])
  {
    var st := stack + [a, b];
    assert st[..|st| - 2] == stack && st[|st| - 1] == b && st[|st| - 2] == a;
  }

  /** A numeral word: its first character is a digit and it parses to its value. */
  predicate Reads(w: string, v: real) {
    |w| > 0 && IsDigit(w[0]) && ParseDecimal(w) == Some(v)
  }

  lemma NumeralReads(x: nat)
    ensures Reads(NatToString(x), x as real)
  {
    ParseNatToString(x);
  }

  /** `(x o1 y) o2 z` as the evaluator computes it: a list of one value, or the first error. */
  function LeftResult(lib: Floating, o1: char, o2: char, x: real, y: real, z: real): Result<seq<real>, Error> {
    var r1 := ApplyOperation(lib, o1, x, y);
    if r1.Failure? then Failure(r1.error)
    else
      var r2 := ApplyOperation(lib, o2, r1.value, z);
      if r2.Failure? then Failure(r2.error) else Success([r2.value])
  }

  /** `x o1 (y o2 z)` as the evaluator computes it. */
  function RightResult(lib: Floating, o1: char, o2: char, x: real, y: real, z: real): Result<seq<real>, Error> {
    var r2 := ApplyOperation(lib, o2, y, z);
    if r2.Failure? then Failure(r2.error)
    else
      var r1 := ApplyOperation(lib, o1, x, r2.value);
      if r1.Failure? then Failure(r1.error) else Success([r1.value])
  }

  /** Two numeral words and an operator word: the operation is applied to the two values. */
  lemma EvalNumbersOperator(lib: Floating, ws: seq<string>, stack: seq<real>, o: char, x: real, y: real)
    requires |ws| >= 3 && Reads(ws[0], x) && Reads(ws[1], y) && ws[2] == [o] && IsBinaryOperation(o)
    ensures var r := ApplyOperation(lib, o, x, y);
      EvalFrom(lib, ws, stack) == if r.Failure? then Failure(r.error) else EvalFrom(lib, ws[3..], stack + [r.value])
  {
    EvalNumberThen(lib, ws, stack, x);
    EvalNumberThen(lib, ws[1..], stack + [x], y);
    assert ws[1..][1..] == ws[2..] && ws[2..][0] == [o];
    assert stack + [x] + [y] == stack + [x, y];
    EvalBinaryThen(lib, ws[2..], stack, x, y);
    assert ws[2..][1..] == ws[3..];
  }

  /** A numeral word and an operator word above a value `v`: the operation is applied to `v` and the numeral. */
  lemma EvalNumberOperator(lib: Floating, ws: seq<string>, stack: seq<real>, o: char, v: real, z: real)
    requires |ws| >= 2 && Reads(ws[0], z) && ws[1] == [o] && IsBinaryOperation(o)
    ensures var r := ApplyOperation(lib, o, v, z);
      EvalFrom(lib, ws, stack + [v]) == if r.Failure? then Failure(r.error) else EvalFrom(lib, ws[2..], stack + [r.value])
  {
    EvalNumberThen(lib, ws, stack + [v], z);
    assert ws[1..][0] == [o];
    assert stack + [v] + [z] == stack + [v, z];
    EvalBinaryThen(lib, ws[1..], stack, v, z);
    assert ws[1..][1..] == ws[2..];
  }

  /** The words of `a b o1 c o2` evaluate to `(x o1 y) o2 z`. */
  lemma EvalLeftGrouped(lib: Floating, ws: seq<string>, o1: char, o2: char, x: real, y: real, z: real)
    requires IsBinaryOperation(o1) && IsBinaryOperation(o2)
    requires |ws| == 5 && Reads(ws[0], x) && Reads(ws[1], y) && ws[2] == [o1] && Reads(ws[3], z) && ws[4] == [o2]
    ensures EvalFrom(lib, ws, []) == LeftResult(lib, o1, o2, x, y, z)
  {
    EvalNumbersOperator(lib, ws, [], o1, x, y);
    var r1 := ApplyOperation(lib, o1, x, y);
    if r1.Success? {
      var rest := ws[3..];
      assert Reads(rest[0], z) && rest[1] == [o2];
      EvalNumberOperator(lib, rest, [], o2, r1.value, z);
      var r2 := ApplyOperation(lib, o2, r1.value, z);
      if r2.Success? {
        assert |rest[2..]| == 0;
        assert [] + [r2.value] == [r2.value];
      }
    }
  }

  /** The words of `a b c o2 o1` evaluate to `x o1 (y o2 z)`. */
  lemma EvalRightGrouped(lib: Floating, ws: seq<string>, o1: char, o2: char, x: real, y: real, z: real)
    requires IsBinaryOperation(o1) && IsBinaryOperation(o2)
    requires |ws| == 5 && Reads(ws[0], x) && Reads(ws[1], y) && Reads(ws[2], z) && ws[3] == [o2] && ws[4] == [o1]
    ensures EvalFrom(lib, ws, []) == RightResult(lib, o1, o2, x, y, z)
  {
    EvalNumberThen(lib, ws, [], x);
    var rest := ws[1..];
    assert Reads(rest[0], y) && Reads(rest[1], z) && rest[2] == [o2];
    EvalNumbersOperator(lib, rest, [] + [x], o2, y, z);
    var r2 := ApplyOperation(lib, o2, y, z);
    if r2.Success? {
      var last := rest[3..];
      assert |last| == 1 && last[0] == [o1];
      assert [] + [x] + [r2.value] == [] + [x, r2.value];
      EvalBinaryThen(lib, last, [], x, r2.value);
      var r1 := ApplyOperation(lib, o1, x, r2.value);
      if r1.Success? {
        assert |last[1..]| == 0;
        assert [] + [r1.value] == [r1.value];
      }
    }
  }

  /** The words of `x y op` rendered. */
  lemma BinaryWords(x: nat, y: nat, op: char)
    requires IsBinaryOperation(op)
    ensures var ws := Words(Render([Number(NatToString(x)), Number(NatToString(y)), Symbol(op)]));
      |ws| == 3 && ws[0] == NatToString(x) && ws[1] == NatToString(y) && ws[2] == [op]
  {
    NumeralHasNoSpace(NatToString(x));
    NumeralHasNoSpace(NatToString(y));
    SplitRender([Number(NatToString(x)), Number(NatToString(y)), Symbol(op)]);
  }

  /** Calculation in the order of the postfix text: `x y op` is `x op y`, with the left operand pushed first. */
  lemma EvaluateBinary(lib: Floating, x: nat, y: nat, op: char)
    requires IsBinaryOperation(op)
    ensures EvaluateRPN(lib, Render([Number(NatToString(x)), Number(NatToString(y)), Symbol(op)])) ==
      ApplyOperation(lib, op, x as real, y as real)
  {
    var ws := Words(Render([Number(NatToString(x)), Number(NatToString(y)), Symbol(op)]));
    BinaryWords(x, y, op);
    NumeralReads(x);
    NumeralReads(y);
    EvalNumbersOperator(lib, ws, [], op, x as real, y as real);
    var r := ApplyOperation(lib, op, x as real, y as real);
    if r.Success? {
      assert |ws[3..]| == 0;
      assert [] + [r.value] == [r.value];
    }
  }

  /** The words of the rendered postfix text are the numerals and operators in postfix order. */
  lemma GroupedWords(a: string, o1: char, b: string, o2: char, c: string)
    requires Numeral(a) && Numeral(b) && Numeral(c)
    requires IsBinaryOperation(o1) && IsBinaryOperation(o2)
    ensures Words(Render(Grouped(a, o1, b, o2, c))) ==
      if Priority(o1) >= Priority(o2) then [a, b, [o1], c, [o2]] else [a, b, c, [o2], [o1]]
  {
    NumeralHasNoSpace(a);
    NumeralHasNoSpace(b);
    NumeralHasNoSpace(c);
    SplitRender(Grouped(a, o1, b, o2, c));
  }

  lemma NumeralHasNoSpace(a: string)
    requires Numeral(a)
    ensures ' ' !in a
  {
  }

  /** `calculate` on `a o1 b o2 c` evaluates the grouped postfix text. */
  lemma CalculateReachesEvaluation(lib: Floating, a: string, o1: char, b: string, o2: char, c: string)
    requires Numeral(a) && Numeral(b) && Numeral(c)
    requires IsBinaryOperation(o1) && IsBinaryOperation(o2)
    ensures Calculate(lib, Infix(a, o1, b, o2, c)) == EvaluateRPN(lib, Render(Grouped(a, o1, b, o2, c)))
  {
    var s := Infix(a, o1, b, o2, c);
    InfixPassesChecks(a, o1, b, o2, c);
    assert CheckParentheses(s);
    assert CountOperators(s) == 2;
    ConvertThreeOperands(a, o1, b, o2, c);
  }

  /** The top of the value list `[v]`, or the first error. */
  function TopOf(r: Result<seq<real>, Error>): Result<real, Error> {
    if r.Failure? then Failure(r.error) else if |r.value| == 0 then Failure(EmptyStack) else Success(r.value[|r.value| - 1])
  }

  lemma EvaluateLeftGrouped(lib: Floating, a: string, o1: char, b: string, o2: char, c: string, x: real, y: real, z: real)
    requires Numeral(a) && Numeral(b) && Numeral(c)
    requires Reads(a, x) && Reads(b, y) && Reads(c, z)
    requires IsBinaryOperation(o1) && IsBinaryOperation(o2)
    requires Priority(o1) >= Priority(o2)
    ensures EvaluateRPN(lib, Render(Grouped(a, o1, b, o2, c))) == TopOf(LeftResult(lib, o1, o2, x, y, z))
  {
    var text := Render(Grouped(a, o1, b, o2, c));
    GroupedWords(a, o1, b, o2, c);
    EvalLeftGrouped(lib, Words(text), o1, o2, x, y, z);
    EvaluateThroughTop(lib, text);
  }

  /** `evaluateRPN` reports the top of the stack its words leave. */
  lemma EvaluateThroughTop(lib: Floating, text: string)
    ensures EvaluateRPN(lib, text) == TopOf(EvalFrom(lib, Words(text), []))
  {
  }

  lemma EvaluateRightGrouped(lib: Floating, a: string, o1: char, b: string, o2: char, c: string, x: real, y: real, z: real)
    requires Numeral(a) && Numeral(b) && Numeral(c)
    requires Reads(a, x) && Reads(b, y) && Reads(c, z)
    requires IsBinaryOperation(o1) && IsBinaryOperation(o2)
    requires Priority(o1) < Priority(o2)
    ensures EvaluateRPN(lib, Render(Grouped(a, o1, b, o2, c))) == TopOf(RightResult(lib, o1, o2, x, y, z))
  {
    var text := Render(Grouped(a, o1, b, o2, c));
    GroupedWords(a, o1, b, o2, c);
    EvalRightGrouped(lib, Words(text), o1, o2, x, y, z);
    EvaluateThroughTop(lib, text);
  }

  /** The grouped postfix text evaluates to the operation of higher priority applied first. */
  lemma EvaluateGrouped(lib: Floating, a: string, o1: char, b: string, o2: char, c: string, x: real, y: real, z: real)
    requires Numeral(a) && Numeral(b) && Numeral(c)
    requires Reads(a, x) && Reads(b, y) && Reads(c, z)
    requires IsBinaryOperation(o1) && IsBinaryOperation(o2)
    ensures EvaluateRPN(lib, Render(Grouped(a, o1, b, o2, c))) ==
      if Priority(o1) >= Priority(o2) then
        Then(ApplyOperation(lib, o1, x, y), v => ApplyOperation(lib, o2, v, z))
      else
        Then(ApplyOperation(lib, o2, y, z), v => ApplyOperation(lib, o1, x, v))
  {
    if Priority(o1) >= Priority(o2) {
      EvaluateLeftGrouped(lib, a, o1, b, o2, c, x, y, z);
    } else {
      EvaluateRightGrouped(lib, a, o1, b, o2, c, x, y, z);
    }
  }

  /**
   `calculate` on `a o1 b o2 c` (decimal numerals reading as `x`, `y`, `z`;
   binary operators): with `o1` of greater or equal priority it is
   `(x o1 y) o2 z`, otherwise `x o1 (y o2 z)`; an error of the operation
   applied first is the result.
   */
  lemma CalculateThreeNumerals(lib: Floating, a: string, o1: char, b: string, o2: char, c: string, x: real, y: real, z: real)
    requires Numeral(a) && Numeral(b) && Numeral(c)
    requires Reads(a, x) && Reads(b, y) && Reads(c, z)
    requires IsBinaryOperation(o1) && IsBinaryOperation(o2)
    ensures Calculate(lib, Infix(a, o1, b, o2, c)) ==
      if Priority(o1) >= Priority(o2) then
        Then(ApplyOperation(lib, o1, x, y), v => ApplyOperation(lib, o2, v, z))
      else
        Then(ApplyOperation(lib, o2, y, z), v => ApplyOperation(lib, o1, x, v))
  {
    CalculateReachesEvaluation(lib, a, o1, b, o2, c);
    EvaluateGrouped(lib, a, o1, b, o2, c, x, y, z);
  }

  /** The same for natural numbers written in decimal: `2^3^2` is `(2^3)^2`, `3+4*2` is `3+(4*2)`. */
  lemma CalculateThreeOperands(lib: Floating, x: nat, o1: char, y: nat, o2: char, z: nat)
    requires IsBinaryOperation(o1) && IsBinaryOperation(o2)
    ensures Calculate(lib, Infix(NatToString(x), o1, NatToString(y), o2, NatToString(z))) ==
      if Priority(o1) >= Priority(o2) then
        Then(ApplyOperation(lib, o1, x as real, y as real), v => ApplyOperation(lib, o2, v, z as real))
      else
        Then(ApplyOperation(lib, o2, y as real, z as real), v => ApplyOperation(lib, o1, x as real, v))
  {
    NumeralReads(x);
    NumeralReads(y);
    NumeralReads(z);
    CalculateThreeNumerals(lib, NatToString(x), o1, NatToString(y), o2, NatToString(z), x as real, y as real, z as real);
  }

  /** `8-2-1` in the form of the statements above. */
  lemma DifferenceChainValue(lib: Floating)
    ensures Calculate(lib, Infix("8", '-', "2", '-', "1")) == Success(5.0)
  {
    assert NatToString(8) == "8" && NatToString(2) == "2" && NatToString(1) == "1";
    CalculateThreeOperands(lib, 8, '-', 2, '-', 1);
    assert ApplyOperation(lib, '-', 8.0, 2.0) == Success(6.0);
    assert ApplyOperation(lib, '-', 6.0, 1.0) == Success(5.0);
  }

  lemma DifferenceChainShape()
    ensures Infix("8", '-', "2", '-', "1") == "8-2-1"
  {
  }

  /** `8-2-1` is `(8-2)-1 = 5`: the right operand is taken from the left, left to right. */
  lemma DifferenceChainExample(lib: Floating)
    ensures Calculate(lib, "8-2-1") == Success(5.0)
  {
    DifferenceChainValue(lib);
    DifferenceChainShape();
  }

  /** `8/4/2` in the form of the statements above. */
  lemma QuotientChainValue(lib: Floating)
    ensures Calculate(lib, Infix("8", '/', "4", '/', "2")) == Success(1.0)
  {
    assert NatToString(8) == "8" && NatToString(4) == "4" && NatToString(2) == "2";
    CalculateThreeOperands(lib, 8, '/', 4, '/', 2);
    assert ApplyOperation(lib, '/', 8.0, 4.0) == Success(2.0);
    assert ApplyOperation(lib, '/', 2.0, 2.0) == Success(1.0);
  }

  lemma QuotientChainShape()
    ensures Infix("8", '/', "4", '/', "2") == "8/4/2"
  {
  }

  /** `8/4/2` is `(8/4)/2 = 1`: the left operand is divided by the right, left to right. */
  lemma QuotientChainExample(lib: Floating)
    ensures Calculate(lib, "8/4/2") == Success(1.0)
  {
    QuotientChainValue(lib);
    QuotientChainShape();
  }
}

=== FILE: lexing.dfy ===
/**
 Character classes and the textual layer shared by both calculator engines:
 whitespace stripping, maximal digit/decimal-point runs, decimal literals,
 and the space-separated rendering of a postfix token stream.
 Character classes are restricted to ASCII.
 */
module Lexing {
  import opened Wrappers

  /** `Character.isDigit`, restricted to ASCII. */
  predicate IsDigit(c: char) {
    '0' <= c <= '9'
  }

  /** A character that extends a number literal: a digit or a decimal point. */
  predicate IsNumberChar(c: char) {
    IsDigit(c) || c == '.'
  }

  /** `Character.isLetter`, restricted to ASCII. */
  predicate IsLetter(c: char) {
    'a' <= c <= 'z' || 'A' <= c <= 'Z'
  }

  /** The class `\s` of a Java regular expression: space, tab, newline, vertical tab, form feed, carriage return. */
  predicate IsWhitespace(c: char) {
    c == ' ' || c == '\t' || c == '\n' || c == '\U{000B}' || c == '\U{000C}' || c == '\r'
  }

  predicate NoWhitespace(s: string) {
    forall k :: 0 <= k < |s| ==> !IsWhitespace(s[k])
  }

  /** `replaceAll("\\s+", "")`: every whitespace character is dropped, every other one kept in order. */
  function StripWhitespace(s: string): (r: string)
    ensures NoWhitespace(r)
    ensures forall c :: !IsWhitespace(c) ==> multiset(r)[c] == multiset(s)[c]
    ensures NoWhitespace(s) ==> r == s
  {
    if |s| == 0 then ""
    else
      var rest := StripWhitespace(s[1..]);
      var r := (if IsWhitespace(s[0]) then "" else [s[0]]) + rest;
      StripStep(s, rest, r);
      r
  }

  /** One step of the stripping: the first character is dropped or kept in front of the stripped rest. */
  lemma StripStep(s: string, rest: string, r: string)
    requires |s| > 0
    requires NoWhitespace(rest)
    requires forall c :: !IsWhitespace(c) ==> multiset(rest)[c] == multiset(s[1..])[c]
    requires NoWhitespace(s[1..]) ==> rest == s[1..]
    requires r == (if IsWhitespace(s[0]) then "" else [s[0]]) + rest
    ensures NoWhitespace(r)
    ensures forall c :: !IsWhitespace(c) ==> multiset(r)[c] == multiset(s)[c]
    ensures NoWhitespace(s) ==> r == s
  {
    var head := if IsWhitespace(s[0]) then "" else [s[0]];
    assert s == [s[0]] + s[1..];
    assert multiset(s) == multiset([s[0]]) + multiset(s[1..]);
    assert multiset(r) == multiset(head) + multiset(rest);
    if NoWhitespace(s) {
      assert NoWhitespace(s[1..]) by {
        forall k | 0 <= k < |s[1..]| ensures !IsWhitespace(s[1..][k]) {
          assert s[1..][k] == s[k + 1];
        }
      }
    }
  }

  /** Stripping works piecewise, so the characters kept stay in their order. */
  lemma {:induction false} StripConcat(a: string, b: string)
    ensures StripWhitespace(a + b) == StripWhitespace(a) + StripWhitespace(b)
    decreases |a|
  {
    if |a| > 0 {
      var c, t := a[0], a[1..];
      assert a == [c] + t;
      assert a + b == [c] + (t + b);
      StripCons(c, t);
      StripCons(c, t + b);
      StripConcat(t, b);
      StripAssociate(if IsWhitespace(c) then "" else [c], StripWhitespace(t), StripWhitespace(b));
    } else {
      assert a + b == b;
    }
  }

  lemma StripAssociate(x: string, y: string, z: string)
    ensures x + (y + z) == x + y + z
  {
  }

  /** Stripping a character in front: it is dropped exactly when it is whitespace. */
  lemma StripCons(c: char, t: string)
    ensures StripWhitespace([c] + t) == (if IsWhitespace(c) then "" else [c]) + StripWhitespace(t)
  {
    assert ([c] + t)[0] == c && ([c] + t)[1..] == t;
  }

  /** The end of the maximal run of `inRun` characters that starts at `i`. */
  function SpanEnd(s: string, i: nat, inRun: char -> bool): (j: nat)
    requires i <= |s|
    ensures i <= j <= |s|
    ensures forall k :: i <= k < j ==> inRun(s[k])
    ensures j == |s| || !inRun(s[j])
    decreases |s| - i
  {
    if i == |s| || !inRun(s[i]) then i else SpanEnd(s, i + 1, inRun)
  }

  /** Any index that ends a run of `inRun` characters starting at `i` is the one SpanEnd finds. */
  lemma SpanEndUnique(s: string, i: nat, j: nat, inRun: char -> bool)
    requires i <= j <= |s|
    requires forall k :: i <= k < j ==> inRun(s[k])
    requires j == |s| || !inRun(s[j])
    ensures SpanEnd(s, i, inRun) == j
  {
  }

  // ---------------------------------------------------------------------------
  // Lexing into maximal number runs

  /** A piece of an expression: a maximal run of number characters, or one other character. */
  datatype Lexeme = Run(text: string) | Single(c: char)

  function LexemeText(l: Lexeme): string {
    match l
    case Run(t) => t
    case Single(c) => [c]
  }

  /** Splits `s[i..]` into maximal number runs and single characters, as both converters scan it. */
  function LexFrom(s: string, i: nat): seq<Lexeme>
    requires i <= |s|
    decreases |s| - i
  {
    if i == |s| then []
    else if IsNumberChar(s[i]) then
      var j := SpanEnd(s, i, IsNumberChar);
      [Run(s[i..j])] + LexFrom(s, j)
    else
      [Single(s[i])] + LexFrom(s, i + 1)
  }

  /** A number character starts a run that extends to the end of the span. */
  lemma LexRunStep(s: string, i: nat)
    requires i < |s| && IsNumberChar(s[i])
    ensures var j := SpanEnd(s, i, IsNumberChar);
      LexFrom(s, i) == [Run(s[i..j])] + LexFrom(s, j)
  {
  }

  /** Any other character is a lexeme of its own. */
  lemma LexSingleStep(s: string, i: nat)
    requires i < |s| && !IsNumberChar(s[i])
    ensures LexFrom(s, i) == [Single(s[i])] + LexFrom(s, i + 1)
  {
  }

  function Lex(s: string): seq<Lexeme> {
    LexFrom(s, 0)
  }

  /** Concatenates the text of the lexemes back into one string. */
  function Unlex(ls: seq<Lexeme>): string {
    if |ls| == 0 then "" else LexemeText(ls[0]) + Unlex(ls[1..])
  }

  /**
   The lexemes form a segmentation into MAXIMAL runs: every run is a non-empty
   stretch of number characters, no single is a number character, and no two
   runs are adjacent (so a run is never split across two lexemes).
   */
  ghost predicate MaximalRuns(ls: seq<Lexeme>) {
    && (forall k :: 0 <= k < |ls| && ls[k].Run? ==>
          |ls[k].text| > 0 && forall m :: 0 <= m < |ls[k].text| ==> IsNumberChar(ls[k].text[m]))
    && (forall k :: 0 <= k < |ls| && ls[k].Single? ==> !IsNumberChar(ls[k].c))
    && (forall k :: 0 <= k < |ls| - 1 ==> !(ls[k].Run? && ls[k + 1].Run?))
  }

  lemma {:induction false} UnlexLexFrom(s: string, i: nat)
    requires i <= |s|
    ensures Unlex(LexFrom(s, i)) == s[i..]
    decreases |s| - i
  {
    if i < |s| {
      if IsNumberChar(s[i]) {
        var j := SpanEnd(s, i, IsNumberChar);
        LexRunStep(s, i);
        UnlexLexFrom(s, j);
        UnlexCons(Run(s[i..j]), LexFrom(s, j));
        assert s[i..] == s[i..j] + s[j..];
      } else {
        LexSingleStep(s, i);
        UnlexLexFrom(s, i + 1);
        UnlexCons(Single(s[i]), LexFrom(s, i + 1));
        assert s[i..] == [s[i]] + s[i + 1..];
      }
    }
  }

  lemma UnlexCons(l: Lexeme, rest: seq<Lexeme>)
    ensures Unlex([l] + rest) == LexemeText(l) + Unlex(rest)
  {
    assert ([l] + rest)[1..] == rest;
  }

  lemma {:induction false} LexFromMaximal(s: string, i: nat)
    requires i <= |s|
    ensures MaximalRuns(LexFrom(s, i))
    ensures |LexFrom(s, i)| > 0 ==> (LexFrom(s, i)[0].Run? <==> IsNumberChar(s[i]))
    decreases |s| - i
  {
    if i < |s| {
      var ls := LexFrom(s, i);
      if IsNumberChar(s[i]) {
        var j := SpanEnd(s, i, IsNumberChar);
        LexFromMaximal(s, j);
        assert ls == [Run(s[i..j])] + LexFrom(s, j);
        assert |LexFrom(s, j)| > 0 ==> LexFrom(s, j)[0].Single?;
        MaximalCons(Run(s[i..j]), LexFrom(s, j));
      } else {
        LexFromMaximal(s, i + 1);
        assert ls == [Single(s[i])] + LexFrom(s, i + 1);
        MaximalCons(Single(s[i]), LexFrom(s, i + 1));
      }
    }
  }

  lemma MaximalCons(l: Lexeme, ls: seq<Lexeme>)
    requires MaximalRuns(ls)
    requires l.Run? ==> |l.text| > 0 && forall m :: 0 <= m < |l.text| ==> IsNumberChar(l.text[m])
    requires l.Single? ==> !IsNumberChar(l.c)
    requires l.Run? && |ls| > 0 ==> ls[0].Single?
    ensures MaximalRuns([l] + ls)
  {
    var r := [l] + ls;
    assert forall k :: 1 <= k < |r| ==> r[k] == ls[k - 1];
  }

  /** Lexing loses nothing and never splits a number run. */
  lemma LexSegmentsMaximally(s: string)
    ensures Unlex(Lex(s)) == s
    ensures MaximalRuns(Lex(s))
  {
    UnlexLexFrom(s, 0);
    LexFromMaximal(s, 0);
  }

  // ---------------------------------------------------------------------------
  // Decimal literals

  predicate AllDigits(d: string) {
    forall k :: 0 <= k < |d| ==> IsDigit(d[k])
  }

  function DigitValue(c: char): nat
    requires IsDigit(c)
  {
    c as int - '0' as int
  }

  /** The natural number a string of decimal digits denotes (0 for the empty string). */
  function DigitsValue(d: string): nat
    requires AllDigits(d)
  {
    if |d| == 0 then 0 else 10 * DigitsValue(d[..|d| - 1]) + DigitValue(d[|d| - 1])
  }

  function Pow10(n: nat): (p: nat)
    ensures p >= 1
  {
    if n == 0 then 1 else 10 * Pow10(n - 1)
  }

  /**
   The strings of digits and decimal points that `Double.parseDouble` accepts:
   at most one point and at least one digit ("5", "5.", ".5", "1.25").
   */
  predicate IsDecimal(w: string) {
    && (forall k :: 0 <= k < |w| ==> IsNumberChar(w[k]))
    && multiset(w)['.'] <= 1
    && exists k :: 0 <= k < |w| && IsDigit(w[k])
  }

  /** A decimal is a run of digits, then optionally a point and a second run of digits, with a digit somewhere. */
  lemma DecimalShape(w: string, k: nat)
    requires k == SpanEnd(w, 0, IsDigit)
    ensures IsDecimal(w) <==>
      if k == |w| then k > 0
      else w[k] == '.' && AllDigits(w[k + 1..]) && (k > 0 || k + 1 < |w|)
  {
    if k == |w| {
      DecimalDigitsOnly(w);
    } else if w[k] != '.' {
      assert !IsNumberChar(w[k]);
    } else {
      DecimalWithPoint(w, k);
    }
  }

  lemma DecimalDigitsOnly(w: string)
    requires AllDigits(w)
    ensures IsDecimal(w) <==> |w| > 0
  {
    assert '.' !in w;
    assert multiset(w)['.'] == 0;
    if |w| > 0 {
      assert IsDigit(w[0]);
    }
  }

  lemma DecimalWithPoint(w: string, k: nat)
    requires k < |w| && w[k] == '.' && AllDigits(w[..k])
    ensures IsDecimal(w) <==> AllDigits(w[k + 1..]) && (k > 0 || k + 1 < |w|)
  {
    var frac := w[k + 1..];
    assert w == w[..k] + ['.'] + frac;
    assert '.' !in w[..k];
    assert multiset(w)['.'] == 1 + multiset(frac)['.'];
    if AllDigits(frac) {
      assert '.' !in frac;
      assert forall m :: 0 <= m < |w| ==> IsNumberChar(w[m]) by {
        forall m | 0 <= m < |w| ensures IsNumberChar(w[m]) {
          if m > k {
            assert w[m] == frac[m - k - 1];
          }
        }
      }
      if k > 0 {
        assert IsDigit(w[0]);
      } else if k + 1 < |w| {
        assert IsDigit(w[k + 1]);
      } else {
        assert forall m :: 0 <= m < |w| ==> !IsDigit(w[m]);
      }
    } else {
      var m :| 0 <= m < |frac| && !IsDigit(frac[m]);
      assert w[k + 1 + m] == frac[m];
      if frac[m] == '.' {
        assert '.' in frac;
      }
    }
  }

  /**
   `Double.parseDouble` on a string of digits and points, as an exact rational
   value (no binary rounding). Anything else is a NumberFormatException.
   */
  function ParseDecimal(w: string): (r: Option<real>)
    ensures r.Some? <==> IsDecimal(w)
    ensures r.Some? ==> r.value >= 0.0
  {
    var k := SpanEnd(w, 0, IsDigit);
    DecimalShape(w, k);
    if k == |w| then
      if k == 0 then None else Some(DigitsValue(w) as real)
    else if w[k] != '.' || !AllDigits(w[k + 1..]) || (k == 0 && k + 1 == |w|) then
      None
    else
      assert AllDigits(w[..k]);
      Some(PointValue(w[..k], w[k + 1..]))
  }

  /**
   The value of the digits `whole` and `frac` written either side of a decimal
   point: all the digits read as one number, over ten to the length of `frac`.
   */
  function PointValue(whole: string, frac: string): (v: real)
    requires AllDigits(whole) && AllDigits(frac)
    ensures v >= 0.0
  {
    AllDigitsAppend(whole, frac);
    DigitsValue(whole + frac) as real / Pow10(|frac|) as real
  }

  lemma AllDigitsAppend(a: string, b: string)
    requires AllDigits(a) && AllDigits(b)
    ensures AllDigits(a + b)
  {
    forall k | 0 <= k < |a + b| ensures IsDigit((a + b)[k]) {
      if k >= |a| {
        assert (a + b)[k] == b[k - |a|];
      }
    }
  }

  /** Digits written after digits: the first part is shifted by the length of the second. */
  lemma {:induction false} DigitsValueAppend(a: string, b: string)
    requires AllDigits(a) && AllDigits(b)
    ensures AllDigits(a + b)
    ensures DigitsValue(a + b) == DigitsValue(a) * Pow10(|b|) + DigitsValue(b)
    decreases |b|
  {
    AllDigitsAppend(a, b);
    if |b| == 0 {
      assert a + b == a;
    } else {
      var init, d := b[..|b| - 1], DigitValue(b[|b| - 1]);
      assert AllDigits(init);
      DigitsValueAppend(a, init);
      var x, y, p := DigitsValue(a), DigitsValue(init), Pow10(|init|);
      DigitsValueLast(a + b, a + init, b[|b| - 1]);
      assert DigitsValue(b) == 10 * y + d;
      assert Pow10(|b|) == 10 * p;
      ShiftDigit(x, y, p, d);
    }
  }

  /** The value of a digit string, split before its last digit. */
  lemma DigitsValueLast(w: string, init: string, c: char)
    requires AllDigits(w) && |w| > 0 && w[..|w| - 1] == init && w[|w| - 1] == c
    ensures AllDigits(init) && IsDigit(c)
    ensures DigitsValue(w) == 10 * DigitsValue(init) + DigitValue(c)
  {
  }

  lemma ShiftDigit(x: nat, y: nat, p: nat, d: nat)
    ensures 10 * (x * p + y) + d == x * (10 * p) + (10 * y + d)
  {
  }

  /** A word of digits only parses to the number they denote. */
  lemma ParseDigits(w: string)
    requires |w| > 0 && AllDigits(w)
    ensures ParseDecimal(w) == Some(DigitsValue(w) as real)
  {
    SpanEndUnique(w, 0, |w|, IsDigit);
  }

  /**
   A word with a point parses to the digits on both sides read as one number,
   scaled down by ten for each digit after the point: `1.25` is 125 / 100.
   */
  lemma {:induction false} ParsePointed(a: string, b: string)
    requires AllDigits(a) && AllDigits(b) && |a| + |b| > 0
    ensures AllDigits(a + b)
    ensures ParseDecimal(a + "." + b) == Some(PointValue(a, b))
    ensures PointValue(a, b) * Pow10(|b|) as real == DigitsValue(a + b) as real
  {
    var w := a + "." + b;
    assert w[..|a|] == a && w[|a|] == '.' && w[|a| + 1..] == b;
    forall k | 0 <= k < |a| ensures IsDigit(w[k]) {
      assert w[k] == a[k];
    }
    SpanEndUnique(w, 0, |a|, IsDigit);
    ParseAtPoint(w, |a|);
    PointScale(a, b);
  }

  /** The branch of ParseDecimal for a word whose leading digits end at a point. */
  lemma {:induction false} ParseAtPoint(w: string, k: nat)
    requires k < |w| && k == SpanEnd(w, 0, IsDigit) && w[k] == '.'
    requires AllDigits(w[k + 1..]) && (k > 0 || k + 1 < |w|)
    ensures AllDigits(w[..k])
    ensures ParseDecimal(w) == Some(PointValue(w[..k], w[k + 1..]))
  {
  }

  /** Scaling a pointed value by ten to the length of its fraction drops the point. */
  lemma {:induction false} PointScale(whole: string, frac: string)
    requires AllDigits(whole) && AllDigits(frac)
    ensures AllDigits(whole + frac)
    ensures PointValue(whole, frac) * Pow10(|frac|) as real == DigitsValue(whole + frac) as real
  {
    AllDigitsAppend(whole, frac);
    ScaleBack(PointValue(whole, frac), DigitsValue(whole + frac) as real, Pow10(|frac|) as real);
  }

  /** A pointed value is its whole part plus its fraction digits over ten to their count. */
  lemma {:induction false} PointSplit(whole: string, frac: string)
    requires AllDigits(whole) && AllDigits(frac)
    ensures PointValue(whole, frac) == DigitsValue(whole) as real + DigitsValue(frac) as real / Pow10(|frac|) as real
  {
    AllDigitsAppend(whole, frac);
    DigitsValueAppend(whole, frac);
    FractionOfSum(PointValue(whole, frac), DigitsValue(whole + frac), DigitsValue(whole), DigitsValue(frac), Pow10(|frac|));
  }

  lemma FractionOfSum(v: real, n: nat, x: nat, y: nat, p: nat)
    requires p > 0 && v == n as real / p as real && n == x * p + y
    ensures v == x as real + y as real / p as real
  {
    SumAsReal(n, x, y, p);
    SplitFraction(v, n as real, x as real, y as real, p as real);
  }

  lemma SplitFraction(v: real, n: real, x: real, y: real, p: real)
    requires p > 0.0 && v == n / p && n == x * p + y
    ensures v == x + y / p
  {
  }

  lemma SumAsReal(n: nat, x: nat, y: nat, p: nat)
    requires n == x * p + y
    ensures n as real == x as real * p as real + y as real
  {
  }

  lemma ScaleBack(v: real, n: real, p: real)
    requires p > 0.0 && v == n / p
    ensures v * p == n
  {
  }

  /** The decimal digits of a natural number, most significant first, without leading zeros. */
  function NatToString(n: nat): (s: string)
    ensures |s| > 0 && AllDigits(s)
  {
    if n < 10 then ['0' + n as char]
    else NatToString(n / 10) + ['0' + (n % 10) as char]
  }

  /** Reading back the digits NatToString writes gives the number. */
  lemma {:induction false} DigitsOfNat(n: nat)
    ensures DigitsValue(NatToString(n)) == n
  {
    var s := NatToString(n);
    if n >= 10 {
      DigitsOfNat(n / 10);
      assert s[..|s| - 1] == NatToString(n / 10);
    }
  }

  /** A natural number written in decimal parses back to itself. */
  lemma ParseNatToString(n: nat)
    ensures ParseDecimal(NatToString(n)) == Some(n as real)
  {
    var s := NatToString(n);
    DigitsOfNat(n);
    assert IsDigit(s[0]);
    assert SpanEnd(s, 0, IsDigit) == |s| by {
      SpanEndUnique(s, 0, |s|, IsDigit);
    }
  }

  // ---------------------------------------------------------------------------
  // Space-separated words

  /** `String.split(" ")` with the empty pieces skipped, as the evaluators read their input. */
  function Words(s: string): seq<string>
    decreases |s|
  {
    if |s| == 0 then []
    else if s[0] == ' ' then Words(s[1..])
    else
      var j := SpanEnd(s, 0, c => c != ' ');
      [s[..j]] + Words(s[j..])
  }

  /** A word that survives the split unchanged: non-empty and without a space. */
  predicate IsWord(w: string) {
    |w| > 0 && ' ' !in w
  }

  /** Each word followed by one space, as the converters append to their output. */
  function JoinWords(ws: seq<string>): string {
    if |ws| == 0 then "" else ws[0] + " " + JoinWords(ws[1..])
  }

  /** A word followed by a space is split off as the first word. */
  lemma WordsOfWord(w: string, rest: string)
    requires IsWord(w)
    ensures Words(w + (" " + rest)) == [w] + Words(rest)
  {
    var s := w + (" " + rest);
    forall k | 0 <= k < |w| ensures s[k] != ' ' {
      assert s[k] == w[k];
      assert w[k] in w;
    }
    SpanEndUnique(s, 0, |w|, c => c != ' ');
    assert s[..|w|] == w;
    assert s[|w|..] == " " + rest;
    assert (" " + rest)[1..] == rest;
  }

  /** Splitting what JoinWords wrote gives back the words. */
  lemma {:induction false} WordsJoinWords(ws: seq<string>)
    requires forall k :: 0 <= k < |ws| ==> IsWord(ws[k])
    ensures Words(JoinWords(ws)) == ws
  {
    if |ws| > 0 {
      var rest := JoinWords(ws[1..]);
      assert JoinWords(ws) == ws[0] + (" " + rest);
      WordsOfWord(ws[0], rest);
      WordsJoinWords(ws[1..]);
      assert ws == [ws[0]] + ws[1..];
    }
  }

  /** Two digit runs, each followed by a space, split into those two words. */
  lemma DigitWords(a: string, b: string)
    requires |a| > 0 && AllDigits(a) && |b| > 0 && AllDigits(b)
    ensures Words(a + " " + b + " ") == [a, b]
  {
    assert ' ' !in a by {
      forall k | 0 <= k < |a| ensures a[k] != ' ' {
        assert IsDigit(a[k]);
      }
    }
    assert ' ' !in b by {
      forall k | 0 <= k < |b| ensures b[k] != ' ' {
        assert IsDigit(b[k]);
      }
    }
    WordsJoinWords([a, b]);
    assert JoinWords([a, b]) == a + " " + (b + " " + JoinWords([]));
    assert a + " " + (b + " " + JoinWords([])) == a + " " + b + " ";
  }
}

=== FILE: rpn.dfy ===
/**
 The postfix (reverse Polish) token stream both converters produce and the
 operator-stack moves they share. The operator stack is a sequence whose top
 is its LAST element.
 */
module Rpn {
  import opened Lexing

  /** One entry of the converter's output: a number literal or a one-character symbol. */
  datatype Token = Number(lexeme: string) | Symbol(op: char)

  function Text(t: Token): string {
    match t
    case Number(l) => l
    case Symbol(c) => [c]
  }

  function Texts(ts: seq<Token>): (ws: seq<string>)
    ensures |ws| == |ts|
    ensures forall k :: 0 <= k < |ts| ==> ws[k] == Text(ts[k])
  {
    seq(|ts|, k requires 0 <= k < |ts| => Text(ts[k]))
  }

  /** The output string of `convertToRPN`: every token followed by one space. */
  function Render(ts: seq<Token>): string {
    JoinWords(Texts(ts))
  }

  /** A token whose text survives `split(" ")` as one word. */
  predicate WordToken(t: Token) {
    match t
    case Number(l) => |l| > 0 && ' ' !in l
    case Symbol(c) => c != ' '
  }

  /** Reading the rendered output back word by word gives the token texts in order. */
  lemma SplitRender(ts: seq<Token>)
    requires forall k :: 0 <= k < |ts| ==> WordToken(ts[k])
    ensures Words(Render(ts)) == Texts(ts)
  {
    var ws := Texts(ts);
    forall k | 0 <= k < |ws| ensures IsWord(ws[k]) {
      assert WordToken(ts[k]);
    }
    WordsJoinWords(ws);
  }

  /** The multiset of symbol characters of a token stream. */
  function Symbols(ts: seq<Token>): multiset<char> {
    if |ts| == 0 then multiset{}
    else (if ts[0].Symbol? then multiset{ts[0].op} else multiset{}) + Symbols(ts[1..])
  }

  /** The number literals of a token stream, in order. */
  function NumberLexemes(ts: seq<Token>): seq<string> {
    if |ts| == 0 then []
    else (if ts[0].Number? then [ts[0].lexeme] else []) + NumberLexemes(ts[1..])
  }

  lemma {:induction false} SymbolsAppend(a: seq<Token>, b: seq<Token>)
    ensures Symbols(a + b) == Symbols(a) + Symbols(b)
  {
    if |a| == 0 {
      assert a + b == b;
    } else {
      assert (a + b)[1..] == a[1..] + b;
      SymbolsAppend(a[1..], b);
    }
  }

  lemma {:induction false} NumberLexemesAppend(a: seq<Token>, b: seq<Token>)
    ensures NumberLexemes(a + b) == NumberLexemes(a) + NumberLexemes(b)
  {
    if |a| == 0 {
      assert a + b == b;
    } else {
      var ab := a + b;
      assert ab[0] == a[0] && ab[1..] == a[1..] + b;
      var h := if a[0].Number? then [a[0].lexeme] else [];
      var u, v := NumberLexemes(a[1..]), NumberLexemes(b);
      NumberLexemesAppend(a[1..], b);
      assert NumberLexemes(ab) == h + (u + v);
      assert NumberLexemes(a) == h + u;
      assert h + (u + v) == (h + u) + v;
    }
  }

  function Top(stack: seq<char>): char
    requires |stack| > 0
  {
    stack[|stack| - 1]
  }

  function Pop(stack: seq<char>): seq<char>
    requires |stack| > 0
  {
    stack[..|stack| - 1]
  }

  /** Pops every entry, top first, and emits each as a symbol. */
  function PopAll(stack: seq<char>): (ts: seq<Token>)
    ensures |ts| == |stack|
  {
    if |stack| == 0 then [] else [Symbol(Top(stack))] + PopAll(Pop(stack))
  }

  /** Emptying the stack emits exactly its entries as symbols and no numbers. */
  lemma {:induction false} PopAllConserves(stack: seq<char>)
    ensures Symbols(PopAll(stack)) == multiset(stack)
    ensures NumberLexemes(PopAll(stack)) == []
  {
    if |stack| > 0 {
      var ts := PopAll(stack);
      assert ts[1..] == PopAll(Pop(stack));
      PopAllConserves(Pop(stack));
      assert stack == Pop(stack) + [Top(stack)];
    }
  }

  /** The converter state between two input characters. */
  datatype Shunt = Shunt(stack: seq<char>, out: seq<Token>)

  /** One iteration of a converter loop: the index it continues at and the new state. */
  datatype Move = Move(next: nat, state: Shunt)

  /** The symbols held by a converter state, emitted or still on the stack. */
  function Content(st: Shunt): multiset<char> {
    Symbols(st.out) + multiset(st.stack)
  }

  /** Emitting a number literal adds it to the literals and no symbol. */
  lemma EmitNumber(out: seq<Token>, l: string)
    ensures Symbols(out + [Number(l)]) == Symbols(out)
    ensures NumberLexemes(out + [Number(l)]) == NumberLexemes(out) + [l]
  {
    SymbolsAppend(out, [Number(l)]);
    NumberLexemesAppend(out, [Number(l)]);
    assert [Number(l)][1..] == [];
  }

  /** How many entries from the top satisfy `pop` before the first that does not. */
  function PopCount(stack: seq<char>, pop: char -> bool): (n: nat)
    ensures n <= |stack|
    ensures forall k :: |stack| - n <= k < |stack| ==> pop(stack[k])
    ensures n == |stack| || !pop(stack[|stack| - n - 1])
  {
    if |stack| > 0 && pop(Top(stack)) then 1 + PopCount(Pop(stack), pop) else 0
  }

  /**
   `while (!stack.isEmpty() && pop(stack.peek())) output.append(stack.pop())`:
   pops the longest run of entries from the top that satisfy `pop`.
   */
  function PopWhile(stack: seq<char>, out: seq<Token>, pop: char -> bool): (r: Shunt)
    ensures |r.stack| <= |stack| && r.stack == stack[..|r.stack|]
    ensures r.out == out + PopAll(stack[|r.stack|..])
    ensures forall k :: |r.stack| <= k < |stack| ==> pop(stack[k])
    ensures |r.stack| == 0 || !pop(Top(r.stack))
  {
    var m := |stack| - PopCount(stack, pop);
    Shunt(stack[..m], out + PopAll(stack[m..]))
  }

  /** Popping moves entries from the stack to the output: no symbol is lost or invented. */
  lemma PopWhileConserves(stack: seq<char>, out: seq<Token>, pop: char -> bool)
    ensures var r := PopWhile(stack, out, pop);
      && Symbols(r.out) + multiset(r.stack) == Symbols(out) + multiset(stack)
      && NumberLexemes(r.out) == NumberLexemes(out)
  {
    var r := PopWhile(stack, out, pop);
    var n := |r.stack|;
    AppendPopAll(out, stack[n..]);
    MultisetSplit(stack, n);
  }

  /** Popping, then pushing the incoming operator: the state gains exactly that operator and no number. */
  lemma PushConserves(c: char, stack: seq<char>, out: seq<Token>, pop: char -> bool)
    ensures var r := PopWhile(stack, out, pop);
      && Content(Shunt(r.stack + [c], r.out)) == Content(Shunt(stack, out)) + multiset{c}
      && NumberLexemes(r.out) == NumberLexemes(out)
  {
    var r := PopWhile(stack, out, pop);
    PopWhileConserves(stack, out, pop);
    assert multiset(r.stack + [c]) == multiset(r.stack) + multiset{c};
  }

  lemma MultisetSplit(s: seq<char>, n: nat)
    requires n <= |s|
    ensures multiset(s) == multiset(s[..n]) + multiset(s[n..])
  {
    assert s == s[..n] + s[n..];
  }

  /** Emitting a run of stack entries adds exactly those symbols to the output. */
  lemma AppendPopAll(out: seq<Token>, popped: seq<char>)
    ensures Symbols(out + PopAll(popped)) == Symbols(out) + multiset(popped)
    ensures NumberLexemes(out + PopAll(popped)) == NumberLexemes(out)
  {
    PopAllConserves(popped);
    SymbolsAppend(out, PopAll(popped));
    NumberLexemesAppend(out, PopAll(popped));
  }
}

=== FILE: voting_system.dfy ===
/**
 The account registry of the electronic voting system in PZ3.java: three maps
 from login to account (voters, election commissions, candidates), the
 registration, creation and deletion rules that change them, the order in
 which `login` tries them, and the identifier a voter is registered under.

 Each console-driven method becomes a transition function from the prompted
 inputs and a registry to an `Outcome`: whether the change was made (the Java
 code prints one of two messages) and the registry afterwards. The menus that
 follow a successful login become a `Session` naming the account logged in.
 */
module VotingSystem {
  import opened Wrappers
  import opened Lexing

  // ---------------------------------------------------------------------------
  // String.hashCode and Integer.toString

  /** Java `int` arithmetic wraps modulo 2^32. */
  const Modulus: int := 0x1_0000_0000

  predicate IsInt32(x: int) {
    -0x8000_0000 <= x < 0x8000_0000
  }

  /** The Java `int` an unbounded integer wraps to. */
  function Int32(x: int): (r: int)
    ensures IsInt32(r)
    ensures (x - r) % Modulus == 0
    ensures IsInt32(x) ==> r == x
  {
    (x + 0x8000_0000) % Modulus - 0x8000_0000
  }

  /** Adding a multiple of 2^32 does not change the wrapped value. */
  lemma {:induction false} Int32Shift(a: int, t: int)
    ensures Int32(a + Modulus * t) == Int32(a)
    decreases if t < 0 then -t else t
  {
    if t > 0 {
      Int32Shift(a, t - 1);
      Int32Wrap(a + Modulus * (t - 1));
    } else if t < 0 {
      Int32Shift(a, t + 1);
      Int32Wrap(a + Modulus * t);
    }
  }

  /** One more turn of 2^32 wraps to the same value. */
  lemma Int32Wrap(a: int)
    ensures Int32(a + Modulus) == Int32(a)
  {
  }

  /** Values equal modulo 2^32 stay so when scaled by the same factor and shifted by the same amount. */
  lemma Int32Congruent(x: int, y: int, k: int, z: int)
    requires (x - y) % Modulus == 0
    ensures Int32(x * k + z) == Int32(y * k + z)
  {
    var j := (x - y) / Modulus;
    assert x == y + Modulus * j;
    assert x * k + z == y * k + z + Modulus * (j * k) by {
      assert x * k == (y + Modulus * j) * k == y * k + Modulus * (j * k);
    }
    Int32Shift(y * k + z, j * k);
  }

  /** The loop of `String.hashCode` from hash `h` over the characters `s`: `h = 31 * h + c` in `int` arithmetic. */
  function HashFrom(h: int, s: string): (r: int)
    requires IsInt32(h)
    ensures IsInt32(r)
    decreases |s|
  {
    if |s| == 0 then h else HashFrom(Int32(31 * h + s[0] as int), s[1..])
  }

  /** `String.hashCode`. */
  function HashCode(s: string): (h: int)
    ensures IsInt32(h)
  {
    HashFrom(0, s)
  }

  function Pow31(n: nat): (p: nat)
    ensures p >= 1
  {
    if n == 0 then 1 else 31 * Pow31(n - 1)
  }

  /** The documented value of a string's hash before wrapping: `s[0]*31^(n-1) + s[1]*31^(n-2) + ... + s[n-1]`. */
  function Weighted(s: string): int {
    if |s| == 0 then 0 else (s[0] as int) * Pow31(|s| - 1) + Weighted(s[1..])
  }

  /** Running the hash loop from `h` gives the wrapped polynomial with `h` as its leading coefficient. */
  lemma {:induction false} HashFromWeighted(h: int, s: string)
    requires IsInt32(h)
    ensures HashFrom(h, s) == Int32(h * Pow31(|s|) + Weighted(s))
    decreases |s|
  {
    if |s| > 0 {
      var c, t := s[0] as int, s[1..];
      var m := |t|;
      var h' := Int32(31 * h + c);
      HashFromWeighted(h', t);
      var p, w := Pow31(m), Weighted(t);
      HashStep(h, c, p, w, Pow31(|s|), Weighted(s));
    }
  }

  /** One step of the hash loop, in terms of the polynomial: `31 * h + c` stands for `h` shifted by one place. */
  lemma HashStep(h: int, c: int, p: int, w: int, p': int, w': int)
    requires p' == 31 * p && w' == c * p + w
    ensures Int32(Int32(31 * h + c) * p + w) == Int32(h * p' + w')
  {
    Int32Congruent(Int32(31 * h + c), 31 * h + c, p, w);
    assert (31 * h + c) * p + w == h * p' + w';
  }

  /** `String.hashCode` is the documented polynomial in 31 taken modulo 2^32 as a signed `int`. */
  lemma HashCodeFormula(s: string)
    ensures HashCode(s) == Int32(Weighted(s))
  {
    HashFromWeighted(0, s);
  }

  /** `Integer.toString`: an optional minus sign and the decimal digits of the magnitude. */
  function IntToString(n: int): (s: string)
    ensures |s| > 0
    ensures n < 0 <==> s[0] == '-'
    ensures forall k :: 0 <= k < |s| ==> IsDigit(s[k]) || (k == 0 && s[k] == '-')
  {
    if n < 0 then "-" + NatToString(-n) else NatToString(n)
  }

  /** Different integers are written differently. */
  lemma IntToStringInjective(a: int, b: int)
    requires IntToString(a) == IntToString(b)
    ensures a == b
  {
    var m, n := if a < 0 then -a else a, if b < 0 then -b else b;
    assert a < 0 <==> b < 0;
    assert NatToString(m) == NatToString(n) by {
      var s := IntToString(a);
      if a < 0 {
        assert NatToString(m) == s[1..] == NatToString(n);
      }
    }
    DigitsOfNat(m);
    DigitsOfNat(n);
  }

  // ---------------------------------------------------------------------------
  // generateUniqueId

  /** The identifier of a voter registered without a SNILS number. */
  function NameId(fullName: string, birthDate: string): string {
    "NAME_" + (IntToString(HashCode(fullName)) + "_" + IntToString(HashCode(birthDate)))
  }

  /** `generateUniqueId`: the SNILS number when one is given, otherwise the hash codes of the name and birth date. */
  function GenerateUniqueId(fullName: string, birthDate: string, snils: string): (id: string)
    ensures |snils| > 0 ==> id == "SNILS_" + snils
    ensures |snils| == 0 ==> id == NameId(fullName, birthDate)
  {
    if |snils| > 0 then "SNILS_" + snils else NameId(fullName, birthDate)
  }

  /** Two strings joined by a separator neither first part contains split back uniquely. */
  lemma SplitAtSeparator(x: string, y: string, u: string, v: string, sep: char)
    requires sep !in x && sep !in u
    requires x + [sep] + y == u + [sep] + v
    ensures x == u && y == v
  {
    var w := x + [sep] + y;
    assert w[|x|] == sep && w[|u|] == sep;
    assert forall k :: 0 <= k < |x| ==> w[k] == x[k];
    assert forall k :: 0 <= k < |u| ==> w[k] == u[k];
    assert x == w[..|x|] && u == w[..|u|];
    assert y == w[|x| + 1..] && v == w[|u| + 1..];
  }

  lemma IntToStringNoUnderscore(n: int)
    ensures '_' !in IntToString(n)
  {
    var s := IntToString(n);
    forall k | 0 <= k < |s|
      ensures s[k] != '_'
    {
    }
  }

  /** Name-based identifiers coincide exactly when both hash codes do. */
  lemma NameIdsEqual(name1: string, date1: string, name2: string, date2: string)
    ensures NameId(name1, date1) == NameId(name2, date2)
      <==> HashCode(name1) == HashCode(name2) && HashCode(date1) == HashCode(date2)
  {
    var x, y := IntToString(HashCode(name1)), IntToString(HashCode(date1));
    var u, v := IntToString(HashCode(name2)), IntToString(HashCode(date2));
    if NameId(name1, date1) == NameId(name2, date2) {
      assert x + "_" + y == NameId(name1, date1)[5..] == NameId(name2, date2)[5..] == u + "_" + v;
      IntToStringNoUnderscore(HashCode(name1));
      IntToStringNoUnderscore(HashCode(name2));
      SplitAtSeparator(x, y, u, v, '_');
      IntToStringInjective(HashCode(name1), HashCode(name2));
      IntToStringInjective(HashCode(date1), HashCode(date2));
    }
  }

  /** With a SNILS number the identifier determines it, and it never equals a name-based identifier. */
  lemma SnilsIdsDistinct(name1: string, date1: string, snils1: string, name2: string, date2: string, snils2: string)
    requires |snils1| > 0
    ensures GenerateUniqueId(name1, date1, snils1) == GenerateUniqueId(name2, date2, snils2) <==> snils1 == snils2
  {
    var id1, id2 := GenerateUniqueId(name1, date1, snils1), GenerateUniqueId(name2, date2, snils2);
    assert id1[0] == 'S';
    if |snils2| == 0 {
      assert id2[0] == 'N';
    } else {
      assert snils1 == id1[6..] && snils2 == id2[6..];
    }
  }

  /** "Aa" and "BB" have the same hash code, so two voters without SNILS get the same "unique" identifier. */
  lemma NameIdsCollide(birthDate: string)
    ensures "Aa" != "BB"
    ensures GenerateUniqueId("Aa", birthDate, "") == GenerateUniqueId("BB", birthDate, "")
  {
    assert HashCode("Aa") == 2112 == HashCode("BB");
  }

  // ---------------------------------------------------------------------------
  // Accounts and the registry

  /** `User`: a voter, with the elections voted in. */
  datatype User = User(login: string, password: string, fullName: string, birthDate: string,
                       snils: string, uniqueId: string, votedIn: seq<string>)

  /** `CEC`: an election commission account. */
  datatype Cec = Cec(login: string, password: string)

  /** `Candidate`: party and biography stay unset until the candidate fills them in. */
  datatype Candidate = Candidate(login: string, password: string, fullName: string,
                                 party: Option<string>, bio: Option<string>, participatedIn: seq<string>)

  /** The three account maps of `VotingSystem`, each keyed by login. */
  datatype Registry = Registry(users: map<string, User>, cecs: map<string, Cec>, candidates: map<string, Candidate>)

  /** Whether a change was made (the Java code prints a success or a refusal), and the registry afterwards. */
  datatype Outcome = Outcome(ok: bool, registry: Registry)

  /** The registry before any account exists. */
  const Empty: Registry := Registry(map[], map[], map[])

  /** Every account is stored under its own login. */
  ghost predicate WellKeyed(reg: Registry) {
    && (forall l :: l in reg.users ==> reg.users[l].login == l)
    && (forall l :: l in reg.cecs ==> reg.cecs[l].login == l)
    && (forall l :: l in reg.candidates ==> reg.candidates[l].login == l)
  }

  /** The login is taken in at least one of the three maps. */
  predicate Taken(reg: Registry, login: string) {
    login in reg.users || login in reg.cecs || login in reg.candidates
  }

  /** `registerUser`: a new voter under a login no map knows yet; otherwise nothing changes. */
  function RegisterUser(reg: Registry, fullName: string, birthDate: string, snils: string,
                        login: string, password: string): (r: Outcome)
    ensures r.ok <==> !Taken(reg, login)
    ensures !r.ok ==> r.registry == reg
    ensures r.ok ==> && r.registry.cecs == reg.cecs && r.registry.candidates == reg.candidates
                     && r.registry.users.Keys == reg.users.Keys + {login}
                     && (forall l :: l in reg.users ==> r.registry.users[l] == reg.users[l])
    ensures r.ok ==> var u := r.registry.users[login];
      && u.login == login && u.password == password && u.fullName == fullName
      && u.birthDate == birthDate && u.snils == snils && u.votedIn == []
      && u.uniqueId == GenerateUniqueId(fullName, birthDate, snils)
  {
    if Taken(reg, login) then Outcome(false, reg)
    else
      var user := User(login, password, fullName, birthDate, snils, GenerateUniqueId(fullName, birthDate, snils), []);
      Outcome(true, reg.(users := reg.users[login := user]))
  }

  /** `createCEC`: refused only when the login is already a commission's. */
  function CreateCec(reg: Registry, login: string, password: string): (r: Outcome)
    ensures r.ok <==> login !in reg.cecs
    ensures !r.ok ==> r.registry == reg
    ensures r.ok ==> && r.registry.users == reg.users && r.registry.candidates == reg.candidates
                     && r.registry.cecs.Keys == reg.cecs.Keys + {login}
                     && (forall l :: l in reg.cecs ==> r.registry.cecs[l] == reg.cecs[l])
                     && r.registry.cecs[login] == Cec(login, password)
  {
    if login in reg.cecs then Outcome(false, reg)
    else Outcome(true, reg.(cecs := reg.cecs[login := Cec(login, password)]))
  }

  /** `addCandidate`: refused only when the login is already a candidate's. */
  function AddCandidate(reg: Registry, login: string, password: string, fullName: string): (r: Outcome)
    ensures r.ok <==> login !in reg.candidates
    ensures !r.ok ==> r.registry == reg
    ensures r.ok ==> && r.registry.users == reg.users && r.registry.cecs == reg.cecs
                     && r.registry.candidates.Keys == reg.candidates.Keys + {login}
                     && (forall l :: l in reg.candidates ==> r.registry.candidates[l] == reg.candidates[l])
                     && r.registry.candidates[login] == Candidate(login, password, fullName, None, None, [])
  {
    if login in reg.candidates then Outcome(false, reg)
    else Outcome(true, reg.(candidates := reg.candidates[login := Candidate(login, password, fullName, None, None, [])]))
  }

  /** `deleteUser`: removes the login from the voters if it is there; the other maps are untouched. */
  function DeleteUser(reg: Registry, login: string): (r: Outcome)
    ensures r.ok <==> login in reg.users
    ensures r.registry.cecs == reg.cecs && r.registry.candidates == reg.candidates
    ensures r.registry.users.Keys == reg.users.Keys - {login}
    ensures forall l :: l in r.registry.users ==> r.registry.users[l] == reg.users[l]
  {
    if login in reg.users then Outcome(true, reg.(users := reg.users - {login}))
    else Outcome(false, reg)
  }

  /** `deleteCEC`: removes the login from the commissions if it is there; the other maps are untouched. */
  function DeleteCec(reg: Registry, login: string): (r: Outcome)
    ensures r.ok <==> login in reg.cecs
    ensures r.registry.users == reg.users && r.registry.candidates == reg.candidates
    ensures r.registry.cecs.Keys == reg.cecs.Keys - {login}
    ensures forall l :: l in r.registry.cecs ==> r.registry.cecs[l] == reg.cecs[l]
  {
    if login in reg.cecs then Outcome(true, reg.(cecs := reg.cecs - {login}))
    else Outcome(false, reg)
  }

  /** `deleteCandidate`: removes the login from the candidates if it is there; the other maps are untouched. */
  function DeleteCandidate(reg: Registry, login: string): (r: Outcome)
    ensures r.ok <==> login in reg.candidates
    ensures r.registry.users == reg.users && r.registry.cecs == reg.cecs
    ensures r.registry.candidates.Keys == reg.candidates.Keys - {login}
    ensures forall l :: l in r.registry.candidates ==> r.registry.candidates[l] == reg.candidates[l]
  {
    if login in reg.candidates then Outcome(true, reg.(candidates := reg.candidates - {login}))
    else Outcome(false, reg)
  }

  // ---------------------------------------------------------------------------
  // Inverses and the invariant

  /** Deleting the voter just registered gives back the registry as it was. */
  lemma DeleteUndoesRegister(reg: Registry, fullName: string, birthDate: string, snils: string,
                             login: string, password: string)
    requires RegisterUser(reg, fullName, birthDate, snils, login, password).ok
    ensures var r := RegisterUser(reg, fullName, birthDate, snils, login, password);
      DeleteUser(r.registry, login) == Outcome(true, reg)
  {
    var r := RegisterUser(reg, fullName, birthDate, snils, login, password);
    assert r.registry.users - {login} == reg.users;
  }

  /** Deleting the commission just created gives back the registry as it was. */
  lemma DeleteUndoesCreateCec(reg: Registry, login: string, password: string)
    requires CreateCec(reg, login, password).ok
    ensures DeleteCec(CreateCec(reg, login, password).registry, login) == Outcome(true, reg)
  {
    assert CreateCec(reg, login, password).registry.cecs - {login} == reg.cecs;
  }

  /** Deleting the candidate just added gives back the registry as it was. */
  lemma DeleteUndoesAddCandidate(reg: Registry, login: string, password: string, fullName: string)
    requires AddCandidate(reg, login, password, fullName).ok
    ensures DeleteCandidate(AddCandidate(reg, login, password, fullName).registry, login) == Outcome(true, reg)
  {
    assert AddCandidate(reg, login, password, fullName).registry.candidates - {login} == reg.candidates;
  }

  /** A second delete of the same login is refused and changes nothing. */
  lemma DeleteTwice(reg: Registry, login: string)
    ensures var r := DeleteUser(reg, login).registry; DeleteUser(r, login) == Outcome(false, r)
    ensures var r := DeleteCec(reg, login).registry; DeleteCec(r, login) == Outcome(false, r)
    ensures var r := DeleteCandidate(reg, login).registry; DeleteCandidate(r, login) == Outcome(false, r)
  {
  }

  /** Every operation that adds an account stores it under its own login. */
  lemma AddsKeepKeyed(reg: Registry, fullName: string, birthDate: string, snils: string,
                      login: string, password: string)
    requires WellKeyed(reg)
    ensures WellKeyed(RegisterUser(reg, fullName, birthDate, snils, login, password).registry)
    ensures WellKeyed(CreateCec(reg, login, password).registry)
    ensures WellKeyed(AddCandidate(reg, login, password, fullName).registry)
  {
  }

  /** Deleting keeps every remaining account under its own login. */
  lemma DeletesKeepKeyed(reg: Registry, login: string)
    requires WellKeyed(reg)
    ensures WellKeyed(DeleteUser(reg, login).registry)
    ensures WellKeyed(DeleteCec(reg, login).registry)
    ensures WellKeyed(DeleteCandidate(reg, login).registry)
  {
  }

  // ---------------------------------------------------------------------------
  // The asymmetric uniqueness checks

  /** A voter's login can still become a commission's and a candidate's login: the three maps may share a login. */
  lemma CrossMapDuplicates(reg: Registry, fullName: string, birthDate: string, snils: string,
                           login: string, password: string, cecPassword: string, candidatePassword: string)
    requires !Taken(reg, login)
    ensures var r1 := RegisterUser(reg, fullName, birthDate, snils, login, password);
      var r2 := CreateCec(r1.registry, login, cecPassword);
      var r3 := AddCandidate(r2.registry, login, candidatePassword, fullName);
      && r1.ok && r2.ok && r3.ok
      && login in r3.registry.users && login in r3.registry.cecs && login in r3.registry.candidates
  {
  }

  /** The other way round the checks refuse: a login any map holds cannot be registered as a voter. */
  lemma RegisterAfterOthersRefused(reg: Registry, fullName: string, birthDate: string, snils: string,
                                   login: string, password: string)
    requires login in reg.cecs || login in reg.candidates
    ensures RegisterUser(reg, fullName, birthDate, snils, login, password) == Outcome(false, reg)
  {
  }

  // ---------------------------------------------------------------------------
  // login

  const AdminLogin: string := "admin"
  const AdminPassword: string := "admin123"

  /** The menu a login opens, with the account it was opened for. */
  datatype Session = AdminSession | UserSession(user: User) | CecSession(cec: Cec)
                   | CandidateSession(candidate: Candidate) | Rejected

  predicate UserMatches(reg: Registry, login: string, password: string) {
    login in reg.users && reg.users[login].password == password
  }

  predicate CecMatches(reg: Registry, login: string, password: string) {
    login in reg.cecs && reg.cecs[login].password == password
  }

  predicate CandidateMatches(reg: Registry, login: string, password: string) {
    login in reg.candidates && reg.candidates[login].password == password
  }

  /** The built-in administrator's fixed login and password. */
  predicate AdminMatches(login: string, password: string) {
    login == AdminLogin && password == AdminPassword
  }

  /**
   `login`: the built-in administrator first, then voters, commissions and
   candidates in that order; the first whose entry has the password wins.
   */
  function Login(reg: Registry, login: string, password: string): (s: Session)
    ensures AdminMatches(login, password) ==> s == AdminSession
    ensures !AdminMatches(login, password) && UserMatches(reg, login, password) ==>
      s == UserSession(reg.users[login])
    ensures !AdminMatches(login, password) && !UserMatches(reg, login, password) && CecMatches(reg, login, password) ==>
      s == CecSession(reg.cecs[login])
    ensures (!AdminMatches(login, password) && !UserMatches(reg, login, password) && !CecMatches(reg, login, password)
             && CandidateMatches(reg, login, password)) ==> s == CandidateSession(reg.candidates[login])
    ensures s.Rejected? <==> (!AdminMatches(login, password)
      && !UserMatches(reg, login, password) && !CecMatches(reg, login, password)
      && !CandidateMatches(reg, login, password))
  {
    if AdminMatches(login, password) then AdminSession
    else if UserMatches(reg, login, password) then UserSession(reg.users[login])
    else if CecMatches(reg, login, password) then CecSession(reg.cecs[login])
    else if CandidateMatches(reg, login, password) then CandidateSession(reg.candidates[login])
    else Rejected
  }

  /** A session other than the administrator's opens an entry whose password is the one typed. */
  lemma LoginChecksPassword(reg: Registry, login: string, password: string)
    ensures var s := Login(reg, login, password);
      && (s.AdminSession? <==> AdminMatches(login, password))
      && (s.UserSession? ==> login in reg.users && s.user == reg.users[login] && s.user.password == password)
      && (s.CecSession? ==> login in reg.cecs && s.cec == reg.cecs[login] && s.cec.password == password)
      && (s.CandidateSession? ==> login in reg.candidates && s.candidate == reg.candidates[login]
                                  && s.candidate.password == password)
  {
  }

  /** A commission shadows a candidate with the same login and password. */
  lemma CecShadowsCandidate(reg: Registry, login: string, password: string)
    requires !AdminMatches(login, password) && !UserMatches(reg, login, password)
    requires CecMatches(reg, login, password) && CandidateMatches(reg, login, password)
    ensures Login(reg, login, password) == CecSession(reg.cecs[login])
  {
  }

  /** In a well-keyed registry the account logged in is the one with the login typed. */
  lemma LoginOpensOwnAccount(reg: Registry, login: string, password: string)
    requires WellKeyed(reg)
    ensures var s := Login(reg, login, password);
      && (s.UserSession? ==> s.user.login == login)
      && (s.CecSession? ==> s.cec.login == login)
      && (s.CandidateSession? ==> s.candidate.login == login)
  {
  }

  /** A commission or candidate sharing a voter's login and password can never log in: the voter's menu opens. */
  lemma VoterShadowsOthers(reg: Registry, login: string, password: string)
    requires UserMatches(reg, login, password)
    ensures var s := Login(reg, login, password);
      !s.CecSession? && !s.CandidateSession? && (s.AdminSession? || s.user == reg.users[login])
  {
  }

  /**
   Shadowing is reachable: a voter registers, then a commission is created
   with the same login and password, and logging in with them opens the
   voter's menu.
   */
  lemma ShadowedCommissionReachable(login: string, password: string)
    requires login != AdminLogin
    ensures var r1 := RegisterUser(Empty, "", "", "", login, password);
      var r2 := CreateCec(r1.registry, login, password);
      && r2.ok && r2.registry.cecs[login].password == password
      && Login(r2.registry, login, password).UserSession?
  {
  }
}


=== FILE: wrappers.dfy ===
/** Failure-compatible wrappers shared by every module of the model. */
module Wrappers {

  /** A value that may be absent (Java's `Optional` and nullable lookups). */
  datatype Option<+T> = None | Some(value: T) {

    predicate IsFailure() {
      None?
    }

    function PropagateFailure<U>(): Option<U>
      requires None?
    {
      None
    }

    function Extract(): T
      requires Some?
    {
      value
    }
  }

  /** Either a value or an error; stands for a Java method that may throw. */
  datatype Result<+T, +E> = Success(value: T) | Failure(error: E) {

    predicate IsFailure() {
      Failure?
    }

    function PropagateFailure<U>(): Result<U, E>
      requires Failure?
    {
      Failure(error)
    }

    function Extract(): T
      requires Success?
    {
      value
    }
  }
}
